=== FILE: README.md ===
# lego-api core in Dafny

This project models the composition and pricing core of the lego-api service.
Lego boxes are built from pieces and from other boxes, and each box is priced as
the sum of its components. Sales of a box are recorded as transactions. The
modelled core is:

- the `LegoBoxService` operations: box creation, `addComponents`,
  `batchImport` and the sale of a box (`createTransactionBox`);
- the cache-aside read of a box's transaction history and its invalidation;
- the two background pipelines, which share one job-log scheme:
  - the component-update pipeline: its producer, its consumer, and the batch
    service that attaches components to a named box;
  - the price-update pipeline: its producer, its consumer, and the batch service
    that reprices every box above a changed box and then resyncs sales totals.

The whole system is one immutable `AppState.State`. It holds the database
(`Store.Db`), the two job logs (`Jobs.JobLog`), the two broker queues (modelled as
outboxes of emitted messages) and the cache. Every operation is a pure function
from a state to a `Run` (the new state plus a result or the error thrown). For a
consumer handler the function returns a `Handled` value instead: the state, the
`isProcessing` gate, how the delivery was settled, and the error rethrown.

Modelling choices:

- Money is in integer cents (`Store.Cents`). The `decimal(10, 2)` columns and
  `toFixed(2)` are then exact.
- Error messages are real strings (`Errors.Error.Message`). This makes the
  consumers' `isTemporaryError` a real substring test.
- A promise nobody awaits (`processBox` recursion, the component service's
  `updateTransaction`, `queueComponent`, cache invalidation) runs to completion in
  program order. Its rejection is dropped.
- The only modelled faults are broker emit failures. The clock is a `now`
  parameter. Batch ids are a counter in place of `uuidv4()`.
- The containment graph has no cycles; a ghost `rank` map witnesses this
  (`Store.Ranked`). The upward repricing recursion terminates on that rank.
- The component consumer's rollback restores the database only. The job logs,
  the broker and the cache are written outside the query runner's transaction,
  so those writes stay.

Behaviour of the code that the model keeps as written:

- Both services refuse a box that contains itself. `addComponents` rejects a
  child equal to the parent (src/lego-box/lego-box.service.ts:128-132). The
  component batch service throws "Circular reference detected: A box cannot
  contain itself" (batch-legobox-component-update-service.ts:123-127). Beyond
  that, `addComponents` only checks whether the child directly contains the
  parent, one level down (src/lego-box/lego-box.service.ts:134-142). So a
  longer cycle is accepted (`LegoBoxService.OneLevelCheckAdmitsCycle`).
- The two services compute a box's price in two ways:
  - The price batch service recomputes a container's price as the sum over all
    of its current children (batch-lego-box-price-update-service.ts:99-111).
  - The component batch service writes each component's price on top of the
    price it loaded before its loop. So after a run only the last component
    counts (`ComponentBatch.LastWriteWins`, `ComponentBatch.TwoCirclesPricedAsOne`).

  The price job that the component batch service queues repairs the containers
  above the box, not the box itself.
- Both consumers nack a failed job with `requeue` set only for a temporary error
  (batch-component-update-consumer.ts:101-103,
  batch-price-update-consumer.ts:93-94). The price consumer marks the job
  `failed` without the error text or a timestamp, and rethrows the error
  (batch-price-update-consumer.ts:86-95).
- `batchImport` queues `SingleComponentImport` payloads
  (src/lego-box/lego-box.service.ts:201-207), while the component service
  iterates the `components` of a `BatchBoxDto` (batch-legobox-component-update-service.ts:50).
  Both payload shapes are kept (`AppState.ComponentPayload`). A single import
  finds or creates its box and then fails with "is not iterable", which the
  consumer rolls back.

## Model

| member | source | states |
|---|---|---|
| LegoBoxService.CreateLegoBox | src/lego-box/lego-box.service.ts:49-64 | fails with the duplicate-name error exactly when some box already has the name, and then nothing changes; otherwise the box is inserted at price 0 under the next id, and that box is returned |
| LegoBoxService.CreateKeepsValid | src/lego-box/lego-box.service.ts:49-64 | creating a box keeps the schema invariants (unique names, resolving keys); a created box is the one found under its name afterwards |
| LegoBoxService.Admit | src/lego-box/lego-box.service.ts:99-153 | a piece is admitted iff it exists. A box is refused as not found when it is missing or has no components. Otherwise it is refused when it is the parent (self-containment) or directly contains the parent (back reference). An admitted component's edge resolves and is never a self edge |
| LegoBoxService.Gather | src/lego-box/lego-box.service.ts:97-154 | the request loop succeeds iff every requested component is admitted; every gathered edge hangs under the parent, resolves, and is not a self edge |
| LegoBoxService.GatherPrice | src/lego-box/lego-box.service.ts:97-154 | the price the loop accumulates equals the price sum over the edges it gathers |
| LegoBoxService.GatherCounts | src/lego-box/lego-box.service.ts:99-154 | each child occurs among the gathered edges exactly as often as the requests ask for it, counting `amount` units per request |
| LegoBoxService.GatherFailsAtFirstRejection | src/lego-box/lego-box.service.ts:99-154 | a failing request loop throws the error of the first refused component, and every component before it is admissible |
| LegoBoxService.AddComponents | src/lego-box/lego-box.service.ts:82-176 | a missing parent gives not-found and nothing changes. A refused component throws its error and the transaction rolls back. Otherwise the edges are committed and the parent's price rises by the increment, then a price job is queued with the box snapshot. An emit fault is rethrown with the commit kept; on success the box's cache entry is dropped and the snapshot returned |
| LegoBoxService.AddComponentsInsertsRequested | src/lego-box/lego-box.service.ts:99-160 | the old edges survive as a prefix; the new edges all hang under the parent, each child occurring as often as requested; the parent's price rises by exactly the price of the new edges |
| LegoBoxService.AddComponentsConsistency | src/lego-box/lego-box.service.ts:82-160 | if every box was priced as its component sum, afterwards the parent still is, and the only boxes that can be off are those directly containing the parent |
| LegoBoxService.CommitKeepsConsistent | src/lego-box/lego-box.service.ts:156-160 | committing the edges with their price increment keeps a consistent box consistent, unless it directly contains the parent |
| LegoBoxService.AddComponentsKeepsValid | src/lego-box/lego-box.service.ts:82-176 | `addComponents` keeps the schema invariants, whatever the outcome |
| LegoBoxService.OneLevelCheckAdmitsCycle | src/lego-box/lego-box.service.ts:134-142 | in the chain Abc holds Bcd holds Cde, adding Abc into Cde is accepted, and the resulting edges admit no ranking: the one-level check lets a cycle in |
| LegoBoxService.ValidateBoxComponent | src/lego-box/lego-box.service.ts:210-253 | a piece passes iff it exists. A box fails as not found when missing or empty. When no box has the parent's name, it fails reading `id` of null. Otherwise it fails on self-containment, or when it directly contains the named parent, and passes in every other case |
| LegoBoxService.NewBoxCannotTakeBoxes | src/lego-box/lego-box.service.ts:232-237 | a batch entry whose box does not exist yet fails validation for any box component |
| LegoBoxService.ValidateComponents | src/lego-box/lego-box.service.ts:183-185 | one batch entry passes iff each of its components passes. On failure the error is that of the first component, in order, that fails, and every component before it passes |
| LegoBoxService.ValidateBoxes | src/lego-box/lego-box.service.ts:182-186 | the validation pass succeeds iff every component of every batch entry passes. On failure the error is that of the first failing (entry, component) pair in loop order: every component of earlier entries passes, and so does every earlier component of the same entry |
| LegoBoxService.Expand | src/lego-box/lego-box.service.ts:187-193 | every single import the fan-out queues names a batch entry and one of that entry's components |
| LegoBoxService.ExpandComponentsLength | src/lego-box/lego-box.service.ts:188-192 | one entry yields its component count times its amount imports |
| LegoBoxService.ExpandLength | src/lego-box/lego-box.service.ts:187-193 | the fan-out queues one import per component unit over all entries |
| LegoBoxService.ExpandComponentsCounts | src/lego-box/lego-box.service.ts:188-192 | within one entry, each import occurs once per listing of its component per unit of amount, and never under another name |
| LegoBoxService.ExpandCounts | src/lego-box/lego-box.service.ts:187-193 | each single import occurs exactly as often as the batch asks for it, summed over the entries |
| LegoBoxService.FanOut | src/lego-box/lego-box.service.ts:197-208 | queueing the imports touches only the component log and queue; one fresh batch id per import; existing rows are untouched |
| LegoBoxService.FanOutKeys | src/lego-box/lego-box.service.ts:187-193 | the log's new rows are exactly the batch ids handed out, one per import |
| LegoBoxService.FanOutRow | src/lego-box/lego-box.service.ts:197-208 | the row for the k-th import holds that import: pending, or failed with the broker's error text when its emit failed |
| LegoBoxService.FanOutQueue | src/lego-box/lego-box.service.ts:187-193 | the queue gains, in order, a message for exactly those imports whose emit did not fail |
| LegoBoxService.FanOutJournaled | src/lego-box/lego-box.service.ts:187-193 | if every queued message had a log row with its payload before, that still holds after the fan-out |
| LegoBoxService.EmittedWithoutFaults | src/lego-box/lego-box.service.ts:187-193 | without broker faults one message per import is queued, in order, under consecutive batch ids |
| LegoBoxService.BatchImport | src/lego-box/lego-box.service.ts:178-195 | a validation error is thrown before anything is queued; otherwise the success message is returned after the fan-out, and the counter advances by the number of units |
| LegoBoxService.CreateTransactionBox | src/lego-box/lego-box.service.ts:295-373 | a missing box gives not-found; a box priced 0 is forbidden. Otherwise the sale is recorded at the box's price: a link to a missing transaction rolls back. On success the cache entry is dropped and the written transaction returned |
| LegoBoxService.CreateTransactionBoxKeepsSales | src/lego-box/lego-box.service.ts:295-373 | a box whose sales total equals its price times the units sold still satisfies that after a sale; the schema invariants hold; a success drops the cache entry |
| HistoryCache.KeyInjective | src/lego-box/lego-box.service.ts:256 | different boxes get different `transaction_history:` keys |
| HistoryCache.SalesOf | src/lego-box/lego-box.service.ts:275-283 | the joined history rows are links of that box only, each with its transaction when one exists |
| HistoryCache.SalesOfCounts | src/lego-box/lego-box.service.ts:275-283 | the history drops and duplicates nothing: each link of the box occurs in it as often as in the links table, and links of other boxes never occur |
| HistoryCache.SalesOfComplete | src/lego-box/lego-box.service.ts:275-283 | every link of the box appears in its history |
| HistoryCache.Invalidate | src/lego-box/lego-box.service.ts:290-293 | removes exactly the box's key; every other entry and the rest of the state stay |
| HistoryCache.GetTransactionHistory | src/lego-box/lego-box.service.ts:255-288 | a hit returns the cached value and changes nothing. A miss for a missing box fails with the box-id not-found error. A miss for an existing box returns the database's view and stores it under the key |
| HistoryCache.ReadIsCoherent | src/lego-box/lego-box.service.ts:255-288 | if every cached entry equals the database's view, a read returns that view (or not-found for a missing box), and the cache stays coherent |
| HistoryCache.RepeatedReadHits | src/lego-box/lego-box.service.ts:259-262 | a second read right after a successful one returns the same value and changes nothing |
| HistoryCache.InvalidateForcesReload | src/lego-box/lego-box.service.ts:290-293 | after invalidation the key is gone and other boxes' entries are kept; the next read reloads the current view |
| HistoryCache.InvalidateKeepsCoherence | src/lego-box/lego-box.service.ts:290-293 | dropping an entry keeps a coherent cache coherent |
| Sales.FirstLink | src/lego-box/lego-box.service.ts:318-320 | the link `findOne` picks is absent iff the box has no link, and otherwise it is a link of that box |
| Sales.RecordSale | src/lego-box/lego-box.service.ts:317-356 | a box without links gets a new transaction under the next id, totalling price times amount. When the first link's transaction is missing the sale fails. Otherwise that transaction's total grows by price times amount. Every success appends the link and leaves other transactions alone |
| Sales.SaleKeepsSalesConsistent | src/lego-box/batch-imports/batch-legobox-component-update/batch-legobox-component-update-service.ts:157-202 | recording a sale at the box's own price keeps its total equal to price times units sold |
| Sales.RecordSaleKeepsValid | src/lego-box/lego-box.service.ts:317-356 | a recorded sale keeps the schema invariants |
| Sales.ResyncTotal | src/lego-box/batch-imports/lego-box-price-batch-update/batch-lego-box-price-update-service.ts:55-64 | the resync loop's total is the price times the units sold over the links that have a transaction |
| Sales.Resync | src/lego-box/batch-imports/lego-box-price-batch-update/batch-lego-box-price-update-service.ts:39-75 | box id 0 or no link leaves the database as it is. If the first link has no transaction it fails reading `id` of null. Otherwise only that transaction's total changes, to price times units sold |
| Sales.ResyncEstablishesSalesConsistent | src/lego-box/batch-imports/lego-box-price-batch-update/batch-lego-box-price-update-service.ts:39-75 | a successful resync at the box's own price makes its total equal price times units sold |
| Sales.ResyncReplaces | src/lego-box/batch-imports/lego-box-price-batch-update/batch-lego-box-price-update-service.ts:55-70 | the total is recomputed, not adjusted: whatever the stored totals were, the first link's new total is the same |
| Sales.ResyncIdempotent | src/lego-box/batch-imports/lego-box-price-batch-update/batch-lego-box-price-update-service.ts:39-75 | resyncing twice at the same price gives the same database as resyncing once |
| Sales.ResyncSucceeds | src/lego-box/batch-imports/lego-box-price-batch-update/batch-lego-box-price-update-service.ts:66 | in a database whose links all resolve, the resync never fails |
| ComponentBatch.FindOrCreate | src/lego-box/batch-imports/batch-legobox-component-update/batch-legobox-component-update-service.ts:32-44 | an existing name yields that box and an unchanged database; otherwise a box at price 0 is inserted under the next id; either way the result is valid and found by the name |
| ComponentBatch.Attach | src/lego-box/batch-imports/batch-legobox-component-update/batch-legobox-component-update-service.ts:88-102 | saving one component appends exactly its edge and overwrites only the box's price |
| ComponentBatch.ProcessPieceComponent | src/lego-box/batch-imports/batch-legobox-component-update/batch-legobox-component-update-service.ts:71-103 | a missing piece throws not-found; otherwise its edge is saved and the box priced at the loaded price plus the piece's |
| ComponentBatch.ProcessBoxComponent | src/lego-box/batch-imports/batch-legobox-component-update/batch-legobox-component-update-service.ts:105-155 | a missing box throws not-found. The box itself throws the circular-reference error. A child that directly contains the box throws already-contained. Otherwise the edge is saved and the box priced at the loaded price plus the child's |
| ComponentBatch.ProcessComponent | src/lego-box/batch-imports/batch-legobox-component-update/batch-legobox-component-update-service.ts:50-57 | a component that succeeds adds its resolving, non-self edge and prices the box at the loaded price plus that child's price |
| ComponentBatch.ProcessComponents | src/lego-box/batch-imports/batch-legobox-component-update/batch-legobox-component-update-service.ts:50-57 | a successful loop keeps the set of boxes and the transactions |
| ComponentBatch.ProcessComponentsEffect | src/lego-box/batch-imports/batch-legobox-component-update/batch-legobox-component-update-service.ts:50-57 | a successful loop appends one edge per component in order and changes no other box; only the target box's price moves |
| ComponentBatch.LastWriteWins | src/lego-box/batch-imports/batch-legobox-component-update/batch-legobox-component-update-service.ts:50-57 | after the loop the box's price is the price loaded before the loop plus the last component's price only |
| ComponentBatch.ProcessComponentsAdmitsLast | src/lego-box/batch-imports/batch-legobox-component-update/batch-legobox-component-update-service.ts:123-128 | the last component of a successful loop is never the box itself |
| ComponentBatch.TwoCirclesPricedAsOne | src/lego-box/batch-imports/batch-legobox-component-update/batch-legobox-component-update-service.ts:96-101 | importing a new box with two Circles saves both edges but prices it at 7 cents, half its 14-cent component sum |
| ComponentBatch.ProcessComponentsErrors | src/lego-box/batch-imports/batch-legobox-component-update/batch-legobox-component-update-service.ts:71-155 | the loop only ever throws not-found, circular-reference or already-contained |
| ComponentBatch.Reached | src/lego-box/batch-imports/batch-legobox-component-update/batch-legobox-component-update-service.ts:50-57 | the working copy when the loop stops keeps the box set, and after a successful loop it is the loop's result |
| ComponentBatch.ReachedAtFailure | src/lego-box/batch-imports/batch-legobox-component-update/batch-legobox-component-update-service.ts:50-57 | a failed loop stops at its first refused component: the working copy is the loop's result over the components before it, and that component raises the loop's error on it |
| ComponentBatch.ReachedKeepsValid | src/lego-box/batch-imports/batch-legobox-component-update/batch-legobox-component-update-service.ts:94-102 | the working copy a loop leaves, refused or not, keeps the schema invariants |
| ComponentBatch.EarlierWritesStay | src/lego-box/batch-imports/batch-legobox-component-update/batch-legobox-component-update-service.ts:94-102 | with a present piece followed by a missing one, the loop fails not-found on the second while the first piece's edge and price write stay in the working copy |
| ComponentBatch.RecordBatchSale | src/lego-box/batch-imports/batch-legobox-component-update/batch-legobox-component-update-service.ts:157-202 | the un-awaited sale update writes the sale at the box's price when it succeeds and leaves the database as it was when it fails; boxes, edges and pieces never change |
| ComponentBatch.ProcessData | src/lego-box/batch-imports/batch-legobox-component-update/batch-legobox-component-update-service.ts:25-69 | a failing loop rethrows, and its working copy keeps the find-or-create write and the writes of every component before the refused one. Otherwise the sale is recorded and a price job queued with the box's snapshot: an emit fault is rethrown, a success drops the cache entry. The component pipeline is untouched |
| ComponentBatch.ProcessPayload | src/lego-box/batch-imports/batch-legobox-component-update/batch-component-update-consumer.ts:79-82 | a batch-shaped payload runs the service; a single-import payload finds or creates its box and then fails as not iterable |
| ComponentBatch.AttachKeepsValid | src/lego-box/batch-imports/batch-legobox-component-update/batch-legobox-component-update-service.ts:88-102 | saving a resolving edge keeps the schema invariants |
| ComponentBatch.ProcessComponentsKeepsValid | src/lego-box/batch-imports/batch-legobox-component-update/batch-legobox-component-update-service.ts:50-57 | a successful loop keeps the schema invariants |
| ComponentBatch.ProcessPayloadKeepsValid | src/lego-box/batch-imports/batch-legobox-component-update/batch-legobox-component-update-service.ts:25-69 | processing a payload keeps the schema invariants and the price log's fresh ids |
| ComponentBatch.ProcessPayloadErrors | src/lego-box/batch-imports/batch-legobox-component-update/batch-legobox-component-update-service.ts:25-69 | every error is the broker's own fault text, or one of not-iterable, circular-reference, not-found and already-contained |
| ComponentBatch.ProcessPayloadTemporaryOnlyFromBroker | src/lego-box/batch-imports/batch-legobox-component-update/batch-legobox-component-update-service.ts:63 | an error classed as temporary can only come from a broker fault that is itself temporary |
| ComponentBatch.SingleComponentKeepsConsistent | src/lego-box/batch-imports/batch-legobox-component-update/batch-legobox-component-update-service.ts:50-62 | with exactly one component, a box priced as its component sum stays so |
| ComponentBatch.OneComponentConsistent | src/lego-box/batch-imports/batch-legobox-component-update/batch-legobox-component-update-service.ts:50-62 | adding one component on top of the box's own price and then recording the sale keeps the box priced as its component sum |
| ComponentBatch.AttachKeepsConsistent | src/lego-box/batch-imports/batch-legobox-component-update/batch-legobox-component-update-service.ts:88-102 | adding a non-self child on top of the box's current price keeps a consistent box consistent |
| ComponentBatch.SaleKeepsPricing | src/lego-box/batch-imports/batch-legobox-component-update/batch-legobox-component-update-service.ts:157-202 | recording a sale does not change whether any box is priced as its component sum |
| PriceBatch.Reprice | src/lego-box/batch-imports/lego-box-price-batch-update/batch-lego-box-price-update-service.ts:92-123 | the saved parent is priced at the sum over its edges; every other box and all other tables stay |
| PriceBatch.RepriceConsistent | src/lego-box/batch-imports/lego-box-price-batch-update/batch-lego-box-price-update-service.ts:92-123 | in an acyclic graph the recomputed parent is consistent in the new database too |
| PriceBatch.RepriceIdempotent | src/lego-box/batch-imports/lego-box-price-batch-update/batch-lego-box-price-update-service.ts:92-123 | recomputing a parent twice gives the same database as recomputing it once |
| PriceBatch.RepriceIgnoresOldPrice | src/lego-box/batch-imports/lego-box-price-batch-update/batch-lego-box-price-update-service.ts:99-119 | the recompute replaces the stored price: databases that differ only in that price reprice alike |
| PriceBatch.ProcessBox | src/lego-box/batch-imports/lego-box-price-batch-update/batch-lego-box-price-update-service.ts:77-133 | the upward pass writes only box prices, transaction totals and cache removals |
| PriceBatch.RepriceParents | src/lego-box/batch-imports/lego-box-price-batch-update/batch-lego-box-price-update-service.ts:86-128 | the loop over parent edges writes only box prices, transaction totals and cache removals |
| PriceBatch.ProcessData | src/lego-box/batch-imports/lego-box-price-batch-update/batch-lego-box-price-update-service.ts:24-37 | box prices are those the pass leaves. It fails, reading `id` of null, iff the box's first link has no transaction. On success the cache entry is gone and that transaction totals the message's price times units sold |
| PriceConsistency.ProcessBoxPrices | src/lego-box/batch-imports/lego-box-price-batch-update/batch-lego-box-price-update-service.ts:77-133 | no box outside the cone strictly above the changed box is written |
| PriceConsistency.RepriceParentsPrices | src/lego-box/batch-imports/lego-box-price-batch-update/batch-lego-box-price-update-service.ts:86-128 | the loop writes no box outside the cones of the remaining parents |
| PriceConsistency.ProcessBoxConsistent | src/lego-box/batch-imports/lego-box-price-batch-update/batch-lego-box-price-update-service.ts:77-133 | after the pass every box strictly above the changed box is priced as its component sum; every other box is consistent iff it was before |
| PriceConsistency.RepriceParentsConsistent | src/lego-box/batch-imports/lego-box-price-batch-update/batch-lego-box-price-update-service.ts:86-128 | the loop leaves every box in the remaining parents' cones consistent and the rest as they were; a parent equal to the last one worked on is safely skipped |
| PriceConsistency.FirstParentPass | src/lego-box/batch-imports/lego-box-price-batch-update/batch-lego-box-price-update-service.ts:113-127 | repricing one parent, resyncing it and recursing above it leaves that parent's whole cone consistent and every other box as it was |
| PriceConsistency.RepricedParent | src/lego-box/batch-imports/lego-box-price-batch-update/batch-lego-box-price-update-service.ts:113-124 | the parent's resync succeeds and the parent becomes consistent; boxes outside its cone keep their consistency |
| PriceConsistency.TouchedParentsOf | src/lego-box/batch-imports/lego-box-price-batch-update/batch-lego-box-price-update-service.ts:79-84 | the cones of the box's parent edges together are exactly the boxes strictly above it |
| Jobs.SetRow | src/lego-box/batch-imports/lego-box-price-batch-update/batch-price-update-consumer.ts:63-66 | an update by batch id replaces that row if present, and is a no-op otherwise |
| Jobs.Produce | src/lego-box/batch-imports/lego-box-price-batch-update/batch-price-update-producer.ts:20-47 | a row under a fresh batch id is written before the emit. Without a fault the row is pending, the message is appended and the id returned. With a fault the row is failed with the error text, nothing is emitted, and the error is rethrown |
| Jobs.ProduceKeepsJournal | src/lego-box/batch-imports/lego-box-price-batch-update/batch-price-update-producer.ts:20-47 | every message in the outbox has a log row with its payload, before and after producing |
| Jobs.FailedProduceEmitsNothing | src/lego-box/batch-imports/lego-box-price-batch-update/batch-price-update-producer.ts:39-46 | when the emit fails, no message carries the new batch id |
| Jobs.GetBatchStatus | src/lego-box/batch-imports/lego-box-price-batch-update/batch-price-update-producer.ts:50-54 | the lookup finds a row iff the batch id is logged, and returns that row |
| Jobs.StatusAfterProduce | src/lego-box/batch-imports/lego-box-price-batch-update/batch-price-update-producer.ts:20-54 | right after producing, the status lookup reports the payload as pending, or as failed with the broker's error |
| Jobs.UpdateJobStatus | src/lego-box/batch-imports/batch-legobox-component-update/batch-component-update-consumer.ts:121-147 | only the named row changes, and a missing row is a no-op. Its status is set, and it is stamped with `now` exactly for completed or failed. Its error is set exactly when a non-empty text is given |
| Producers.QueuePriceUpdate | src/lego-box/batch-imports/lego-box-price-batch-update/batch-price-update-producer.ts:20-47 | the price producer adds one row under the next batch id and changes nothing but the price log and queue. The row is pending with a queued message, or failed with the fault text and no message |
| Producers.QueueComponentUpdate | src/lego-box/batch-imports/batch-legobox-component-update/batch-component-update-producer.ts:18-44 | the component producer adds one row under the next batch id and changes nothing but the component log and queue. The row is pending with a queued message, or failed with the fault text and no message |
| Producers.GetBatchStatus | src/lego-box/batch-imports/lego-box-price-batch-update/batch-price-update-producer.ts:50-54 | returns the price job's row iff it is logged |
| ComponentConsumer.ProcessBatchImport | src/lego-box/batch-imports/batch-legobox-component-update/batch-component-update-consumer.ts:35-110 | a busy gate nacks with requeue and stays busy. A missing job nacks without requeue and changes nothing. A non-pending job is acked and skipped. Otherwise the job ends stamped: completed and acked with the work kept, or failed with the error text, the database rolled back and a nack that requeues iff the error is temporary. No error is rethrown |
| ComponentConsumer.Start | src/lego-box/batch-imports/batch-legobox-component-update/batch-component-update-consumer.ts:73 | marking the job as processing sets its row to `processing` with no timestamp and no error, keeps its payload, and changes no other row, the database, the price log, either queue or the cache |
| ComponentConsumer.HandlerKeepsValid | src/lego-box/batch-imports/batch-legobox-component-update/batch-component-update-consumer.ts:35-110 | the handler keeps the schema invariants and the price log's fresh ids |
| ComponentConsumer.RedeliveryIsSkipped | src/lego-box/batch-imports/batch-legobox-component-update/batch-component-update-consumer.ts:58-70 | once a logged job has been handled, any redelivery of its message is acked and changes nothing |
| ComponentConsumer.JobsOnlyAdvance | src/lego-box/batch-imports/batch-legobox-component-update/batch-component-update-consumer.ts:35-110 | every job row stays as it was, or goes from pending to completed or failed |
| ComponentConsumer.RequeueOnlyWhenBusyOrTransient | src/lego-box/batch-imports/batch-legobox-component-update/batch-component-update-consumer.ts:101-103 | a delivery is requeued only when the gate was busy or the price job's emit failed with a timeout or refused connection |
| PriceConsumer.MarkProcessing | src/lego-box/batch-imports/lego-box-price-batch-update/batch-price-update-consumer.ts:63-66 | only the job's status becomes processing |
| PriceConsumer.ProcessBatchPriceUpdate | src/lego-box/batch-imports/lego-box-price-batch-update/batch-price-update-consumer.ts:27-99 | the gate is always clear afterwards, and a delivery is requeued iff the gate was busy. A missing job nacks without requeue and rethrows. A non-pending job is acked. Otherwise the pass's writes stay: success is completed, stamped and acked; failure marks the row failed alone and rethrows the pass's error |
| PriceConsumer.PriceRedeliveryIsSkipped | src/lego-box/batch-imports/lego-box-price-batch-update/batch-price-update-consumer.ts:56-60 | once a logged price job has been handled, a redelivery is acked and changes nothing |
| PriceConsumer.BusyGatesDiffer | src/lego-box/batch-imports/lego-box-price-batch-update/batch-price-update-consumer.ts:36-98 | a busy component consumer stays busy, so the next delivery seen while the first is still in flight is requeued too; a busy price consumer clears its gate, so its next delivery of a logged job is let through |
| ComponentConsumer.BrokerFaultDecidesRequeue | src/lego-box/batch-imports/batch-legobox-component-update/batch-component-update-consumer.ts:89-118 | when a pending job's own work succeeds and only the emit of its price job fails, the job is marked failed with the broker's text, and the delivery is requeued iff that text names ETIMEDOUT or ECONNREFUSED |
| Errors.Error.Message | src/lego-box/lego-box.service.ts:138-142 | a failure raised outside the core keeps its own text and every other error has a message; the refusal of a child that already holds the parent is padded with a space at both ends |
| Errors.NoBoxMessageNamesId | src/lego-box/lego-box.service.ts:271 | two box-id not-found messages with the same text name the same box |
| Errors.CoreErrorsArePermanent | src/lego-box/batch-imports/batch-legobox-component-update/batch-component-update-consumer.ts:112-119 | no error the services raise themselves is classed as temporary (a duplicate name or a null field could spell a marker, so those are excluded) |
| Pipeline.AddThenRepriceIsConsistent | src/lego-box/lego-box.service.ts:156-168 | from an all-consistent valid database, a successful `addComponents` followed by the price job it queued leaves every box priced as its component sum; the box's sales total matches its new price, and its cache entry is gone |
| Pipeline.PassRepairsContainers | src/lego-box/batch-imports/lego-box-price-batch-update/batch-lego-box-price-update-service.ts:77-133 | the boxes left inconsistent by `addComponents` all lie strictly above the parent, so the upward pass repairs them all |
| Pipeline.WheelReprices | src/lego-box/batch-imports/lego-box-price-batch-update/batch-lego-box-price-update-service.ts:99-119 | with the seed prices, a Wheel of four Circles is recomputed at 28 cents |
| Pipeline.CarRepricesAboveWheel | src/lego-box/batch-imports/lego-box-price-batch-update/batch-lego-box-price-update-service.ts:77-133 | the pass above the repriced Wheel prices the Car at 28 + 2 * 10 = 48 cents and leaves the Wheel at 28 |
| Pipeline.PassAboveWheel | src/lego-box/batch-imports/lego-box-price-batch-update/batch-lego-box-price-update-service.ts:77-133 | in any valid database of that shape the Car ends at the Wheel's price plus two Squares |
| Pipeline.QueuedPriceJobIsSettled | src/lego-box/batch-imports/lego-box-price-batch-update/batch-price-update-consumer.ts:27-99 | the consumer finds the job the price producer queued and settles it, completed or failed and holding its payload, without requeueing |
| Pipeline.QueuedComponentJobIsSettled | src/lego-box/batch-imports/batch-legobox-component-update/batch-component-update-consumer.ts:35-110 | the consumer finds the job the component producer queued and settles it, holding its payload; it is requeued only after a temporary broker fault |
| Store.InsertBoxKeepsValid | src/lego-box/lego-box.service.ts:58-63 | inserting a box with a fresh name under the next id keeps the schema invariants |
| Store.SameShapeKeepsValid | src/lego-box/batch-imports/lego-box-price-batch-update/batch-lego-box-price-update-service.ts:119-124 | writes that change only prices and totals keep the schema invariants |

## Left out

- Floating point: prices are integer cents, so `toFixed(2)` rounding never happens. Fractional amounts are not modelled.
- Timestamps are the `now` parameter, and `uuidv4()` is a counter in the job log.
- Concurrency: calls nobody awaits run to completion in program order, and their rejections are dropped. The program itself installs no `unhandledRejection` handler (src/main.ts), so under Node 15 or later such a rejection ends the process; this applies to the recursive `processBox`, the component service's `updateTransaction` and `queueComponent` in `batchImport`. Interleavings of concurrent deliveries and cross-instance concurrency are not modelled.
- Faults other than broker emits are not modelled: database errors, a failing rollback, commit or `release`, and a failing job-log update.
- HistoryCache.SalesOf: does not state the `created_at DESC` ordering of the history rows. The model keeps them in link insertion order. That every link of the box is present is stated by `HistoryCache.SalesOfCounts`.
- The cache's time-to-live argument and the cache store itself are not modelled; the cache is a map.
- Acyclicity is a precondition of the price pass: a ghost `rank` must witness it. On a cyclic graph the source's `processBox` recursion does not terminate, which is not modelled. `LegoBoxService.OneLevelCheckAdmitsCycle` shows such a graph can arise.
- Row order is insertion order. `findOne` on the transaction links picks the first link of the box in insertion order. The parent edges `find` returns for a changed box (batch-lego-box-price-update-service.ts:79-84) come in insertion order too. `PriceBatch.ProcessBox` walks them in that order, and `lastBoxIdWorkedOn` skips a parent only when it repeats the one just before it. The database's actual row order is not modelled.
- PriceBatch.RepriceParents: a parent edge whose box is missing stops that level's loop, as the TypeError on `box.price` would. Such an edge cannot occur in a valid database.
- The `!legoBox.id` branch of the component batch service is unreachable, because saved boxes always get an id; it is not modelled.
- ComponentConsumer.ProcessBatchImport: takes the schema invariants (valid database, fresh price-job ids) as preconditions, not as checked inputs.
- Request validation done by the DTO decorators is taken as given: box names of 3 to 100 characters, and ids of at least 1 in the create, add-components and sale requests. The transaction-history route takes its id from the path with no DTO (src/lego-box/lego-box.controller.ts:32-35), so `HistoryCache.GetTransactionHistory` accepts every id, 0 included.
- Ids are `nat`: a negative or non-integer id in the history path, or one that fails to parse, is not modelled.
- The HTTP layer is not modelled: controllers, module wiring and the broker client.
- Logging is not modelled.

=== FILE: app_state.dfy ===
/** The whole system as one immutable record: the database, the two job logs, the
    two broker queues (as outboxes of emitted messages) and the cache. Request and
    message payload shapes live here too. */
module AppState {
  import opened Wrappers
  import opened Errors
  import opened Store
  import opened Jobs

  datatype Kind = PieceKind | BoxKind

  /** The edge a request for a component of that kind and id asks for. */
  function ChildOf(kind: Kind, id: nat): Child {
    if kind == PieceKind then PieceChild(id) else BoxChild(id)
  }

  /** `ComponentDto` of an add-components request. */
  datatype ComponentRequest = ComponentRequest(kind: Kind, id: nat, amount: nat)

  /** `BatchComponentDto`. */
  datatype BatchComponent = BatchComponent(kind: Kind, id: nat)

  /** `BatchBoxDto`: a box name, its components, and the quantity to import. */
  datatype BatchBox = BatchBox(name: string, components: seq<BatchComponent>, amount: nat)

  /** `SingleComponentImport`: one unit of one component for a named box. */
  datatype ComponentImport = ComponentImport(name: string, kind: Kind, id: nat)

  /** The data of a component-update job. The producer is declared to take a
      `BatchBoxDto` and the service's `processData` reads one, but the only caller
      (`queueComponent`) sends a `SingleComponentImport`; both shapes are kept. */
  datatype ComponentPayload = Single(single: ComponentImport) | Whole(batch: BatchBox)

  /** One joined row of the transaction-history read: a link and its transaction, if any. */
  datatype Sale = Sale(link: Link, transaction: Option<Transaction>)

  /** The cached transaction-history value: the box with its transaction links. */
  datatype HistoryView = HistoryView(box: BoxSnapshot, sales: seq<Sale>)

  const PricePattern: string := "batch_lego_box_price_update"
  const ComponentPattern: string := "batch_lego_box_component_update"

  datatype State = State(
    db: Db,
    priceJobs: JobLog<BoxSnapshot>,
    componentJobs: JobLog<ComponentPayload>,
    priceQueue: seq<Message<BoxSnapshot>>,
    componentQueue: seq<Message<ComponentPayload>>,
    cache: map<string, HistoryView>)

  /** The state after an operation, with its return value or the error it threw. */
  datatype Run<T> = Run(state: State, result: Result<T, Error>)

  /** What a consumer's handler leaves behind: the state, its `isProcessing` gate,
      how the delivery was settled, and the error it rethrew, if any. */
  datatype Handled = Handled(state: State, busy: bool, delivery: Delivery, rethrown: Option<Error>)
}

=== FILE: component_batch.dfy ===
/** `BatchLegoBoxComponentUpdateService`: applying one component-update job
    inside the consumer's database transaction. */
module ComponentBatch {
  import opened Wrappers
  import opened Errors
  import opened Store
  import opened Jobs
  import opened AppState
  import opened Producers
  import opened HistoryCache
  import opened Sales

  /** Find the box with that name, or save a new one with price 0. */
  function FindOrCreate(db: Db, name: string): (r: (Db, BoxId))
    requires Valid(db)
    ensures HasBoxNamed(db, name) ==> r == (db, FindBoxByName(db, name).value)
    ensures !HasBoxNamed(db, name) ==> r == (InsertBox(db, name), db.nextBox)
    ensures Valid(r.0) && r.1 >= 1 && FindBoxByName(r.0, name) == Some(r.1)
  {
    match FindBoxByName(db, name)
    case Some(id) => (db, id)
    case None =>
      InsertBoxKeepsValid(db, name);
      (InsertBox(db, name), db.nextBox)
  }

  /** The database with one more edge of `box` and the box's price overwritten. */
  function Attach(db: Db, box: BoxId, child: Child, price: Cents): (r: Db)
    requires box in db.boxes
    ensures r.edges == db.edges + [Edge(box, child)]
    ensures r.boxes == db.boxes[box := db.boxes[box].(price := price)]
    ensures r.pieces == db.pieces && r.transactions == db.transactions && r.links == db.links
    ensures r.nextBox == db.nextBox && r.nextTx == db.nextTx
  {
    db.(edges := db.edges + [Edge(box, child)], boxes := db.boxes[box := db.boxes[box].(price := price)])
  }

  /** `processPieceComponent`: one piece edge, and the price written as the price
      `loaded` at the start of the job plus the piece's price. */
  function ProcessPieceComponent(db: Db, box: BoxId, loaded: Cents, id: PieceId): (r: Result<Db, Error>)
    requires box in db.boxes
    ensures id !in db.pieces ==> r == Failure(ComponentNotFound(id))
    ensures id in db.pieces ==> r == Success(Attach(db, box, PieceChild(id), loaded + db.pieces[id].price))
  {
    if id !in db.pieces then Failure(ComponentNotFound(id))
    else Success(Attach(db, box, PieceChild(id), loaded + db.pieces[id].price))
  }

  /** `processBoxComponent`: a missing child, the box itself, or a child that
      already holds the box are refused (there is no check that the child holds
      anything); otherwise one box edge, and the price written as `loaded` plus the
      child's price. */
  function ProcessBoxComponent(db: Db, box: BoxId, loaded: Cents, id: BoxId): (r: Result<Db, Error>)
    requires box in db.boxes
    ensures id !in db.boxes ==> r == Failure(ComponentNotFound(id))
    ensures id in db.boxes && id == box ==> r == Failure(CircularReference)
    ensures id in db.boxes && id != box && DirectlyContains(db, id, box) ==> r == Failure(AlreadyContained(box, id))
    ensures id in db.boxes && id != box && !DirectlyContains(db, id, box) ==>
      r == Success(Attach(db, box, BoxChild(id), loaded + db.boxes[id].price))
  {
    if id !in db.boxes then Failure(ComponentNotFound(id))
    else if id == box then Failure(CircularReference)
    else if DirectlyContains(db, id, box) then Failure(AlreadyContained(box, id))
    else Success(Attach(db, box, BoxChild(id), loaded + db.boxes[id].price))
  }

  function ProcessComponent(db: Db, box: BoxId, loaded: Cents, c: BatchComponent): (r: Result<Db, Error>)
    requires box in db.boxes
    ensures r.Success? ==> r.value == Attach(db, box, ChildOf(c.kind, c.id), loaded + ChildPrice(db, ChildOf(c.kind, c.id)))
    ensures r.Success? ==> EdgeResolves(db, Edge(box, ChildOf(c.kind, c.id))) && ChildOf(c.kind, c.id) != BoxChild(box)
  {
    match c.kind
    case PieceKind => ProcessPieceComponent(db, box, loaded, c.id)
    case BoxKind => ProcessBoxComponent(db, box, loaded, c.id)
  }

  /** The edges a run of components asks for, in order. */
  function EdgesFor(box: BoxId, comps: seq<BatchComponent>): (r: seq<Edge>)
    ensures |r| == |comps|
    ensures forall i :: 0 <= i < |comps| ==> r[i] == Edge(box, ChildOf(comps[i].kind, comps[i].id))
  {
    seq(|comps|, i requires 0 <= i < |comps| => Edge(box, ChildOf(comps[i].kind, comps[i].id)))
  }

  /** The `for` loop of `processData`, every write computed from the same `loaded` price. */
  function ProcessComponents(db: Db, box: BoxId, loaded: Cents, comps: seq<BatchComponent>): (r: Result<Db, Error>)
    requires box in db.boxes
    ensures r.Success? ==> r.value.boxes.Keys == db.boxes.Keys
    ensures r.Success? ==> r.value.transactions == db.transactions && r.value.nextTx == db.nextTx
    decreases |comps|
  {
    if comps == [] then Success(db)
    else match ProcessComponent(db, box, loaded, comps[0])
      case Failure(e) => Failure(e)
      case Success(db1) => ProcessComponents(db1, box, loaded, comps[1..])
  }

  /** The transaction's working copy when the loop stops: each component before the
      first refused one has already saved its edge and price write, and the
      refused one writes nothing. After a successful loop it is the loop's result. */
  function Reached(db: Db, box: BoxId, loaded: Cents, comps: seq<BatchComponent>): (r: Db)
    requires box in db.boxes
    ensures r.boxes.Keys == db.boxes.Keys
    ensures ProcessComponents(db, box, loaded, comps).Success? ==> r == ProcessComponents(db, box, loaded, comps).value
    decreases |comps|
  {
    if comps == [] then db
    else match ProcessComponent(db, box, loaded, comps[0])
      case Failure(_) => db
      case Success(db1) => Reached(db1, box, loaded, comps[1..])
  }

  /** A failed loop stops at its first refused component: the working copy is what
      the components before it wrote, and that component, applied to the working
      copy, raises the loop's error. */
  lemma {:induction false} ReachedAtFailure(db: Db, box: BoxId, loaded: Cents, comps: seq<BatchComponent>)
    requires box in db.boxes && ProcessComponents(db, box, loaded, comps).Failure?
    ensures exists i :: && 0 <= i < |comps|
                        && ProcessComponents(db, box, loaded, comps[..i]) == Success(Reached(db, box, loaded, comps))
                        && ProcessComponent(Reached(db, box, loaded, comps), box, loaded, comps[i])
                             == Failure(ProcessComponents(db, box, loaded, comps).error)
    decreases |comps|
  {
    var one := ProcessComponent(db, box, loaded, comps[0]);
    if one.Failure? {
      assert comps[..0] == [];
    } else {
      var db1 := one.value;
      ReachedAtFailure(db1, box, loaded, comps[1..]);
      var i :| && 0 <= i < |comps[1..]|
               && ProcessComponents(db1, box, loaded, comps[1..][..i]) == Success(Reached(db1, box, loaded, comps[1..]))
               && ProcessComponent(Reached(db1, box, loaded, comps[1..]), box, loaded, comps[1..][i])
                    == Failure(ProcessComponents(db1, box, loaded, comps[1..]).error);
      assert comps[..i + 1][0] == comps[0] && comps[..i + 1][1..] == comps[1..][..i];
      assert comps[1..][i] == comps[i + 1];
    }
  }

  /** A refused second component does not undo the first: with a present piece
      followed by a missing one, the loop fails on the missing piece while the
      working copy holds the first piece's edge and price write. */
  lemma EarlierWritesStay(db: Db, box: BoxId, loaded: Cents, p: PieceId, q: PieceId)
    requires box in db.boxes && p in db.pieces && q !in db.pieces
    ensures var comps := [BatchComponent(PieceKind, p), BatchComponent(PieceKind, q)];
      && ProcessComponents(db, box, loaded, comps) == Failure(ComponentNotFound(q))
      && Reached(db, box, loaded, comps) == Attach(db, box, PieceChild(p), loaded + db.pieces[p].price)
  {
  }

  /** The working copy a loop leaves, refused or not, keeps the schema invariants. */
  lemma {:induction false} ReachedKeepsValid(db: Db, box: BoxId, loaded: Cents, comps: seq<BatchComponent>)
    requires Valid(db) && box in db.boxes
    ensures Valid(Reached(db, box, loaded, comps))
    decreases |comps|
  {
    if comps != [] && ProcessComponent(db, box, loaded, comps[0]).Success? {
      var child := ChildOf(comps[0].kind, comps[0].id);
      AttachKeepsValid(db, box, child, loaded + ChildPrice(db, child));
      ReachedKeepsValid(ProcessComponent(db, box, loaded, comps[0]).value, box, loaded, comps[1..]);
    }
  }

  /** The loop appends one edge per component and writes only the box's price. */
  lemma {:induction false} ProcessComponentsEffect(db: Db, box: BoxId, loaded: Cents, comps: seq<BatchComponent>)
    requires box in db.boxes && ProcessComponents(db, box, loaded, comps).Success?
    ensures var d := ProcessComponents(db, box, loaded, comps).value;
      && d.pieces == db.pieces && d.transactions == db.transactions && d.links == db.links
      && d.nextBox == db.nextBox && d.nextTx == db.nextTx
      && (forall b :: b in db.boxes && b != box ==> d.boxes[b] == db.boxes[b])
      && d.boxes[box].name == db.boxes[box].name
      && d.edges == db.edges + EdgesFor(box, comps)
    decreases |comps|
  {
    if comps != [] {
      var db1 := ProcessComponent(db, box, loaded, comps[0]).value;
      var e := Edge(box, ChildOf(comps[0].kind, comps[0].id));
      assert db1.edges == db.edges + [e];
      ProcessComponentsEffect(db1, box, loaded, comps[1..]);
      assert ProcessComponents(db, box, loaded, comps) == ProcessComponents(db1, box, loaded, comps[1..]);
      EdgesForCons(box, comps);
      AppendAssoc(db.edges, [e], EdgesFor(box, comps[1..]));
    } else {
      assert db.edges + EdgesFor(box, comps) == db.edges;
    }
  }

  lemma EdgesForCons(box: BoxId, comps: seq<BatchComponent>)
    requires comps != []
    ensures EdgesFor(box, comps) == [Edge(box, ChildOf(comps[0].kind, comps[0].id))] + EdgesFor(box, comps[1..])
  {
    var a, b := EdgesFor(box, comps), [Edge(box, ChildOf(comps[0].kind, comps[0].id))] + EdgesFor(box, comps[1..]);
    forall i | 0 <= i < |a| ensures a[i] == b[i] {
      if i > 0 {
        assert comps[1..][i - 1] == comps[i];
      }
    }
  }

  /** The last write wins: after a run of components the box's price is the loaded
      price plus the price of the last component alone, not of all of them. */
  lemma {:induction false} LastWriteWins(db: Db, box: BoxId, loaded: Cents, comps: seq<BatchComponent>)
    requires box in db.boxes && comps != [] && ProcessComponents(db, box, loaded, comps).Success?
    ensures var last := comps[|comps| - 1];
      ProcessComponents(db, box, loaded, comps).value.boxes[box].price == loaded + ChildPrice(db, ChildOf(last.kind, last.id))
    decreases |comps|
  {
    var db1 := ProcessComponent(db, box, loaded, comps[0]).value;
    if |comps| > 1 {
      LastWriteWins(db1, box, loaded, comps[1..]);
      assert comps[1..][|comps[1..]| - 1] == comps[|comps| - 1];
      ProcessComponentsAdmitsLast(db1, box, loaded, comps[1..]);
    }
  }

  /** The last component of a successful run is not the box itself. */
  lemma {:induction false} ProcessComponentsAdmitsLast(db: Db, box: BoxId, loaded: Cents, comps: seq<BatchComponent>)
    requires box in db.boxes && comps != [] && ProcessComponents(db, box, loaded, comps).Success?
    ensures var last := comps[|comps| - 1]; ChildOf(last.kind, last.id) != BoxChild(box)
    decreases |comps|
  {
    if |comps| > 1 {
      var db1 := ProcessComponent(db, box, loaded, comps[0]).value;
      ProcessComponentsAdmitsLast(db1, box, loaded, comps[1..]);
      assert comps[1..][|comps[1..]| - 1] == comps[|comps| - 1];
    }
  }

  /** The database after the loop of `processData` and its un-awaited
      `updateTransaction`: a failure of the sale update is dropped, leaving the
      database as the loop left it. */
  function RecordBatchSale(db: Db, box: BoxId, amount: nat): (r: Db)
    requires TxFresh(db) && box in db.boxes
    ensures RecordSale(db, box, db.boxes[box].price, amount).Success? ==>
      r == RecordSale(db, box, db.boxes[box].price, amount).value.0
    ensures RecordSale(db, box, db.boxes[box].price, amount).Failure? ==> r == db
    ensures r.boxes == db.boxes && r.edges == db.edges && r.pieces == db.pieces
  {
    match RecordSale(db, box, db.boxes[box].price, amount)
    case Success((d, _)) => d
    case Failure(_) => db
  }

  /** `processData(boxImport, queryRunner)` on its declared `BatchBoxDto` input: find
      or create the box, add every component, record `amount` units sold at the
      reloaded price, queue a price job for the reloaded box and invalidate its
      history key. The database returned is the transaction's working copy: after
      a refused component it holds the writes of the components before it, which
      the consumer then rolls back. */
  function ProcessData(s: State, imp: BatchBox, fault: Option<string>): (r: Run<()>)
    requires Valid(s.db) && FreshIds(s.priceJobs)
    ensures var (db1, id) := FindOrCreate(s.db, imp.name);
      var work := ProcessComponents(db1, id, db1.boxes[id].price, imp.components);
      && (work.Failure? ==> r == Run(s.(db := Reached(db1, id, db1.boxes[id].price, imp.components)), Failure(work.error)))
      && (work.Success? ==>
            && id in work.value.boxes
            && r.state.db == RecordBatchSale(work.value, id, imp.amount)
            && r.state.priceJobs == QueuePriceUpdate(s.(db := r.state.db), Snapshot(work.value, id), fault).state.priceJobs
            && r.state.priceQueue == QueuePriceUpdate(s.(db := r.state.db), Snapshot(work.value, id), fault).state.priceQueue
            && (fault.Some? ==> r.result == Failure(Infrastructure(fault.value)) && r.state.cache == s.cache)
            && (fault.None? ==> r.result == Success(()) && r.state.cache == s.cache - {Key(id)}))
      && r.state.componentJobs == s.componentJobs && r.state.componentQueue == s.componentQueue
  {
    var (db1, id) := FindOrCreate(s.db, imp.name);
    match ProcessComponents(db1, id, db1.boxes[id].price, imp.components)
    case Failure(e) => Run(s.(db := Reached(db1, id, db1.boxes[id].price, imp.components)), Failure(e))
    case Success(db2) =>
      ProcessComponentsEffect(db1, id, db1.boxes[id].price, imp.components);
      var newBox := Snapshot(db2, id);
      var db3 := RecordBatchSale(db2, id, imp.amount);
      var q := QueuePriceUpdate(s.(db := db3), newBox, fault);
      if q.result.Failure? then Run(q.state, Failure(q.result.error))
      else Run(Invalidate(q.state, id), Success(()))
  }

  /** What the component consumer hands to `processData`: the declared batch shape
      is processed; the single-component shape `batchImport` actually queues has no
      `components`, so after the box is found or created the loop throws. */
  function ProcessPayload(s: State, payload: ComponentPayload, fault: Option<string>): (r: Run<()>)
    requires Valid(s.db) && FreshIds(s.priceJobs)
    ensures payload.Whole? ==> r == ProcessData(s, payload.batch, fault)
    ensures payload.Single? ==> r == Run(s.(db := FindOrCreate(s.db, payload.single.name).0), Failure(NotIterable))
  {
    match payload
    case Whole(b) => ProcessData(s, b, fault)
    case Single(imp) => Run(s.(db := FindOrCreate(s.db, imp.name).0), Failure(NotIterable))
  }

  /** An attached edge that resolves keeps the schema valid. */
  lemma AttachKeepsValid(db: Db, box: BoxId, child: Child, price: Cents)
    requires Valid(db) && box in db.boxes && EdgeResolves(db, Edge(box, child))
    ensures Valid(Attach(db, box, child, price))
  {
    var d := Attach(db, box, child, price);
    assert SameShape(db, db.(boxes := d.boxes));
    SameShapeKeepsValid(db, db.(boxes := d.boxes));
    assert forall i :: 0 <= i < |d.edges| ==> EdgeResolves(d, d.edges[i]) by {
      forall i | 0 <= i < |d.edges| ensures EdgeResolves(d, d.edges[i]) {
        if i < |db.edges| {
          assert EdgeResolves(db, db.edges[i]);
        }
      }
    }
  }

  /** The loop keeps the schema valid: every edge it adds resolves. */
  lemma {:induction false} ProcessComponentsKeepsValid(db: Db, box: BoxId, loaded: Cents, comps: seq<BatchComponent>)
    requires Valid(db) && box in db.boxes && ProcessComponents(db, box, loaded, comps).Success?
    ensures Valid(ProcessComponents(db, box, loaded, comps).value)
    decreases |comps|
  {
    if comps != [] {
      var c := comps[0];
      var child := ChildOf(c.kind, c.id);
      AttachKeepsValid(db, box, child, loaded + ChildPrice(db, child));
      ProcessComponentsKeepsValid(ProcessComponent(db, box, loaded, c).value, box, loaded, comps[1..]);
    }
  }

  /** A job, whatever its outcome, leaves a valid working database and a price log
      that can still hand out fresh ids. */
  lemma ProcessPayloadKeepsValid(s: State, payload: ComponentPayload, fault: Option<string>)
    requires Valid(s.db) && FreshIds(s.priceJobs)
    ensures var r := ProcessPayload(s, payload, fault);
      Valid(r.state.db) && FreshIds(r.state.priceJobs)
  {
    if payload.Whole? {
      var imp := payload.batch;
      var (db1, id) := FindOrCreate(s.db, imp.name);
      var work := ProcessComponents(db1, id, db1.boxes[id].price, imp.components);
      ReachedKeepsValid(db1, id, db1.boxes[id].price, imp.components);
      if work.Success? {
        ProcessComponentsKeepsValid(db1, id, db1.boxes[id].price, imp.components);
        ProcessComponentsEffect(db1, id, db1.boxes[id].price, imp.components);
        assert TxFresh(work.value);
        if RecordSale(work.value, id, work.value.boxes[id].price, imp.amount).Success? {
          RecordSaleKeepsValid(work.value, id, work.value.boxes[id].price, imp.amount);
        }
      }
    }
  }

  /** The loop fails only with the refusals of its two component steps. */
  lemma {:induction false} ProcessComponentsErrors(db: Db, box: BoxId, loaded: Cents, comps: seq<BatchComponent>)
    requires box in db.boxes && ProcessComponents(db, box, loaded, comps).Failure?
    ensures var e := ProcessComponents(db, box, loaded, comps).error;
      e.ComponentNotFound? || e == CircularReference || e.AlreadyContained?
    decreases |comps|
  {
    var c := comps[0];
    var one := ProcessComponent(db, box, loaded, c);
    if one.Success? {
      ProcessComponentsErrors(one.value, box, loaded, comps[1..]);
    }
  }

  /** A job fails with a broker error only when the price job's emit failed, and with
      its text; every other failure is one the service raises itself. */
  lemma ProcessPayloadErrors(s: State, payload: ComponentPayload, fault: Option<string>)
    requires Valid(s.db) && FreshIds(s.priceJobs)
    ensures var r := ProcessPayload(s, payload, fault);
      r.result.Failure? ==>
        if r.result.error.Infrastructure? then fault == Some(r.result.error.text)
        else r.result.error in {NotIterable, CircularReference} || r.result.error.ComponentNotFound?
             || r.result.error.AlreadyContained?
  {
    if payload.Whole? {
      var imp := payload.batch;
      var (db1, id) := FindOrCreate(s.db, imp.name);
      var work := ProcessComponents(db1, id, db1.boxes[id].price, imp.components);
      if work.Failure? {
        ProcessComponentsErrors(db1, id, db1.boxes[id].price, imp.components);
      }
    }
  }

  /** A job holding one component reprices its box correctly: if the box was priced
      as the sum of its edges (as a new box is) and does not hold itself, it still
      is after the job. */
  lemma SingleComponentKeepsConsistent(s: State, imp: BatchBox, fault: Option<string>)
    requires Valid(s.db) && FreshIds(s.priceJobs) && |imp.components| == 1
    requires Consistent(FindOrCreate(s.db, imp.name).0, FindOrCreate(s.db, imp.name).1)
    requires !DirectlyContains(FindOrCreate(s.db, imp.name).0, FindOrCreate(s.db, imp.name).1, FindOrCreate(s.db, imp.name).1)
    ensures Consistent(ProcessData(s, imp, fault).state.db, FindOrCreate(s.db, imp.name).1)
  {
    var f := FindOrCreate(s.db, imp.name);
    var work := ProcessComponents(f.0, f.1, f.0.boxes[f.1].price, imp.components);
    if work.Success? {
      assert TxFresh(f.0);
      assert imp.components == [imp.components[0]];
      ProcessOneComponent(f.0, f.1, f.0.boxes[f.1].price, imp.components[0]);
      OneComponentConsistent(f.0, f.1, imp.components[0], imp.amount);
    }
  }

  /** The database-level step of `SingleComponentKeepsConsistent`. */
  lemma OneComponentConsistent(db: Db, box: BoxId, c: BatchComponent, amount: nat)
    requires box in db.boxes && TxFresh(db) && Consistent(db, box) && !DirectlyContains(db, box, box)
    requires ProcessComponent(db, box, db.boxes[box].price, c).Success?
    ensures var d := ProcessComponent(db, box, db.boxes[box].price, c).value;
      box in d.boxes && Consistent(RecordBatchSale(d, box, amount), box)
  {
    AttachKeepsConsistent(db, box, ChildOf(c.kind, c.id));
    SaleKeepsPricing(ProcessComponent(db, box, db.boxes[box].price, c).value, box, amount, box);
  }

  /** A one-component loop is that component's step. */
  lemma ProcessOneComponent(db: Db, box: BoxId, loaded: Cents, c: BatchComponent)
    requires box in db.boxes
    ensures ProcessComponents(db, box, loaded, [c]) == ProcessComponent(db, box, loaded, c)
  {
    assert [c][1..] == [];
  }

  /** Recording a sale changes no box's price and no edge, so no box's consistency. */
  lemma SaleKeepsPricing(db: Db, box: BoxId, amount: nat, b: BoxId)
    requires TxFresh(db) && box in db.boxes
    ensures Consistent(RecordBatchSale(db, box, amount), b) <==> Consistent(db, b)
  {
    var d := RecordBatchSale(db, box, amount);
    EdgesPriceFrame(d, db, EdgesOf(db.edges, b));
  }

  /** One new edge, with the price written as the old price plus the child's, keeps a consistent box consistent. */
  lemma AttachKeepsConsistent(db: Db, box: BoxId, child: Child)
    requires box in db.boxes && Consistent(db, box) && !DirectlyContains(db, box, box) && child != BoxChild(box)
    ensures Consistent(Attach(db, box, child, db.boxes[box].price + ChildPrice(db, child)), box)
  {
    var d := Attach(db, box, child, db.boxes[box].price + ChildPrice(db, child));
    EdgesOfAppend(db.edges, [Edge(box, child)], box);
    OldEdgesKeepPrice(db, box, child, db.boxes[box].price + ChildPrice(db, child));
    assert EdgesOf([Edge(box, child)], box) == [Edge(box, child)];
    EdgesPriceAppend(d, EdgesOf(db.edges, box), [Edge(box, child)]);
    assert ChildPrice(d, child) == ChildPrice(db, child);
  }

  /** The edges the box already had are priced as before: none of them holds the box. */
  lemma OldEdgesKeepPrice(db: Db, box: BoxId, child: Child, price: Cents)
    requires box in db.boxes && !DirectlyContains(db, box, box)
    ensures EdgesPrice(Attach(db, box, child, price), EdgesOf(db.edges, box)) == EdgesPrice(db, EdgesOf(db.edges, box))
  {
    var d := Attach(db, box, child, price);
    var old_edges := EdgesOf(db.edges, box);
    forall i | 0 <= i < |old_edges|
      ensures ChildPrice(d, old_edges[i].child) == ChildPrice(db, old_edges[i].child)
    {
      var c := old_edges[i].child;
      if c.BoxChild? {
        var k :| 0 <= k < |db.edges| && db.edges[k] == old_edges[i];
        assert db.edges[k] == Edge(box, BoxChild(c.box));
        assert c.box != box;
      }
    }
    EdgesPriceFrame(d, db, old_edges);
  }

  /** The seed pieces: Square, Rectangle, Circle, Triangle and Hexagon, in cents. */
  function SeedState(): State {
    State(Db(SeedPieces(), map[], [], map[], [], 1, 1), JobLog(map[], 1), JobLog(map[], 1), [], [], map[])
  }

  /** Two Circles in one job: both edges are saved, but each price write starts from
      the price loaded before the loop, so the new box is priced 7 instead of 14. */
  lemma TwoCirclesPricedAsOne()
    ensures var r := ProcessData(SeedState(), BatchBox("Wheel", [BatchComponent(PieceKind, 3), BatchComponent(PieceKind, 3)], 1), None);
      && r.result.Success?
      && 1 in r.state.db.boxes
      && r.state.db.boxes[1].price == 7
      && ComponentsPrice(r.state.db, 1) == 14
  {
    var s := SeedState();
    var imp := BatchBox("Wheel", [BatchComponent(PieceKind, 3), BatchComponent(PieceKind, 3)], 1);
    assert Valid(s.db);
    var (db1, id) := FindOrCreate(s.db, imp.name);
    assert !HasBoxNamed(s.db, imp.name);
    assert id == 1 && db1.boxes[1] == Box("Wheel", 0);
    var c := Edge(1, PieceChild(3));
    var a := Attach(db1, 1, PieceChild(3), 7);
    assert ProcessComponent(db1, 1, 0, imp.components[0]) == Success(a);
    var b := Attach(a, 1, PieceChild(3), 7);
    assert ProcessComponent(a, 1, 0, imp.components[1]) == Success(b);
    assert imp.components[1..][1..] == [];
    assert ProcessComponents(db1, 1, 0, imp.components) == Success(b);
    assert b.edges == [c, c];
    assert EdgesOf(b.edges, 1) == [c, c];
    var r := ProcessData(s, imp, None);
    assert r.state.db.boxes == b.boxes && r.state.db.edges == b.edges && r.state.db.pieces == b.pieces;
    assert ChildPrice(r.state.db, PieceChild(3)) == 7;
    assert [c, c][1..] == [c] && [c][1..] == [];
    assert EdgesPrice(r.state.db, [c]) == 7;
    assert EdgesPrice(r.state.db, [c, c]) == 14;
  }

  /** The only temporary failure a component job can end with is the broker's own:
      the errors the services raise are all permanent. */
  lemma ProcessPayloadTemporaryOnlyFromBroker(s: State, payload: ComponentPayload, fault: Option<string>)
    requires Valid(s.db) && FreshIds(s.priceJobs)
    ensures var r := ProcessPayload(s, payload, fault);
      r.result.Failure? && IsTemporaryError(r.result.error.Message()) ==>
        fault.Some? && IsTemporaryError(fault.value)
  {
    ProcessPayloadErrors(s, payload, fault);
    var r := ProcessPayload(s, payload, fault);
    if r.result.Failure? && !r.result.error.Infrastructure? {
      CoreErrorsArePermanent(r.result.error);
    }
  }
}

=== FILE: component_consumer.dfy ===
/** `BatchLegoBoxComponentUpdateConsumer.processBatchImport`: the component-update
    job's state machine around the batch service's `processData`, with the
    `isProcessing` gate, the job-log updates and the settling of the delivery. */
module ComponentConsumer {
  import opened Wrappers
  import opened Text
  import opened Errors
  import opened Store
  import opened Jobs
  import opened AppState
  import ComponentBatch

  /** The handler for one delivery of `msg`. `busy` is the gate on entry, `now` the
      clock, `fault` the broker's answer to the price job `processData` queues.
      - A busy handler nacks with requeue and returns before its `try`, so the gate
        stays set.
      - A missing job throws inside the `try`; the `failed` update finds no row.
      - A job that is not pending is acked and skipped.
      - Otherwise the job goes to `processing`, the payload is processed inside a
        database transaction, and the job ends `completed` (ack) or, after the
        rollback, `failed` with the error text (nack, requeued iff temporary).
      The error is never rethrown, and the `finally` clears the gate. */
  function ProcessBatchImport(s: State, busy: bool, msg: Message<ComponentPayload>, now: nat,
                              fault: Option<string>): (r: Handled)
    requires Valid(s.db) && FreshIds(s.priceJobs)
    ensures busy ==> r == Handled(s, true, Nack(true), None)
    ensures !busy ==> !r.busy && r.rethrown.None?
    ensures !busy && msg.batchId !in s.componentJobs.rows ==> r.state == s && r.delivery == Nack(false)
    ensures !busy && msg.batchId in s.componentJobs.rows && s.componentJobs.rows[msg.batchId].status != Pending ==>
      r.state == s && r.delivery == Ack
    ensures r.state.componentJobs.rows.Keys == s.componentJobs.rows.Keys
    ensures forall id :: id in s.componentJobs.rows && id != msg.batchId ==>
      r.state.componentJobs.rows[id] == s.componentJobs.rows[id]
    ensures !busy && msg.batchId in s.componentJobs.rows && s.componentJobs.rows[msg.batchId].status == Pending ==>
      var before := s.componentJobs.rows[msg.batchId];
      var after := r.state.componentJobs.rows[msg.batchId];
      var w := ComponentBatch.ProcessPayload(Start(s, msg.batchId, now), msg.data, fault);
      && after.payload == before.payload && after.completedAt == Some(now)
      && r.state.componentQueue == s.componentQueue
      && r.state.priceJobs == w.state.priceJobs && r.state.priceQueue == w.state.priceQueue
      && (w.result.Success? ==>
            after.status == Completed && after.error.None? && r.delivery == Ack && r.state.db == w.state.db)
      && (w.result.Failure? ==>
            && after.status == Failed && r.state.db == s.db
            && after.error == (if w.result.error.Message() == "" then None else Some(w.result.error.Message()))
            && r.delivery == Nack(IsTemporaryError(w.result.error.Message())))
  {
    if busy then Handled(s, true, Nack(true), None)
    else
      var id := msg.batchId;
      if id !in s.componentJobs.rows then
        var e := JobNotFound(id);
        CoreErrorsArePermanent(e);
        var noop := UpdateJobStatus(s.componentJobs, id, Failed, Some(e.Message()), now);
        Handled(s.(componentJobs := noop), false, Nack(IsTemporaryError(e.Message())), None)
      else if s.componentJobs.rows[id].status != Pending then Handled(s, false, Ack, None)
      else
        var w := ComponentBatch.ProcessPayload(Start(s, id, now), msg.data, fault);
        match w.result
        case Success(_) =>
          Handled(w.state.(componentJobs := UpdateJobStatus(w.state.componentJobs, id, Completed, None, now)),
                  false, Ack, None)
        case Failure(e) =>
          var failed := UpdateJobStatus(w.state.componentJobs, id, Failed, Some(e.Message()), now);
          Handled(w.state.(db := s.db, componentJobs := failed), false, Nack(IsTemporaryError(e.Message())), None)
  }

  /** `updateJobStatus(batchId, 'processing')` before the work starts: the job's row
      becomes `processing` with its timestamp and error cleared, and nothing else in
      the state changes. */
  function Start(s: State, id: BatchId, now: nat): (r: State)
    ensures r.db == s.db && r.priceJobs == s.priceJobs && r.cache == s.cache
    ensures r.priceQueue == s.priceQueue && r.componentQueue == s.componentQueue
    ensures r.componentJobs.next == s.componentJobs.next
    ensures r.componentJobs.rows.Keys == s.componentJobs.rows.Keys
    ensures forall other :: other in s.componentJobs.rows && other != id ==>
      r.componentJobs.rows[other] == s.componentJobs.rows[other]
    ensures id in s.componentJobs.rows ==>
      && r.componentJobs.rows[id].payload == s.componentJobs.rows[id].payload
      && r.componentJobs.rows[id].status == Processing
      && r.componentJobs.rows[id].completedAt.None? && r.componentJobs.rows[id].error.None?
  {
    s.(componentJobs := UpdateJobStatus(s.componentJobs, id, Processing, None, now))
  }

  /** The handler keeps the invariants it relies on: the database stays valid
      (the rollback restores a valid one) and the price log keeps fresh ids. */
  lemma HandlerKeepsValid(s: State, busy: bool, msg: Message<ComponentPayload>, now: nat, fault: Option<string>)
    requires Valid(s.db) && FreshIds(s.priceJobs)
    ensures var r := ProcessBatchImport(s, busy, msg, now, fault);
      Valid(r.state.db) && FreshIds(r.state.priceJobs)
  {
    ComponentBatch.ProcessPayloadKeepsValid(Start(s, msg.batchId, now), msg.data, fault);
  }

  /** Each job is worked at most once: a job the handler has seen is no longer
      pending, so any later delivery of its message is acked and skipped. */
  lemma RedeliveryIsSkipped(s: State, msg: Message<ComponentPayload>, now: nat, fault: Option<string>,
                            later: nat, laterFault: Option<string>)
    requires Valid(s.db) && FreshIds(s.priceJobs) && msg.batchId in s.componentJobs.rows
    ensures var r := ProcessBatchImport(s, false, msg, now, fault);
      Valid(r.state.db) && FreshIds(r.state.priceJobs)
      && ProcessBatchImport(r.state, false, msg, later, laterFault) == Handled(r.state, false, Ack, None)
  {
    HandlerKeepsValid(s, false, msg, now, fault);
  }

  /** Job rows only move forward: each row is left as it was, or a pending row
      becomes `completed` or `failed`. */
  lemma JobsOnlyAdvance(s: State, busy: bool, msg: Message<ComponentPayload>, now: nat, fault: Option<string>)
    requires Valid(s.db) && FreshIds(s.priceJobs)
    ensures var r := ProcessBatchImport(s, busy, msg, now, fault);
      forall id :: id in s.componentJobs.rows ==>
        (r.state.componentJobs.rows[id] == s.componentJobs.rows[id]
         || (s.componentJobs.rows[id].status == Pending
             && r.state.componentJobs.rows[id].status in {Completed, Failed}))
  {
  }

  /** A delivery is requeued only when the gate is busy, or when the price job's
      emit failed with a connection timeout or refusal: every error the services
      raise themselves is permanent. */
  lemma RequeueOnlyWhenBusyOrTransient(s: State, busy: bool, msg: Message<ComponentPayload>, now: nat,
                                       fault: Option<string>)
    requires Valid(s.db) && FreshIds(s.priceJobs)
    ensures ProcessBatchImport(s, busy, msg, now, fault).delivery == Nack(true) ==>
      busy || (fault.Some? && IsTemporaryError(fault.value))
  {
    var id := msg.batchId;
    if !busy && id in s.componentJobs.rows && s.componentJobs.rows[id].status == Pending {
      var s1 := Start(s, id, now);
      ComponentBatch.ProcessPayloadTemporaryOnlyFromBroker(s1, msg.data, fault);
    }
  }

  /** When the job's own work succeeds and only the emit of its price job fails,
      the broker's text decides the outcome: the job is marked failed with that
      text, and the delivery is requeued exactly when the text names a
      connection timeout or refusal. */
  lemma BrokerFaultDecidesRequeue(s: State, msg: Message<ComponentPayload>, now: nat, text: string)
    requires Valid(s.db) && FreshIds(s.priceJobs)
    requires msg.batchId in s.componentJobs.rows && s.componentJobs.rows[msg.batchId].status == Pending
    requires ProcessBatchImport(s, false, msg, now, None).delivery == Ack
    ensures var r := ProcessBatchImport(s, false, msg, now, Some(text));
      && r.delivery == Nack(Contains(text, "ETIMEDOUT") || Contains(text, "ECONNREFUSED"))
      && r.state.componentJobs.rows[msg.batchId].status == Failed
      && r.state.componentJobs.rows[msg.batchId].error == (if text == "" then None else Some(text))
  {
  }
}

=== FILE: errors.dfy ===
/** The exceptions the core throws, as one datatype, with the message text each
    carries. The consumers decide whether to requeue a job from that text alone. */
module Errors {
  import opened Text

  /** Reasons behind a `ForbiddenException`. */
  datatype Refusal =
    | SelfContainment(box: nat)            // "parent box id .. is thesame with child box"
    | BackReference(box: nat, container: nat) // "box id .. already in box .." (addComponents)
    | BackReferenceByName(box: nat, container: nat) // the same, two spaces (validateBoxComponent)
    | ZeroPrice                            // "Your lego Box has a price zero"

  datatype Error =
    | BoxNotFound                          // NotFoundException('Lego box not found')
    | NoBoxWithId(id: nat)                 // NotFoundException(`Lego box with ID ${id} not found`)
    | ComponentNotFound(id: nat)           // ComponentNotFoundException
    | DuplicateBoxName(name: string)       // DuplicateBoxNameException
    | Forbidden(reason: Refusal)           // ForbiddenException
    | CircularReference                    // plain Error from the component batch service
    | AlreadyContained(box: nat, container: nat) // plain Error from the component batch service
    | TransactionNotFound                  // plain Error('Transaction not found')
    | NullAccess(field: string)            // TypeError: a property read on null
    | NotIterable                          // TypeError: `for .. of undefined`
    | JobNotFound(batch: nat)              // plain Error(`No job found for batch ${batchId}`)
    | Infrastructure(text: string)         // a failure raised by the database or the broker
  {
    /** `error.message`. Long literals are written as concatenations of short
        pieces, which lets the verifier inspect them character by character.
        A failure raised outside the core keeps its own text, every other error
        has a message, and the refusal `addComponents` raises for a box already
        in the child is padded with a space at both ends. */
    function Message(): (r: string)
      ensures Infrastructure? ==> r == text
      ensures !Infrastructure? ==> |r| > 0
      ensures Forbidden? && reason.BackReference? ==> r[0] == ' ' && r[|r| - 1] == ' '
    {
      match this
      case BoxNotFound => "Lego box not found"
      case NoBoxWithId(id) => "Lego box with ID " + NatToString(id) + " not found"
      case ComponentNotFound(id) => "Component with ID " + NatToString(id) + " not found"
      case DuplicateBoxName(name) => "Lego box with name " + name + " already exists"
      case Forbidden(SelfContainment(b)) =>
        "parent box id " + NatToString(b) + " is thesame " + "with child box"
      case Forbidden(BackReference(b, c)) =>
        " box id " + NatToString(b) + " already in box " + NatToString(c) + " "
      case Forbidden(BackReferenceByName(b, c)) =>
        "box id " + NatToString(b) + "  already in box " + NatToString(c)
      case Forbidden(ZeroPrice) => "Your lego Box " + "has a price zero"
      case CircularReference =>
        "Circular reference " + "detected: A box " + "cannot contain itself"
      case AlreadyContained(b, c) => "box id " + NatToString(b) + "  already in box " + NatToString(c)
      case TransactionNotFound => "Transaction not found"
      case NullAccess(field) => "Cannot read properties " + "of null (reading '" + field + "')"
      case NotIterable => "boxImport.components " + "is not iterable"
      case JobNotFound(b) => "No job found for batch " + NatToString(b)
      case Infrastructure(text) => text
    }
  }

  /** `isTemporaryError`: the message names a connection timeout or a refused connection. */
  predicate IsTemporaryError(message: string) {
    Contains(message, "ETIMEDOUT") || Contains(message, "ECONNREFUSED")
  }

  /** Only infrastructure failures (and a duplicate-name error whose name happens
      to spell one of the markers) can ever be classed as temporary: every error
      the core raises itself is permanent, so its job is never requeued. */
  lemma CoreErrorsArePermanent(e: Error)
    requires !e.Infrastructure? && !e.DuplicateBoxName?
    requires e.NullAccess? ==> 'E' !in e.field
    ensures !IsTemporaryError(e.Message())
  {
    MessageLacksMarkerLetter(e);
    MissingLetterExcludes(e.Message(), "ETIMEDOUT");
    MissingLetterExcludes(e.Message(), "ECONNREFUSED");
  }

  lemma MessageLacksMarkerLetter(e: Error)
    requires !e.Infrastructure? && !e.DuplicateBoxName?
    requires e.NullAccess? ==> 'E' !in e.field
    ensures 'E' !in e.Message()
  {
    if e.NoBoxWithId? || e.ComponentNotFound? || e.AlreadyContained? || e.JobNotFound? {
      NumberedLacksMarkerLetter(e);
    } else if e.Forbidden? {
      RefusalLacksMarkerLetter(e.reason);
    } else if e.CircularReference? {
      CircularLacksMarkerLetter();
    } else if e.NullAccess? {
      NullAccessLacksMarkerLetter(e.field);
    } else if e.NotIterable? {
      NoLetterIn("boxImport.components ", "is not iterable", "");
    }
  }

  /** The messages that carry a number. */
  lemma NumberedLacksMarkerLetter(e: Error)
    requires e.NoBoxWithId? || e.ComponentNotFound? || e.AlreadyContained? || e.JobNotFound?
    ensures 'E' !in e.Message()
  {
    if e.NoBoxWithId? {
      NoLetterIn("Lego box with ID ", NatToString(e.id), " not found");
    } else if e.ComponentNotFound? {
      NoLetterIn("Component with ID ", NatToString(e.id), " not found");
    } else if e.AlreadyContained? {
      NoLetterIn("box id ", NatToString(e.box), "  already in box ");
      NoLetterIn("box id " + NatToString(e.box) + "  already in box ", NatToString(e.container), "");
    } else {
      NoLetterIn("No job found for batch ", NatToString(e.batch), "");
    }
  }

  lemma RefusalLacksMarkerLetter(r: Refusal)
    ensures 'E' !in Forbidden(r).Message()
  {
    match r {
      case SelfContainment(b) =>
        NoLetterIn("parent box id ", NatToString(b), " is thesame ");
        NoLetterIn("parent box id " + NatToString(b) + " is thesame ", "with child box", "");
      case BackReference(b, c) =>
        NoLetterIn(" box id ", NatToString(b), " already in box ");
        NoLetterIn(" box id " + NatToString(b) + " already in box ", NatToString(c), " ");
      case BackReferenceByName(b, c) =>
        NoLetterIn("box id ", NatToString(b), "  already in box ");
        NoLetterIn("box id " + NatToString(b) + "  already in box ", NatToString(c), "");
      case ZeroPrice => NoLetterIn("Your lego Box ", "has a price zero", "");
    }
  }

  lemma CircularLacksMarkerLetter()
    ensures 'E' !in CircularReference.Message()
  {
    NoLetterIn("Circular reference ", "detected: A box ", "cannot contain itself");
  }

  lemma NullAccessLacksMarkerLetter(field: string)
    requires 'E' !in field
    ensures 'E' !in NullAccess(field).Message()
  {
    NoLetterIn("Cannot read properties ", "of null (reading '", field);
    NoLetterIn("Cannot read properties " + "of null (reading '" + field, "')", "");
  }

  lemma NoLetterIn(a: string, b: string, c: string)
    requires 'E' !in a && 'E' !in b && 'E' !in c
    ensures 'E' !in a + b + c
  {
  }

  /** A message that names a box id names only that box: two not-found errors with
      the same text are about the same box. */
  lemma NoBoxMessageNamesId(a: nat, b: nat)
    requires NoBoxWithId(a).Message() == NoBoxWithId(b).Message()
    ensures a == b
  {
    var ma, mb := NoBoxWithId(a).Message(), NoBoxWithId(b).Message();
    assert NatToString(a) == ma[17..|ma| - 10];
    assert NatToString(b) == mb[17..|mb| - 10];
    NatToStringInjective(a, b);
  }
}

=== FILE: history_cache.dfy ===
/** The cache-aside read of a box's transaction history and its invalidation
    (`getTransactionHistory`, `invalidateTransactionHistoryCache`). */
module HistoryCache {
  import opened Wrappers
  import opened Text
  import opened Errors
  import opened Store
  import opened AppState

  const KeyPrefix: string := "transaction_history:"

  /** `${CACHE_KEY_PREFIX}${boxId}`. */
  function Key(id: BoxId): string {
    KeyPrefix + NatToString(id)
  }

  /** Different boxes never share a cache entry. */
  lemma KeyInjective(a: BoxId, b: BoxId)
    requires Key(a) == Key(b)
    ensures a == b
  {
    assert NatToString(a) == Key(a)[|KeyPrefix|..];
    assert NatToString(b) == Key(b)[|KeyPrefix|..];
    NatToStringInjective(a, b);
  }

  /** The links of `sales`, in order. */
  function LinksIn(sales: seq<Sale>): (r: seq<Link>)
    ensures |r| == |sales| && forall k :: 0 <= k < |r| ==> r[k] == sales[k].link
  {
    seq(|sales|, k requires 0 <= k < |sales| => sales[k].link)
  }

  /** The box's links in order, each joined with its transaction (a left join):
      no other link appears, and each carries the transaction its id names, if
      there is one. */
  function SalesOf(db: Db, links: seq<Link>, id: BoxId): (r: seq<Sale>)
    ensures |r| <= |links|
    ensures forall k :: 0 <= k < |r| ==> r[k].link in links && r[k].link.box == id
    ensures forall k :: 0 <= k < |r| ==>
      r[k].transaction == (if r[k].link.tx in db.transactions then Some(db.transactions[r[k].link.tx]) else None)
    decreases |links|
  {
    if links == [] then []
    else
      var rest := SalesOf(db, links[1..], id);
      if links[0].box == id then
        var l := links[0];
        [Sale(l, if l.tx in db.transactions then Some(db.transactions[l.tx]) else None)] + rest
      else rest
  }

  /** The history drops no sale: each link of the box appears in it exactly as
      often as in `links`, and no link of another box appears. */
  lemma {:induction false} SalesOfCounts(db: Db, links: seq<Link>, id: BoxId)
    ensures forall l :: multiset(LinksIn(SalesOf(db, links, id)))[l] == if l.box == id then multiset(links)[l] else 0
    decreases |links|
  {
    if links != [] {
      var rest := SalesOf(db, links[1..], id);
      SalesOfCounts(db, links[1..], id);
      assert links == [links[0]] + links[1..];
      assert multiset(links) == multiset{links[0]} + multiset(links[1..]);
      if links[0].box == id {
        var r := SalesOf(db, links, id);
        assert LinksIn(r) == [links[0]] + LinksIn(rest);
        assert multiset(LinksIn(r)) == multiset{links[0]} + multiset(LinksIn(rest));
      }
    }
  }

  /** Every link of the box is in the history. */
  lemma SalesOfComplete(db: Db, links: seq<Link>, id: BoxId, i: nat)
    requires i < |links| && links[i].box == id
    ensures exists k :: 0 <= k < |SalesOf(db, links, id)| && SalesOf(db, links, id)[k].link == links[i]
  {
    var r := SalesOf(db, links, id);
    SalesOfCounts(db, links, id);
    assert multiset(links)[links[i]] > 0;
    assert links[i] in LinksIn(r);
  }

  /** What the database query returns for an existing box. */
  function View(db: Db, id: BoxId): HistoryView
    requires id in db.boxes
  {
    HistoryView(Snapshot(db, id), SalesOf(db, db.links, id))
  }

  /** `invalidateTransactionHistoryCache`: deletes exactly the box's key. */
  function Invalidate(s: State, id: BoxId): (r: State)
    ensures r.cache.Keys == s.cache.Keys - {Key(id)}
    ensures forall k :: k in r.cache ==> r.cache[k] == s.cache[k]
    ensures r.db == s.db && r.priceJobs == s.priceJobs && r.componentJobs == s.componentJobs
    ensures r.priceQueue == s.priceQueue && r.componentQueue == s.componentQueue
  {
    s.(cache := s.cache - {Key(id)})
  }

  /** `getTransactionHistory`: a hit returns the cached value untouched; a miss for a
      missing box fails NotFound; a miss for an existing box queries the database
      and stores the answer under the box's key (ttl 0: no expiry). */
  function GetTransactionHistory(s: State, id: BoxId): (r: Run<HistoryView>)
    ensures Key(id) in s.cache ==> r == Run(s, Success(s.cache[Key(id)]))
    ensures Key(id) !in s.cache && id !in s.db.boxes ==> r == Run(s, Failure(NoBoxWithId(id)))
    ensures Key(id) !in s.cache && id in s.db.boxes ==>
      && r.result == Success(View(s.db, id))
      && r.state == s.(cache := s.cache[Key(id) := View(s.db, id)])
  {
    var key := Key(id);
    if key in s.cache then Run(s, Success(s.cache[key]))
    else if id !in s.db.boxes then Run(s, Failure(NoBoxWithId(id)))
    else
      var v := View(s.db, id);
      Run(s.(cache := s.cache[key := v]), Success(v))
  }

  /** The cache agrees with the database for every box it holds. */
  ghost predicate Coherent(s: State) {
    forall id: BoxId :: Key(id) in s.cache ==> id in s.db.boxes && s.cache[Key(id)] == View(s.db, id)
  }

  /** Reading through a coherent cache returns what the database holds, and keeps it coherent. */
  lemma {:induction false} ReadIsCoherent(s: State, id: BoxId)
    requires Coherent(s)
    ensures var r := GetTransactionHistory(s, id);
      && Coherent(r.state)
      && (id in s.db.boxes ==> r.result == Success(View(s.db, id)))
      && (id !in s.db.boxes ==> r.result == Failure(NoBoxWithId(id)))
  {
    var r := GetTransactionHistory(s, id);
    forall other: BoxId | Key(other) in r.state.cache
      ensures other in r.state.db.boxes && r.state.cache[Key(other)] == View(r.state.db, other)
    {
      if Key(other) == Key(id) {
        KeyInjective(other, id);
      }
    }
  }

  /** A second read is answered from the cache with the same value as the first. */
  lemma RepeatedReadHits(s: State, id: BoxId)
    ensures var r1 := GetTransactionHistory(s, id);
      r1.result.Success? ==>
        GetTransactionHistory(r1.state, id) == Run(r1.state, r1.result)
  {
  }

  /** After invalidation the next read goes to the database, and other boxes' entries are untouched. */
  lemma {:induction false} InvalidateForcesReload(s: State, id: BoxId, other: BoxId)
    requires other != id
    ensures Key(id) !in Invalidate(s, id).cache && Key(other) != Key(id)
    ensures Key(other) in s.cache ==> Invalidate(s, id).cache[Key(other)] == s.cache[Key(other)]
    ensures id in s.db.boxes ==>
      GetTransactionHistory(Invalidate(s, id), id).result == Success(View(s.db, id))
  {
    if Key(other) == Key(id) {
      KeyInjective(other, id);
    }
  }

  /** Invalidating a box keeps a coherent cache coherent. */
  lemma InvalidateKeepsCoherence(s: State, id: BoxId)
    requires Coherent(s)
    ensures Coherent(Invalidate(s, id))
  {
  }
}

=== FILE: jobs.dfy ===
/** The job log both pipelines share: one row per unit of work, keyed by its
    batch id, written by a producer before the message is emitted and advanced by
    the matching consumer. Rows are never deleted. */
module Jobs {
  import opened Wrappers
  import opened Errors

  /** Stands for the `uuidv4()` batch id; fresh ids come from the log's counter. */
  type BatchId = nat

  datatype JobStatus = Pending | Processing | Completed | Failed

  /** A job-log row; `completedAt` is the timestamp column, `error` the nullable text column. */
  datatype Job<P> = Job(payload: P, status: JobStatus, error: Option<string>, completedAt: Option<nat>)

  /** A job-log table: its rows by batch id and the next unused batch id. */
  datatype JobLog<P> = JobLog(rows: map<BatchId, Job<P>>, next: BatchId)

  /** An event emitted to the broker: its pattern, and the `{batchId, data}` body. */
  datatype Message<P> = Message(pattern: string, batchId: BatchId, data: P)

  /** What a consumer does with a delivery: acknowledge it, or reject it with or without requeue. */
  datatype Delivery = Ack | Nack(requeue: bool)

  /** A producer's effect: the job log, the broker's outbox, and the returned batch id or the rethrown error. */
  datatype Produced<P> = Produced(log: JobLog<P>, outbox: seq<Message<P>>, result: Result<BatchId, Error>)

  /** No row uses a batch id the counter has not handed out yet, so the next id is fresh. */
  ghost predicate FreshIds<P>(log: JobLog<P>) {
    forall id :: id in log.rows ==> id < log.next
  }

  /** Every emitted message has its log row, holding the same payload: a consumer
      can always find the job a delivery refers to. */
  ghost predicate Journaled<P>(log: JobLog<P>, outbox: seq<Message<P>>) {
    forall i :: 0 <= i < |outbox| ==>
      outbox[i].batchId in log.rows && log.rows[outbox[i].batchId].payload == outbox[i].data
  }

  /** `repository.update({ batch_id }, ..)`: replaces the row with that batch id; a
      missing row makes it a no-op. */
  function SetRow<P>(log: JobLog<P>, id: BatchId, row: Job<P>): (r: JobLog<P>)
    ensures r.next == log.next && r.rows.Keys == log.rows.Keys
    ensures id in log.rows ==> r.rows[id] == row
    ensures forall other :: other in log.rows && other != id ==> r.rows[other] == log.rows[other]
  {
    if id in log.rows then log.(rows := log.rows[id := row]) else log
  }

  /** `queueBatchImport` of both producers: save a `pending` row under a fresh batch
      id, then emit `{batchId, data}`; if the emit fails (`fault` holds its message)
      mark that row `failed` with the message and rethrow. */
  function Produce<P>(log: JobLog<P>, outbox: seq<Message<P>>, pattern: string, payload: P,
                      fault: Option<string>): (r: Produced<P>)
    requires FreshIds(log)
    ensures log.next !in log.rows
    ensures r.log.next == log.next + 1 && FreshIds(r.log)
    ensures r.log.rows.Keys == log.rows.Keys + {log.next}
    ensures forall id :: id in log.rows ==> r.log.rows[id] == log.rows[id]
    ensures r.log.rows[log.next].payload == payload && r.log.rows[log.next].completedAt.None?
    ensures fault.None? <==> r.result.Success?
    ensures fault.None? ==>
      && r.result.value == log.next
      && r.log.rows[log.next].status == Pending && r.log.rows[log.next].error.None?
      && r.outbox == outbox + [Message(pattern, log.next, payload)]
    ensures fault.Some? ==>
      && r.result.error == Infrastructure(fault.value)
      && r.log.rows[log.next].status == Failed && r.log.rows[log.next].error == fault
      && r.outbox == outbox
  {
    var id := log.next;
    var saved := JobLog(log.rows[id := Job(payload, Pending, None, None)], id + 1);
    match fault
    case None => Produced(saved, outbox + [Message(pattern, id, payload)], Success(id))
    case Some(text) =>
      var row := saved.rows[id];
      Produced(SetRow(saved, id, row.(status := Failed, error := Some(text))), outbox,
               Failure(Infrastructure(text)))
  }

  /** Logging before emitting keeps every emitted message journaled, whether or not the emit fails. */
  lemma ProduceKeepsJournal<P>(log: JobLog<P>, outbox: seq<Message<P>>, pattern: string, payload: P,
                               fault: Option<string>)
    requires FreshIds(log) && Journaled(log, outbox)
    ensures var r := Produce(log, outbox, pattern, payload, fault);
      Journaled(r.log, r.outbox)
  {
  }

  /** A failed emit leaves no message that refers to its (failed) row. */
  lemma FailedProduceEmitsNothing<P>(log: JobLog<P>, outbox: seq<Message<P>>, pattern: string, payload: P,
                                     text: string)
    requires FreshIds(log) && Journaled(log, outbox)
    ensures var r := Produce(log, outbox, pattern, payload, Some(text));
      forall i :: 0 <= i < |r.outbox| ==> r.outbox[i].batchId != log.next
  {
  }

  /** `getBatchStatus`: the row with that batch id, if any. */
  function GetBatchStatus<P>(log: JobLog<P>, id: BatchId): (r: Option<Job<P>>)
    ensures r.Some? <==> id in log.rows
    ensures r.Some? ==> r.value == log.rows[id]
  {
    if id in log.rows then Some(log.rows[id]) else None
  }

  /** Right after a producer returns, the status query finds the row it wrote:
      `pending` on success, `failed` with the broker's message otherwise. */
  lemma StatusAfterProduce<P>(log: JobLog<P>, outbox: seq<Message<P>>, pattern: string, payload: P,
                              fault: Option<string>)
    requires FreshIds(log)
    ensures var r := Produce(log, outbox, pattern, payload, fault);
      GetBatchStatus(r.log, log.next) ==
        Some(if fault.None? then Job(payload, Pending, None, None)
             else Job(payload, Failed, fault, None))
  {
  }

  /** The component consumer's `updateJobStatus(batchId, status, error?)`: sets the
      status, stamps `completedAt` exactly when the status is final and clears it
      otherwise, and stores the error text unless none (or an empty one) is given. A
      missing row makes it a no-op. */
  function UpdateJobStatus<P>(log: JobLog<P>, id: BatchId, status: JobStatus, error: Option<string>, now: nat): (r: JobLog<P>)
    ensures r.next == log.next && r.rows.Keys == log.rows.Keys
    ensures forall other :: other in log.rows && other != id ==> r.rows[other] == log.rows[other]
    ensures id !in log.rows ==> r == log
    ensures id in log.rows ==>
      && r.rows[id].payload == log.rows[id].payload && r.rows[id].status == status
      && (r.rows[id].completedAt.Some? <==> status == Completed || status == Failed)
      && (r.rows[id].completedAt.Some? ==> r.rows[id].completedAt.value == now)
      && (r.rows[id].error.Some? <==> error.Some? && error.value != "")
      && (r.rows[id].error.Some? ==> r.rows[id].error == error)
  {
    if id !in log.rows then log
    else
      var stamp := if status == Completed || status == Failed then Some(now) else None;
      var text := if error.Some? && error.value != "" then error else None;
      SetRow(log, id, log.rows[id].(status := status, completedAt := stamp, error := text))
  }
}

=== FILE: lego_box_service.dfy ===
/** `LegoBoxService`: box creation, adding components with one-level containment
    checks, the validated batch fan-out and recording a sale. */
module LegoBoxService {
  import opened Wrappers
  import opened Errors
  import opened Store
  import opened Jobs
  import opened AppState
  import opened Producers
  import opened HistoryCache
  import opened Sales

  // ---------------------------------------------------------------- createLegoBox

  /** `createLegoBox`: a duplicate name is refused; otherwise one new box with that
      name and price 0 is saved under the next serial id. */
  function CreateLegoBox(s: State, name: string): (r: Run<BoxSnapshot>)
    requires 3 <= |name| <= 100
    requires Valid(s.db)
    ensures r.result.Failure? <==> HasBoxNamed(s.db, name)
    ensures r.result.Failure? ==> r == Run(s, Failure(DuplicateBoxName(name)))
    ensures r.result.Success? ==>
      && r.result.value == BoxSnapshot(s.db.nextBox, name, 0)
      && r.state == s.(db := InsertBox(s.db, name))
  {
    if FindBoxByName(s.db, name).Some? then Run(s, Failure(DuplicateBoxName(name)))
    else
      var id := s.db.nextBox;
      Run(s.(db := InsertBox(s.db, name)), Success(BoxSnapshot(id, name, 0)))
  }

  /** A created box keeps the schema valid, and it is the one box found under its name. */
  lemma CreateKeepsValid(s: State, name: string)
    requires 3 <= |name| <= 100 && Valid(s.db)
    ensures var r := CreateLegoBox(s, name);
      && Valid(r.state.db)
      && (r.result.Success? ==> FindBoxByName(r.state.db, name) == Some(r.result.value.id))
  {
    if !HasBoxNamed(s.db, name) {
      InsertBoxKeepsValid(s.db, name);
    }
  }

  // ---------------------------------------------------------------- addComponents

  /** The checks `addComponents` makes for one requested component, against the
      database as it was when the call started. */
  function Admit(db: Db, parent: BoxId, c: ComponentRequest): (r: Result<Child, Error>)
    ensures r.Success? ==> r.value == ChildOf(c.kind, c.id) && r.value != BoxChild(parent)
    ensures r.Success? ==> match r.value
      case PieceChild(p) => p in db.pieces
      case BoxChild(b) => b in db.boxes && HasComponents(db, b) && !DirectlyContains(db, b, parent)
    ensures c.kind == PieceKind ==> (r.Success? <==> c.id in db.pieces)
    ensures c.kind == PieceKind && c.id !in db.pieces ==> r == Failure(ComponentNotFound(c.id))
    ensures c.kind == BoxKind && (c.id !in db.boxes || !HasComponents(db, c.id)) ==>
      r == Failure(ComponentNotFound(c.id))
    ensures c.kind == BoxKind && c.id in db.boxes && HasComponents(db, c.id) ==>
      if c.id == parent then r == Failure(Forbidden(SelfContainment(parent)))
      else if DirectlyContains(db, c.id, parent) then r == Failure(Forbidden(BackReference(parent, c.id)))
      else r == Success(BoxChild(c.id))
  {
    match c.kind
    case PieceKind =>
      if c.id !in db.pieces then Failure(ComponentNotFound(c.id)) else Success(PieceChild(c.id))
    case BoxKind =>
      if c.id !in db.boxes || !HasComponents(db, c.id) then Failure(ComponentNotFound(c.id))
      else if c.id == parent then Failure(Forbidden(SelfContainment(parent)))
      else if DirectlyContains(db, c.id, parent) then Failure(Forbidden(BackReference(parent, c.id)))
      else Success(BoxChild(c.id))
  }

  /** `Array.from({ length: n }, ..)`: `n` copies. */
  function Repeat<T>(x: T, n: nat): (r: seq<T>)
    ensures |r| == n && forall i :: 0 <= i < n ==> r[i] == x
  {
    if n == 0 then [] else [x] + Repeat(x, n - 1)
  }

  /** Units of `child` a list of requests asks for. */
  function Requested(comps: seq<ComponentRequest>, child: Child): nat
    decreases |comps|
  {
    if comps == [] then 0
    else (if ChildOf(comps[0].kind, comps[0].id) == child then comps[0].amount else 0)
         + Requested(comps[1..], child)
  }

  /** The `for` loop of `addComponents`: every component admitted in order, its
      `amount` unit edges saved, and the running price increment. The first
      rejected component ends the loop with its error. */
  function Gather(db: Db, parent: BoxId, comps: seq<ComponentRequest>): (r: Result<(seq<Edge>, Cents), Error>)
    requires parent in db.boxes
    ensures r.Success? <==> forall i :: 0 <= i < |comps| ==> Admit(db, parent, comps[i]).Success?
    ensures r.Success? ==> forall i :: 0 <= i < |r.value.0| ==>
      r.value.0[i].parent == parent && r.value.0[i].child != BoxChild(parent) && EdgeResolves(db, r.value.0[i])
    decreases |comps|
  {
    if comps == [] then Success(([], 0))
    else
      assert forall i :: 1 <= i < |comps| ==> comps[1..][i - 1] == comps[i];
      match Admit(db, parent, comps[0])
      case Failure(e) => Failure(e)
      case Success(child) =>
        match Gather(db, parent, comps[1..])
        case Failure(e) => Failure(e)
        case Success(rest) =>
          var run := Repeat(Edge(parent, child), comps[0].amount);
          Success((run + rest.0, ChildPrice(db, child) * comps[0].amount + rest.1))
  }

  /** The loop's running `price += price * amount` is exactly the price of the edges it saves. */
  lemma {:induction false} GatherPrice(db: Db, parent: BoxId, comps: seq<ComponentRequest>)
    requires parent in db.boxes && Gather(db, parent, comps).Success?
    ensures Gather(db, parent, comps).value.1 == EdgesPrice(db, Gather(db, parent, comps).value.0)
    decreases |comps|
  {
    if comps != [] {
      var child := Admit(db, parent, comps[0]).value;
      var rest := Gather(db, parent, comps[1..]).value;
      GatherPrice(db, parent, comps[1..]);
      EdgesPriceRepeat(db, Edge(parent, child), comps[0].amount);
      EdgesPriceAppend(db, Repeat(Edge(parent, child), comps[0].amount), rest.0);
    }
  }

  /** The loop saves exactly the requested number of unit edges of every child. */
  lemma {:induction false} GatherCounts(db: Db, parent: BoxId, comps: seq<ComponentRequest>)
    requires parent in db.boxes && Gather(db, parent, comps).Success?
    ensures forall child :: multiset(Gather(db, parent, comps).value.0)[Edge(parent, child)] == Requested(comps, child)
    decreases |comps|
  {
    if comps != [] {
      var child := Admit(db, parent, comps[0]).value;
      var rest := Gather(db, parent, comps[1..]).value;
      GatherCounts(db, parent, comps[1..]);
      MultisetRepeat(Edge(parent, child), comps[0].amount);
      assert Gather(db, parent, comps).value.0 == Repeat(Edge(parent, child), comps[0].amount) + rest.0;
    } else {
      forall child ensures multiset(Gather(db, parent, comps).value.0)[Edge(parent, child)] == Requested(comps, child) {
      }
    }
  }

  lemma {:induction false} EdgesPriceRepeat(db: Db, e: Edge, n: nat)
    ensures EdgesPrice(db, Repeat(e, n)) == ChildPrice(db, e.child) * n
    decreases n
  {
    if n > 0 {
      assert Repeat(e, n)[1..] == Repeat(e, n - 1);
      EdgesPriceRepeat(db, e, n - 1);
    }
  }

  lemma {:induction false} MultisetRepeat<T>(x: T, n: nat)
    ensures multiset(Repeat(x, n)) == multiset{}[x := n]
    decreases n
  {
    if n > 0 {
      MultisetRepeat(x, n - 1);
      assert Repeat(x, n) == [x] + Repeat(x, n - 1);
    }
  }

  /** A rejected component is the first one `Admit` refuses, and its error is the one returned. */
  lemma {:induction false} GatherFailsAtFirstRejection(db: Db, parent: BoxId, comps: seq<ComponentRequest>)
    requires parent in db.boxes && Gather(db, parent, comps).Failure?
    ensures exists i :: && 0 <= i < |comps|
                        && Admit(db, parent, comps[i]) == Failure(Gather(db, parent, comps).error)
                        && forall j :: 0 <= j < i ==> Admit(db, parent, comps[j]).Success?
    decreases |comps|
  {
    if Admit(db, parent, comps[0]).Failure? {
      assert Admit(db, parent, comps[0]) == Failure(Gather(db, parent, comps).error);
    } else {
      GatherFailsAtFirstRejection(db, parent, comps[1..]);
      var i :| 0 <= i < |comps[1..]| && Admit(db, parent, comps[1..][i]) == Failure(Gather(db, parent, comps[1..]).error)
        && forall j :: 0 <= j < i ==> Admit(db, parent, comps[1..][j]).Success?;
      assert comps[i + 1] == comps[1..][i];
      assert forall j :: 1 <= j < i + 1 ==> comps[j] == comps[1..][j - 1];
    }
  }

  /** The database after the transaction of `addComponents` commits: the new edges
      appended and the parent's price raised by the increment. */
  function Committed(db: Db, parent: BoxId, edges: seq<Edge>, increment: Cents): (r: Db)
    requires parent in db.boxes
    ensures r.pieces == db.pieces && r.transactions == db.transactions && r.links == db.links
    ensures r.nextBox == db.nextBox && r.nextTx == db.nextTx && r.edges == db.edges + edges
    ensures r.boxes.Keys == db.boxes.Keys
    ensures r.boxes[parent] == db.boxes[parent].(price := db.boxes[parent].price + increment)
    ensures forall b :: b in db.boxes && b != parent ==> r.boxes[b] == db.boxes[b]
  {
    var box := db.boxes[parent];
    db.(edges := db.edges + edges, boxes := db.boxes[parent := box.(price := box.price + increment)])
  }

  /** `addComponents`: a missing parent or any rejected component rolls everything
      back. Otherwise the edges and the raised price are committed, a price job is
      queued for the reloaded box, and its history key is invalidated. A failing
      emit is rethrown after the commit, so the commit and the `failed` job row persist. */
  function AddComponents(s: State, parent: BoxId, comps: seq<ComponentRequest>, fault: Option<string>): (r: Run<BoxSnapshot>)
    requires parent >= 1 && FreshIds(s.priceJobs)
    ensures parent !in s.db.boxes ==> r == Run(s, Failure(BoxNotFound))
    ensures parent in s.db.boxes && Gather(s.db, parent, comps).Failure? ==>
      r == Run(s, Failure(Gather(s.db, parent, comps).error))
    ensures parent in s.db.boxes && Gather(s.db, parent, comps).Success? ==>
      var g := Gather(s.db, parent, comps).value;
      var db := Committed(s.db, parent, g.0, g.1);
      var q := QueuePriceUpdate(s.(db := db), Snapshot(db, parent), fault);
      && r.state.db == db
      && r.state.priceJobs == q.state.priceJobs && r.state.priceQueue == q.state.priceQueue
      && (fault.None? ==> r == Run(Invalidate(q.state, parent), Success(Snapshot(db, parent))))
      && (fault.Some? ==> r == Run(q.state, Failure(Infrastructure(fault.value))))
  {
    if parent !in s.db.boxes then Run(s, Failure(BoxNotFound))
    else match Gather(s.db, parent, comps)
      case Failure(e) => Run(s, Failure(e))
      case Success(g) =>
        var db := Committed(s.db, parent, g.0, g.1);
        var updated := Snapshot(db, parent);
        var q := QueuePriceUpdate(s.(db := db), updated, fault);
        if q.result.Failure? then Run(q.state, Failure(q.result.error))
        else Run(Invalidate(q.state, updated.id), Success(updated))
  }

  /** After a successful `addComponents` the parent holds exactly the units asked
      for of each child on top of what it held, and its price is the old price plus
      the price of exactly those new edges. */
  lemma AddComponentsInsertsRequested(s: State, parent: BoxId, comps: seq<ComponentRequest>, fault: Option<string>)
    requires parent >= 1 && FreshIds(s.priceJobs)
    requires parent in s.db.boxes && Gather(s.db, parent, comps).Success?
    ensures var d := AddComponents(s, parent, comps, fault).state.db;
      && d.edges[..|s.db.edges|] == s.db.edges
      && (forall child :: multiset(d.edges[|s.db.edges|..])[Edge(parent, child)] == Requested(comps, child))
      && (forall i :: |s.db.edges| <= i < |d.edges| ==> d.edges[i].parent == parent)
      && d.boxes[parent].price == s.db.boxes[parent].price + EdgesPrice(s.db, d.edges[|s.db.edges|..])
  {
    var g := Gather(s.db, parent, comps).value;
    var d := AddComponents(s, parent, comps, fault).state.db;
    assert d.edges[|s.db.edges|..] == g.0;
    GatherPrice(s.db, parent, comps);
    GatherCounts(s.db, parent, comps);
  }

  /** The price invariant after `addComponents`: starting from a database where
      every box is priced as the sum of its edges and no box holds itself, the
      parent is still consistent, and the only boxes left inconsistent are the
      parent's direct containers, whose repricing the queued price job performs. */
  lemma {:induction false} AddComponentsConsistency(s: State, parent: BoxId, comps: seq<ComponentRequest>,
                                                   fault: Option<string>)
    requires parent >= 1 && FreshIds(s.priceJobs)
    requires AllConsistent(s.db) && !DirectlyContains(s.db, parent, parent)
    requires parent in s.db.boxes && Gather(s.db, parent, comps).Success?
    ensures var d := AddComponents(s, parent, comps, fault).state.db;
      && Consistent(d, parent)
      && forall b :: b in d.boxes && !Consistent(d, b) ==> DirectlyContains(s.db, b, parent)
  {
    var g := Gather(s.db, parent, comps).value;
    var d := Committed(s.db, parent, g.0, g.1);
    assert AddComponents(s, parent, comps, fault).state.db == d;
    GatherPrice(s.db, parent, comps);
    forall b | b in d.boxes && (b == parent || !DirectlyContains(s.db, b, parent))
      ensures Consistent(d, b)
    {
      CommitKeepsConsistent(s.db, parent, g.0, g.1, b);
    }
  }

  /** The step of `AddComponentsConsistency` for one box. */
  lemma {:induction false} CommitKeepsConsistent(db: Db, parent: BoxId, es: seq<Edge>, increment: Cents, b: BoxId)
    requires parent in db.boxes && b in db.boxes && Consistent(db, b) && Consistent(db, parent)
    requires !DirectlyContains(db, parent, parent)
    requires b == parent || !DirectlyContains(db, b, parent)
    requires forall i :: 0 <= i < |es| ==> es[i].parent == parent && es[i].child != BoxChild(parent)
    requires increment == EdgesPrice(db, es)
    ensures Consistent(Committed(db, parent, es, increment), b)
  {
    var d := Committed(db, parent, es, increment);
    EdgesOfAppend(db.edges, es, b);
    var old_edges := EdgesOf(db.edges, b);
    OldEdgesKeepPrice(db, parent, es, increment, b);
    if b == parent {
      EdgesOfParent(es, parent);
      EdgesPriceFrame(d, db, es);
      EdgesPriceAppend(d, old_edges, es);
    } else {
      EdgesOfForeign(es, b);
      assert EdgesOf(d.edges, b) == old_edges;
    }
  }

  /** The edges a box already had are priced as before: none of them holds the
      one box whose price changed. */
  lemma OldEdgesKeepPrice(db: Db, parent: BoxId, es: seq<Edge>, increment: Cents, b: BoxId)
    requires parent in db.boxes
    requires !DirectlyContains(db, b, parent)
    ensures EdgesPrice(Committed(db, parent, es, increment), EdgesOf(db.edges, b)) == EdgesPrice(db, EdgesOf(db.edges, b))
  {
    var d := Committed(db, parent, es, increment);
    var old_edges := EdgesOf(db.edges, b);
    forall i | 0 <= i < |old_edges|
      ensures ChildPrice(d, old_edges[i].child) == ChildPrice(db, old_edges[i].child)
    {
      assert old_edges[i] in db.edges;
    }
    EdgesPriceFrame(d, db, old_edges);
  }

  /** A run of edges all belonging to `parent` is its own `EdgesOf`. */
  lemma {:induction false} EdgesOfParent(es: seq<Edge>, parent: BoxId)
    requires forall i :: 0 <= i < |es| ==> es[i].parent == parent
    ensures EdgesOf(es, parent) == es
    decreases |es|
  {
    if es != [] {
      EdgesOfParent(es[1..], parent);
    }
  }

  /** `addComponents` keeps the schema valid: every saved edge resolves. */
  lemma AddComponentsKeepsValid(s: State, parent: BoxId, comps: seq<ComponentRequest>, fault: Option<string>)
    requires parent >= 1 && FreshIds(s.priceJobs) && Valid(s.db)
    ensures Valid(AddComponents(s, parent, comps, fault).state.db)
  {
    if parent in s.db.boxes && Gather(s.db, parent, comps).Success? {
      var g := Gather(s.db, parent, comps).value;
      var d := Committed(s.db, parent, g.0, g.1);
      assert forall i :: 0 <= i < |d.edges| ==> EdgeResolves(d, d.edges[i]) by {
        forall i | 0 <= i < |d.edges| ensures EdgeResolves(d, d.edges[i]) {
          if i < |s.db.edges| {
            assert EdgeResolves(s.db, s.db.edges[i]);
          } else {
            assert d.edges[i] == g.0[i - |s.db.edges|];
          }
        }
      }
      assert forall i :: 0 <= i < |d.links| ==> LinkResolves(d, d.links[i]) by {
        forall i | 0 <= i < |d.links| ensures LinkResolves(d, d.links[i]) {
          assert LinkResolves(s.db, s.db.links[i]);
        }
      }
    }
  }

  /** Three boxes in a chain, A (1) holding B (2) holding C (3) holding a piece. */
  function ChainDb(): Db {
    Db(map[1 := Piece("Square", 10)],
       map[1 := Box("Abc", 10), 2 := Box("Bcd", 10), 3 := Box("Cde", 10)],
       [Edge(1, BoxChild(2)), Edge(2, BoxChild(3)), Edge(3, PieceChild(1))],
       map[], [], 4, 1)
  }

  function ChainState(): State {
    State(ChainDb(), JobLog(map[], 1), JobLog(map[], 1), [], [], map[])
  }

  lemma ChainIsConsistent()
    ensures AllConsistent(ChainDb())
  {
    var db := ChainDb();
    assert EdgesOf(db.edges, 1) == [db.edges[0]];
    assert EdgesOf(db.edges, 2) == [db.edges[1]];
    assert EdgesOf(db.edges, 3) == [db.edges[2]];
  }

  /** The containment checks look one level deep only: with A holding B and B
      holding C, adding A into C is admitted, and the result holds the cycle
      A, B, C, A, which no ranking can order. */
  lemma OneLevelCheckAdmitsCycle()
    ensures var r := AddComponents(ChainState(), 3, [ComponentRequest(BoxKind, 1, 1)], None);
      && r.result.Success?
      && forall rank :: !Ranked(r.state.db.edges, rank)
  {
    var db := ChainDb();
    assert HasComponents(db, 1) by {
      assert db.edges[0].parent == 1;
    }
    assert Admit(db, 3, ComponentRequest(BoxKind, 1, 1)) == Success(BoxChild(1));
    var r := AddComponents(ChainState(), 3, [ComponentRequest(BoxKind, 1, 1)], None);
    var es := r.state.db.edges;
    assert es == db.edges + [Edge(3, BoxChild(1))];
    forall rank ensures !Ranked(es, rank) {
      CycleUnranked(es, rank);
    }
  }

  lemma CycleUnranked(es: seq<Edge>, rank: map<BoxId, nat>)
    requires |es| == 4 && es[0] == Edge(1, BoxChild(2)) && es[1] == Edge(2, BoxChild(3)) && es[3] == Edge(3, BoxChild(1))
    ensures !Ranked(es, rank)
  {
    assert es[0].child.BoxChild? && es[1].child.BoxChild? && es[3].child.BoxChild?;
  }

  // ---------------------------------------------------------------- batchImport

  /** `validateBoxComponent`: a piece must exist; a box must exist and hold
      something, and is then checked against the parent box looked up by name. A
      parent that does not exist yet is dereferenced anyway and fails with a TypeError. */
  function ValidateBoxComponent(db: Db, c: BatchComponent, boxName: string): (r: Result<(), Error>)
    requires UniqueNames(db)
    ensures c.kind == PieceKind ==> (r.Success? <==> c.id in db.pieces)
    ensures c.kind == PieceKind && r.Failure? ==> r.error == ComponentNotFound(c.id)
    ensures c.kind == BoxKind && (c.id !in db.boxes || !HasComponents(db, c.id)) ==>
      r == Failure(ComponentNotFound(c.id))
    ensures c.kind == BoxKind && c.id in db.boxes && HasComponents(db, c.id) ==>
      if !HasBoxNamed(db, boxName) then r == Failure(NullAccess("id"))
      else
        var parent := FindBoxByName(db, boxName).value;
        if parent == c.id then r == Failure(Forbidden(SelfContainment(c.id)))
        else if DirectlyContains(db, c.id, parent) then r == Failure(Forbidden(BackReferenceByName(parent, c.id)))
        else r.Success?
  {
    match c.kind
    case PieceKind =>
      if c.id in db.pieces then Success(()) else Failure(ComponentNotFound(c.id))
    case BoxKind =>
      if c.id !in db.boxes || !HasComponents(db, c.id) then Failure(ComponentNotFound(c.id))
      else match FindBoxByName(db, boxName)
        case None => Failure(NullAccess("id"))
        case Some(parent) =>
          if parent == c.id then Failure(Forbidden(SelfContainment(c.id)))
          else if DirectlyContains(db, c.id, parent) then Failure(Forbidden(BackReferenceByName(parent, c.id)))
          else Success(())
  }

  /** A box component of a box that does not exist yet never passes validation. */
  lemma NewBoxCannotTakeBoxes(db: Db, c: BatchComponent, boxName: string)
    requires UniqueNames(db) && c.kind == BoxKind && !HasBoxNamed(db, boxName)
    ensures ValidateBoxComponent(db, c, boxName).Failure?
  {
  }

  /** The inner loop of the validation: the box's components in order, stopping at
      the first error, which is the one returned. */
  function ValidateComponents(db: Db, comps: seq<BatchComponent>, boxName: string): (r: Result<(), Error>)
    requires UniqueNames(db)
    ensures r.Success? <==> forall j :: 0 <= j < |comps| ==> ValidateBoxComponent(db, comps[j], boxName).Success?
    ensures r.Failure? ==> exists j :: && 0 <= j < |comps|
                                       && ValidateBoxComponent(db, comps[j], boxName) == Failure(r.error)
                                       && forall k :: 0 <= k < j ==> ValidateBoxComponent(db, comps[k], boxName).Success?
    decreases |comps|
  {
    if comps == [] then Success(())
    else
      assert forall j :: 1 <= j < |comps| ==> comps[1..][j - 1] == comps[j];
      match ValidateBoxComponent(db, comps[0], boxName)
      case Failure(e) => Failure(e)
      case Success(_) => ValidateComponents(db, comps[1..], boxName)
  }

  /** The first loop of `batchImport`: every component of every box, in order,
      stopping at the first error. */
  function ValidateBoxes(db: Db, boxes: seq<BatchBox>): (r: Result<(), Error>)
    requires UniqueNames(db)
    ensures r.Success? <==> forall i, j :: 0 <= i < |boxes| && 0 <= j < |boxes[i].components| ==>
      ValidateBoxComponent(db, boxes[i].components[j], boxes[i].name).Success?
    ensures r.Failure? ==>
      exists i, j ::
        && 0 <= i < |boxes| && 0 <= j < |boxes[i].components|
        && ValidateBoxComponent(db, boxes[i].components[j], boxes[i].name) == Failure(r.error)
        && (forall h, k :: 0 <= h < i && 0 <= k < |boxes[h].components| ==>
              ValidateBoxComponent(db, boxes[h].components[k], boxes[h].name).Success?)
        && forall k :: 0 <= k < j ==> ValidateBoxComponent(db, boxes[i].components[k], boxes[i].name).Success?
    decreases |boxes|
  {
    if boxes == [] then Success(())
    else
      assert forall i :: 1 <= i < |boxes| ==> boxes[1..][i - 1] == boxes[i];
      match ValidateComponents(db, boxes[0].components, boxes[0].name)
      case Failure(e) => Failure(e)
      case Success(_) => ValidateBoxes(db, boxes[1..])
  }

  /** `box.amount` copies of the import message of each component, in order. */
  function ExpandComponents(name: string, comps: seq<BatchComponent>, amount: nat): (r: seq<ComponentImport>)
    ensures forall k :: 0 <= k < |r| ==> r[k].name == name && BatchComponent(r[k].kind, r[k].id) in comps
    decreases |comps|
  {
    if comps == [] then []
    else
      var rest := ExpandComponents(name, comps[1..], amount);
      Repeat(ComponentImport(name, comps[0].kind, comps[0].id), amount) + rest
  }

  /** The messages the second loop of `batchImport` sends, in order. */
  function Expand(boxes: seq<BatchBox>): (r: seq<ComponentImport>)
    ensures forall k :: 0 <= k < |r| ==>
      exists i :: (0 <= i < |boxes| && r[k].name == boxes[i].name
                   && BatchComponent(r[k].kind, r[k].id) in boxes[i].components)
    decreases |boxes|
  {
    if boxes == [] then []
    else
      var head := ExpandComponents(boxes[0].name, boxes[0].components, boxes[0].amount);
      var rest := Expand(boxes[1..]);
      assert forall k :: 0 <= k < |head| ==> head[k] == (head + rest)[k];
      assert forall k :: 0 <= k < |rest| ==> rest[k] == (head + rest)[|head| + k];
      assert forall i :: 1 <= i < |boxes| ==> boxes[1..][i - 1] == boxes[i];
      head + rest
  }

  /** Units asked for: the number of component-import messages the batch stands for. */
  function Units(boxes: seq<BatchBox>): nat
    decreases |boxes|
  {
    if boxes == [] then 0 else |boxes[0].components| * boxes[0].amount + Units(boxes[1..])
  }

  /** How many messages for `imp` the batch asks for: the amount of every box with
      that name, once for every listing of that component. */
  function Asked(boxes: seq<BatchBox>, imp: ComponentImport): nat
    decreases |boxes|
  {
    if boxes == [] then 0
    else (if boxes[0].name == imp.name then Listed(boxes[0].components, imp, boxes[0].amount) else 0)
         + Asked(boxes[1..], imp)
  }

  /** `amount` for every listing of `imp`'s component. */
  function Listed(comps: seq<BatchComponent>, imp: ComponentImport, amount: nat): nat
    decreases |comps|
  {
    if comps == [] then 0
    else (if comps[0] == BatchComponent(imp.kind, imp.id) then amount else 0) + Listed(comps[1..], imp, amount)
  }

  /** One message per box, component and unit of the box's amount. */
  lemma {:induction false} ExpandLength(boxes: seq<BatchBox>)
    ensures |Expand(boxes)| == Units(boxes)
    decreases |boxes|
  {
    if boxes != [] {
      ExpandLength(boxes[1..]);
      ExpandComponentsLength(boxes[0].name, boxes[0].components, boxes[0].amount);
    }
  }

  lemma {:induction false} ExpandComponentsLength(name: string, comps: seq<BatchComponent>, amount: nat)
    ensures |ExpandComponents(name, comps, amount)| == |comps| * amount
    decreases |comps|
  {
    if comps != [] {
      ExpandComponentsLength(name, comps[1..], amount);
      assert |comps| * amount == amount + |comps[1..]| * amount;
    }
  }

  /** Each import message occurs exactly as often as the batch asks for it. */
  lemma {:induction false} ExpandCounts(boxes: seq<BatchBox>, imp: ComponentImport)
    ensures multiset(Expand(boxes))[imp] == Asked(boxes, imp)
    decreases |boxes|
  {
    if boxes != [] {
      ExpandCounts(boxes[1..], imp);
      ExpandComponentsCounts(boxes[0].name, boxes[0].components, boxes[0].amount, imp);
    }
  }

  lemma {:induction false} ExpandComponentsCounts(name: string, comps: seq<BatchComponent>, amount: nat,
                                                  imp: ComponentImport)
    ensures multiset(ExpandComponents(name, comps, amount))[imp] ==
      (if imp.name == name then Listed(comps, imp, amount) else 0)
    decreases |comps|
  {
    if comps != [] {
      ExpandComponentsCounts(name, comps[1..], amount, imp);
      MultisetRepeat(ComponentImport(name, comps[0].kind, comps[0].id), amount);
    }
  }

  /** The fault map's entry for a batch id: the broker error its emit meets, if any. */
  function FaultFor(faults: map<BatchId, string>, id: BatchId): Option<string> {
    if id in faults then Some(faults[id]) else None
  }

  /** The messages the fan-out leaves in the broker: one per import whose emit did not fail. */
  function Emitted(imps: seq<ComponentImport>, start: BatchId, faults: map<BatchId, string>): seq<Message<ComponentPayload>>
    decreases |imps|
  {
    if imps == [] then [] else Emits(imps[0], start, faults) + Emitted(imps[1..], start + 1, faults)
  }

  /** What one `queueComponent` adds to the queue: its message, unless its emit fails. */
  function Emits(imp: ComponentImport, id: BatchId, faults: map<BatchId, string>): seq<Message<ComponentPayload>> {
    if id in faults then [] else [Message(ComponentPattern, id, Single(imp))]
  }

  /** The component-job row the fan-out writes for one import. */
  function RowFor(imp: ComponentImport, id: BatchId, faults: map<BatchId, string>): Job<ComponentPayload> {
    if id in faults then Job(Single(imp), Failed, Some(faults[id]), None) else Job(Single(imp), Pending, None, None)
  }

  /** The second loop of `batchImport`: one un-awaited `queueComponent` per message.
      Each runs to completion in turn; a failing emit marks its row `failed` and its
      rejection is dropped. Only the component-job log and queue change. */
  function FanOut(s: State, imps: seq<ComponentImport>, faults: map<BatchId, string>): (r: State)
    requires FreshIds(s.componentJobs)
    ensures r.db == s.db && r.priceJobs == s.priceJobs && r.priceQueue == s.priceQueue && r.cache == s.cache
    ensures FreshIds(r.componentJobs) && r.componentJobs.next == s.componentJobs.next + |imps|
    ensures forall id :: id in s.componentJobs.rows ==>
      id in r.componentJobs.rows && r.componentJobs.rows[id] == s.componentJobs.rows[id]
    decreases |imps|
  {
    if imps == [] then s else FanOut(FanOutHead(s, imps[0], faults), imps[1..], faults)
  }

  /** The fan-out adds exactly one row per message, under consecutive fresh batch ids. */
  lemma {:induction false} FanOutKeys(s: State, imps: seq<ComponentImport>, faults: map<BatchId, string>)
    requires FreshIds(s.componentJobs)
    ensures forall id :: id in FanOut(s, imps, faults).componentJobs.rows <==>
      id in s.componentJobs.rows || s.componentJobs.next <= id < s.componentJobs.next + |imps|
    decreases |imps|
  {
    if imps != [] {
      FanOutKeys(FanOutHead(s, imps[0], faults), imps[1..], faults);
    }
  }

  /** The row of message `k`: `pending`, or `failed` with the broker's message where its emit failed. */
  lemma {:induction false} FanOutRow(s: State, imps: seq<ComponentImport>, faults: map<BatchId, string>, k: nat)
    requires FreshIds(s.componentJobs) && k < |imps|
    ensures var id := s.componentJobs.next + k;
      id in FanOut(s, imps, faults).componentJobs.rows &&
      FanOut(s, imps, faults).componentJobs.rows[id] == RowFor(imps[k], id, faults)
    decreases |imps|
  {
    var id: BatchId := s.componentJobs.next;
    var q := FanOutHead(s, imps[0], faults);
    var rows := FanOut(s, imps, faults).componentJobs.rows;
    assert rows == FanOut(q, imps[1..], faults).componentJobs.rows;
    if k == 0 {
      assert q.componentJobs.rows[id] == RowFor(imps[0], id, faults);
      assert rows[id] == q.componentJobs.rows[id];
    } else {
      var rest := imps[1..];
      assert rest[k - 1] == imps[k];
      assert q.componentJobs.next + (k - 1) == id + k;
      FanOutRow(q, rest, faults, k - 1);
    }
  }

  /** The broker receives, in order, the messages whose emits did not fail. */
  lemma {:induction false} FanOutQueue(s: State, imps: seq<ComponentImport>, faults: map<BatchId, string>)
    requires FreshIds(s.componentJobs)
    ensures FanOut(s, imps, faults).componentQueue == s.componentQueue + Emitted(imps, s.componentJobs.next, faults)
    decreases |imps|
  {
    if imps != [] {
      var id := s.componentJobs.next;
      var q := FanOutHead(s, imps[0], faults);
      FanOutQueue(q, imps[1..], faults);
      AppendAssoc(s.componentQueue, Emits(imps[0], id, faults), Emitted(imps[1..], id + 1, faults));
    }
  }

  /** The state after the first message of the fan-out, and what it adds to the queue. */
  function FanOutHead(s: State, imp: ComponentImport, faults: map<BatchId, string>): (r: State)
    requires FreshIds(s.componentJobs)
    ensures r.db == s.db && r.priceJobs == s.priceJobs && r.priceQueue == s.priceQueue && r.cache == s.cache
    ensures FreshIds(r.componentJobs) && r.componentJobs.next == s.componentJobs.next + 1
    ensures r.componentJobs.rows == s.componentJobs.rows[s.componentJobs.next := RowFor(imp, s.componentJobs.next, faults)]
    ensures r.componentQueue == s.componentQueue + Emits(imp, s.componentJobs.next, faults)
  {
    QueueComponentUpdate(s, Single(imp), FaultFor(faults, s.componentJobs.next)).state
  }

  /** Every message the fan-out emits refers to a row holding its payload. */
  lemma {:induction false} FanOutJournaled(s: State, imps: seq<ComponentImport>, faults: map<BatchId, string>)
    requires FreshIds(s.componentJobs) && Journaled(s.componentJobs, s.componentQueue)
    ensures var r := FanOut(s, imps, faults); Journaled(r.componentJobs, r.componentQueue)
    decreases |imps|
  {
    if imps != [] {
      var id := s.componentJobs.next;
      ProduceKeepsJournal(s.componentJobs, s.componentQueue, ComponentPattern, Single(imps[0]), FaultFor(faults, id));
      FanOutJournaled(FanOutHead(s, imps[0], faults), imps[1..], faults);
    }
  }

  /** With no failing emit, message `k` carries import `k` under the `k`-th fresh batch id. */
  lemma {:induction false} EmittedWithoutFaults(imps: seq<ComponentImport>, start: BatchId)
    ensures |Emitted(imps, start, map[])| == |imps|
    ensures forall k :: 0 <= k < |imps| ==>
      Emitted(imps, start, map[])[k] == Message(ComponentPattern, start + k, Single(imps[k]))
    decreases |imps|
  {
    if imps != [] {
      EmittedWithoutFaults(imps[1..], start + 1);
      var rest := Emitted(imps[1..], start + 1, map[]);
      assert Emitted(imps, start, map[]) == [Message(ComponentPattern, start, Single(imps[0]))] + rest;
      assert forall k :: 1 <= k < |imps| ==> imps[1..][k - 1] == imps[k];
    }
  }

  /** `batchImport`: validation of every component of every box comes first, and
      any failure leaves the state untouched. Then the fan-out queues one job per
      box, component and unit, and the fixed acknowledgement is returned. */
  function BatchImport(s: State, boxes: seq<BatchBox>, faults: map<BatchId, string>): (r: Run<string>)
    requires forall i :: 0 <= i < |boxes| ==> 3 <= |boxes[i].name| <= 100
    requires UniqueNames(s.db) && FreshIds(s.componentJobs)
    ensures ValidateBoxes(s.db, boxes).Failure? ==> r == Run(s, Failure(ValidateBoxes(s.db, boxes).error))
    ensures ValidateBoxes(s.db, boxes).Success? ==>
      && r.result == Success("Batch Queuing Successful")
      && r.state == FanOut(s, Expand(boxes), faults)
      && r.state.componentJobs.next == s.componentJobs.next + Units(boxes)
  {
    ExpandLength(boxes);
    match ValidateBoxes(s.db, boxes)
    case Failure(e) => Run(s, Failure(e))
    case Success(_) => Run(FanOut(s, Expand(boxes), faults), Success("Batch Queuing Successful"))
  }

  // ---------------------------------------------------------------- createTransactionBox

  /** `createTransactionBox`: a missing box and a zero price are refused; otherwise
      the sale is recorded in one database transaction (rolled back if the linked
      transaction row is gone) and the box's history key is invalidated. */
  function CreateTransactionBox(s: State, box: BoxId, amount: nat): (r: Run<(TxId, Transaction)>)
    requires box >= 1 && TxFresh(s.db)
    ensures box !in s.db.boxes ==> r == Run(s, Failure(BoxNotFound))
    ensures box in s.db.boxes && s.db.boxes[box].price == 0 ==> r == Run(s, Failure(Forbidden(ZeroPrice)))
    ensures box in s.db.boxes && s.db.boxes[box].price != 0 ==>
      var sale := RecordSale(s.db, box, s.db.boxes[box].price, amount);
      if sale.Failure? then r == Run(s, Failure(sale.error))
      else
        && r.state == Invalidate(s.(db := sale.value.0), box)
        && r.result == Success((sale.value.1, sale.value.0.transactions[sale.value.1]))
  {
    if box !in s.db.boxes then Run(s, Failure(BoxNotFound))
    else
      var price := s.db.boxes[box].price;
      if price == 0 then Run(s, Failure(Forbidden(ZeroPrice)))
      else match RecordSale(s.db, box, price, amount)
        case Failure(e) => Run(s, Failure(e))
        case Success((db, tx)) => Run(Invalidate(s.(db := db), box), Success((tx, db.transactions[tx])))
  }

  /** A recorded sale keeps the box's sales total equal to its price times the units
      sold, keeps the schema valid, and forces the next history read to reload. */
  lemma CreateTransactionBoxKeepsSales(s: State, box: BoxId, amount: nat)
    requires box >= 1 && Valid(s.db) && box in s.db.boxes && SalesConsistent(s.db, box)
    ensures var r := CreateTransactionBox(s, box, amount);
      && box in r.state.db.boxes && SalesConsistent(r.state.db, box) && Valid(r.state.db)
      && (r.result.Success? ==> Key(box) !in r.state.cache)
  {
    var price := s.db.boxes[box].price;
    if price != 0 && RecordSale(s.db, box, price, amount).Success? {
      SaleKeepsSalesConsistent(s.db, box, amount);
      RecordSaleKeepsValid(s.db, box, price, amount);
    }
  }
}

=== FILE: pipeline.dfy ===
/** Properties of the services working together: an `addComponents` call followed by
    the price job it queues leaves every box priced as the sum of its edges. */
module Pipeline {
  import opened Wrappers
  import opened Errors
  import opened Store
  import opened Jobs
  import opened AppState
  import opened HistoryCache
  import opened Sales
  import opened LegoBoxService
  import opened PriceBatch
  import opened PriceConsistency
  import opened Producers
  import PriceConsumer
  import ComponentConsumer

  /** Starting from a valid database in which every box is consistent, a successful
      `addComponents` (whose emit does not fail) followed by the price batch's
      `processData` on the snapshot it queued succeeds and leaves every box
      consistent again; the changed box's sales total is resynced at its new price
      and its cache entry is gone. The ranking witnesses that the edges after the
      call form no cycle. */
  lemma {:induction false} AddThenRepriceIsConsistent(s: State, parent: BoxId, comps: seq<ComponentRequest>,
                                                      rank: map<BoxId, nat>)
    requires parent >= 1 && FreshIds(s.priceJobs) && Valid(s.db) && AllConsistent(s.db)
    requires parent in s.db.boxes && Gather(s.db, parent, comps).Success?
    requires Ranked(AddComponents(s, parent, comps, None).state.db.edges, rank)
    ensures var a := AddComponents(s, parent, comps, None);
      && a.result.Success? && a.result.value.id == parent
      && var r := PriceBatch.ProcessData(a.state, a.result.value, rank);
      && r.result.Success?
      && AllConsistent(r.state.db)
      && parent in r.state.db.boxes && SalesConsistent(r.state.db, parent)
      && Key(parent) !in r.state.cache
  {
    var a := AddComponents(s, parent, comps, None);
    var d := a.state.db;
    var es := d.edges;
    AddComponentsKeepsValid(s, parent, comps, None);
    PassRepairsContainers(s, parent, comps, rank);
    var snap := a.result.value;
    var pb := ProcessBox(a.state, parent, rank);
    ProcessBoxPrices(a.state, parent, rank);
    NotAboveItself(es, rank, parent);
    ResyncSucceeds(d, parent, snap.price);
    var r := PriceBatch.ProcessData(a.state, snap, rank);
    ConsistencyReadsPrices(pb.db, r.state.db);
  }

  /** The upward pass after `addComponents` repairs exactly what the call left
      inconsistent: the parent's direct containers are strictly above it. */
  lemma {:induction false} PassRepairsContainers(s: State, parent: BoxId, comps: seq<ComponentRequest>,
                                                 rank: map<BoxId, nat>)
    requires parent >= 1 && FreshIds(s.priceJobs) && Valid(s.db) && AllConsistent(s.db)
    requires parent in s.db.boxes && Gather(s.db, parent, comps).Success?
    requires Ranked(AddComponents(s, parent, comps, None).state.db.edges, rank)
    ensures var a := AddComponents(s, parent, comps, None);
      && a.result == Success(Snapshot(a.state.db, parent))
      && AllConsistent(ProcessBox(a.state, parent, rank).db)
  {
    var a := AddComponents(s, parent, comps, None);
    var d := a.state.db;
    var es := d.edges;
    AddComponentsInsertsRequested(s, parent, comps, None);
    RankedNoSelfEdge(es, rank, parent);
    forall i | 0 <= i < |s.db.edges| ensures s.db.edges[i] != Edge(parent, BoxChild(parent)) {
      assert es[i] == s.db.edges[i];
    }
    AddComponentsConsistency(s, parent, comps, None);
    AddComponentsKeepsValid(s, parent, comps, None);
    var pb := ProcessBox(a.state, parent, rank);
    ProcessBoxConsistent(a.state, parent, rank);
    forall b | b in d.boxes ensures Consistent(pb.db, b) {
      if !Consistent(d, b) {
        var i :| 0 <= i < |s.db.edges| && s.db.edges[i] == Edge(b, BoxChild(parent));
        assert es[i] == s.db.edges[i];
        ParentAbove(es, rank, b, b, parent);
      }
    }
  }

  /** A Wheel (box 1) of four Circles inside a Car (box 2) next to two Squares. */
  function WheelAndCarEdges(): seq<Edge> {
    Repeat(Edge(1, PieceChild(3)), 4) + [Edge(2, BoxChild(1))] + Repeat(Edge(2, PieceChild(1)), 2)
  }

  /** That database with both prices stale. */
  function WheelAndCar(): State {
    var db := Db(SeedPieces(), map[1 := Box("Wheel", 0), 2 := Box("Car", 0)], WheelAndCarEdges(), map[], [], 3, 1);
    State(db, JobLog(map[], 1), JobLog(map[], 1), [], [], map[])
  }

  /** The Car sits below the Wheel in the ranking. */
  function WheelAndCarRank(): map<BoxId, nat> {
    map[1 := 1, 2 := 0]
  }

  lemma WheelAndCarValid()
    ensures Valid(WheelAndCar().db) && Ranked(WheelAndCarEdges(), WheelAndCarRank())
  {
    var db := WheelAndCar().db;
    var es := WheelAndCarEdges();
    assert forall i :: 0 <= i < |es| ==> es[i] in {Edge(1, PieceChild(3)), Edge(2, BoxChild(1)), Edge(2, PieceChild(1))};
    assert db.boxes[1].name != db.boxes[2].name;
  }

  /** The Wheel's edges are its four Circles, the Car's are the Wheel and two Squares,
      and the Car is the Wheel's only parent. */
  lemma WheelAndCarShape()
    ensures EdgesOf(WheelAndCarEdges(), 1) == Repeat(Edge(1, PieceChild(3)), 4)
    ensures EdgesOf(WheelAndCarEdges(), 2) == [Edge(2, BoxChild(1))] + Repeat(Edge(2, PieceChild(1)), 2)
    ensures ParentsOf(WheelAndCarEdges(), 1) == [2]
  {
    var c4, w, q2 := Repeat(Edge(1, PieceChild(3)), 4), [Edge(2, BoxChild(1))], Repeat(Edge(2, PieceChild(1)), 2);
    EdgesOfAppend(c4 + w, q2, 1);
    EdgesOfAppend(c4, w, 1);
    EdgesOfParent(c4, 1);
    EdgesOfForeign(w, 1);
    EdgesOfForeign(q2, 1);
    CarEdges();
    ParentsOfAppend(c4 + w, q2, 1);
    ParentsOfAppend(c4, w, 1);
    assert ParentsOf(c4, 1) == [] && ParentsOf(q2, 1) == [];
  }

  lemma CarEdges()
    ensures EdgesOf(WheelAndCarEdges(), 2) == [Edge(2, BoxChild(1))] + Repeat(Edge(2, PieceChild(1)), 2)
  {
    var c4, w, q2 := Repeat(Edge(1, PieceChild(3)), 4), [Edge(2, BoxChild(1))], Repeat(Edge(2, PieceChild(1)), 2);
    EdgesOfAppend(c4 + w, q2, 2);
    EdgesOfAppend(c4, w, 2);
    EdgesOfForeign(c4, 2);
    EdgesOfParent(w, 2);
    EdgesOfParent(q2, 2);
  }

  /** With the seed prices, recomputing the Wheel gives 4 * 7 = 28 cents. */
  lemma WheelReprices()
    ensures Reprice(WheelAndCar().db, 1).boxes[1].price == 28
  {
    var db := WheelAndCar().db;
    WheelAndCarShape();
    EdgesPriceRepeat(db, Edge(1, PieceChild(3)), 4);
  }

  /** The pass above the repriced Wheel recomputes the Car as 28 + 2 * 10 = 48 cents
      and leaves the Wheel at 28. */
  lemma CarRepricesAboveWheel()
    ensures Ranked(WheelAndCarEdges(), WheelAndCarRank())
    ensures var s := WheelAndCar();
      var r := ProcessBox(s.(db := Reprice(s.db, 1)), 1, WheelAndCarRank());
      r.db.boxes[1].price == 28 && r.db.boxes[2].price == 48
  {
    var s := WheelAndCar();
    WheelAndCarValid();
    WheelReprices();
    var s1 := s.(db := Reprice(s.db, 1));
    SameShapeKeepsValid(s.db, s1.db);
    PassAboveWheel(s1);
  }

  /** The pass above the Wheel in any valid database of that shape: the Car ends at
      the Wheel's price plus two Squares. */
  lemma PassAboveWheel(s: State)
    requires Valid(s.db) && s.db.edges == WheelAndCarEdges() && Ranked(s.db.edges, WheelAndCarRank())
    requires 1 in s.db.boxes && 2 in s.db.boxes && 1 in s.db.pieces
    ensures var r := ProcessBox(s, 1, WheelAndCarRank());
      && r.db.boxes[1].price == s.db.boxes[1].price
      && r.db.boxes[2].price == s.db.boxes[1].price + 2 * s.db.pieces[1].price
  {
    var rank := WheelAndCarRank();
    var es := s.db.edges;
    WheelAndCarShape();
    var r := ProcessBox(s, 1, rank);
    ProcessBoxConsistent(s, 1, rank);
    ProcessBoxPrices(s, 1, rank);
    NotAboveItself(es, rank, 1);
    assert es[4] == Edge(2, BoxChild(1));
    ParentAbove(es, rank, 2, 2, 1);
    var square := Edge(2, PieceChild(1));
    EdgesPriceAppend(r.db, [Edge(2, BoxChild(1))], Repeat(square, 2));
    EdgesPriceRepeat(r.db, square, 2);
  }

  /** The price pipeline end to end: a job the producer queued is found by the
      consumer that receives its message, which settles it for good: the row
      ends `completed` or `failed` and the delivery is never requeued. */
  lemma QueuedPriceJobIsSettled(s: State, box: BoxSnapshot, now: nat, rank: map<BoxId, nat>)
    requires FreshIds(s.priceJobs) && Ranked(s.db.edges, rank)
    ensures var q := QueuePriceUpdate(s, box, None);
      && |q.state.priceQueue| == |s.priceQueue| + 1
      && var msg := q.state.priceQueue[|s.priceQueue|];
      && msg.batchId == q.result.value
      && var h := PriceConsumer.ProcessBatchPriceUpdate(q.state, false, msg, now, rank);
      && h.delivery != Nack(true)
      && h.state.priceJobs.rows[msg.batchId].status in {Completed, Failed}
      && h.state.priceJobs.rows[msg.batchId].payload == box
  {
    var q := QueuePriceUpdate(s, box, None);
    assert q.state.priceQueue[|s.priceQueue|] == Message(PricePattern, s.priceJobs.next, box);
  }

  /** The component pipeline end to end: the consumer finds the job the producer
      queued and settles it; the delivery is requeued only when the price job it
      queues in turn hits a broker timeout or refusal. */
  lemma QueuedComponentJobIsSettled(s: State, payload: ComponentPayload, now: nat, fault: Option<string>)
    requires Valid(s.db) && FreshIds(s.priceJobs) && FreshIds(s.componentJobs)
    ensures var q := QueueComponentUpdate(s, payload, None);
      && |q.state.componentQueue| == |s.componentQueue| + 1
      && var msg := q.state.componentQueue[|s.componentQueue|];
      && msg.batchId == q.result.value
      && var h := ComponentConsumer.ProcessBatchImport(q.state, false, msg, now, fault);
      && (h.delivery == Nack(true) ==> fault.Some? && IsTemporaryError(fault.value))
      && h.state.componentJobs.rows[msg.batchId].status in {Completed, Failed}
      && h.state.componentJobs.rows[msg.batchId].payload == payload
  {
    var q := QueueComponentUpdate(s, payload, None);
    var msg := q.state.componentQueue[|s.componentQueue|];
    assert msg == Message(ComponentPattern, s.componentJobs.next, payload);
    ComponentConsumer.RequeueOnlyWhenBusyOrTransient(q.state, false, msg, now, fault);
  }
}

=== FILE: price_batch.dfy ===
/** The price batch service: `processBox`, the upward repricing of every box above
    a changed box, and `processData`, which runs it and then resyncs the changed
    box's own sales. Un-awaited calls run to completion in program order and their
    rejections are dropped. */
module PriceBatch {
  import opened Wrappers
  import opened Errors
  import opened Store
  import opened AppState
  import opened HistoryCache
  import opened Sales

  /** Saving a recomputed parent: its price becomes the sum over its edges, computed
      from scratch whatever it was before. */
  function Reprice(db: Db, p: BoxId): (r: Db)
    requires p in db.boxes
    ensures SameShape(db, r) && r.transactions == db.transactions
    ensures forall b :: b in db.boxes && b != p ==> r.boxes[b] == db.boxes[b]
    ensures r.boxes[p].price == ComponentsPrice(db, p)
  {
    db.(boxes := db.boxes[p := Box(db.boxes[p].name, ComponentsPrice(db, p))])
  }

  /** What a pricing pass may write: box prices, transaction totals and the removal
      of cache entries. Pieces, edges, links, counters and the job pipeline stay. */
  ghost predicate PricingFrame(s: State, r: State) {
    && SameShape(s.db, r.db)
    && r.priceJobs == s.priceJobs && r.componentJobs == s.componentJobs
    && r.priceQueue == s.priceQueue && r.componentQueue == s.componentQueue
    && r.cache.Keys <= s.cache.Keys
    && (forall k :: k in r.cache ==> r.cache[k] == s.cache[k])
  }

  /** `processBox(legoBox)`: reprice, in edge order, every box that has a box edge
      to `child`, each followed by its own `processBox`. */
  function ProcessBox(s: State, child: BoxId, ghost rank: map<BoxId, nat>): (r: State)
    requires Ranked(s.db.edges, rank)
    ensures PricingFrame(s, r)
    decreases RankOf(rank, child), 1, 0
  {
    RepriceParents(s, child, ParentsOf(s.db.edges, child), 0, rank)
  }

  /** The loop of `processBox` over the remaining parent edges, `last` being
      `lastBoxIdWorkedOn`. A parent equal to `last` is skipped. A missing parent box
      (the TypeError on `box.price`) or a failing resync ends this level's loop; the
      rejection is not awaited by anyone, so only the writes made so far remain. */
  function RepriceParents(s: State, child: BoxId, parents: seq<BoxId>, last: BoxId,
                          ghost rank: map<BoxId, nat>): (r: State)
    requires Ranked(s.db.edges, rank)
    requires forall j :: 0 <= j < |parents| ==> Edge(parents[j], BoxChild(child)) in s.db.edges
    ensures PricingFrame(s, r)
    decreases RankOf(rank, child), 0, |parents|
  {
    if parents == [] then s
    else
      var p := parents[0];
      if p == last then RepriceParents(s, child, parents[1..], last, rank)
      else if p !in s.db.boxes then s
      else
        var d1 := Reprice(s.db, p);
        match Resync(d1, p, d1.boxes[p].price)
        case Failure(_) => s.(db := d1)
        case Success(d2) =>
          ParentRankLower(s.db.edges, rank, p, child);
          var s3 := ProcessBox(Invalidate(s.(db := d2), p), p, rank);
          RepriceParents(s3, child, parents[1..], p, rank)
  }

  /** `processData(legoBox)`: the upward pass, then the box's own sales resynced at
      the price the message carries and its cache entry dropped. A resync error is
      rethrown; the pass's writes stay. */
  function ProcessData(s: State, box: BoxSnapshot, ghost rank: map<BoxId, nat>): (r: Run<()>)
    requires Ranked(s.db.edges, rank)
    ensures PricingFrame(s, r.state)
    ensures r.state.db.boxes == ProcessBox(s, box.id, rank).db.boxes
    ensures r.result.Failure? <==>
      (box.id != 0 && FirstLink(s.db.links, box.id).Some? && FirstLink(s.db.links, box.id).value.tx !in s.db.transactions)
    ensures r.result.Failure? ==> r.result.error == NullAccess("id")
    ensures r.result.Success? ==> Key(box.id) !in r.state.cache
    ensures r.result.Success? && box.id != 0 && FirstLink(s.db.links, box.id).Some? ==>
      var tx := FirstLink(s.db.links, box.id).value.tx;
      r.state.db.transactions[tx].total == box.price * SoldAmount(r.state.db, s.db.links, box.id)
  {
    var p := ProcessBox(s, box.id, rank);
    match Resync(p.db, box.id, box.price)
    case Failure(e) => Run(p, Failure(e))
    case Success(d) =>
      SoldAmountSameKeys(p.db, d, p.db.links, box.id);
      Run(Invalidate(p.(db := d), box.id), Success(()))
  }

  /** Recomputing a parent twice with nothing in between gives the same database as
      recomputing it once: the box does not hold itself, so its own new price does
      not feed into its sum. */
  lemma RepriceIdempotent(db: Db, p: BoxId, rank: map<BoxId, nat>)
    requires p in db.boxes && Ranked(db.edges, rank)
    ensures Reprice(Reprice(db, p), p) == Reprice(db, p)
  {
    RepriceConsistent(db, p, rank);
    var d := Reprice(db, p);
    assert d.boxes[p := Box(d.boxes[p].name, ComponentsPrice(d, p))] == d.boxes;
  }

  /** The recomputed price is the sum over the box's edges in the new database too. */
  lemma RepriceConsistent(db: Db, p: BoxId, rank: map<BoxId, nat>)
    requires p in db.boxes && Ranked(db.edges, rank)
    ensures Consistent(Reprice(db, p), p)
  {
    var d := Reprice(db, p);
    var es := EdgesOf(db.edges, p);
    RankedNoSelfEdge(db.edges, rank, p);
    forall i | 0 <= i < |es| ensures ChildPrice(db, es[i].child) == ChildPrice(d, es[i].child) {
      assert es[i] in db.edges;
    }
    EdgesPriceFrame(db, d, es);
  }

  /** The recompute replaces the price rather than adjusting it: databases that differ
      only in the parent's stored price reprice to the same database. */
  lemma RepriceIgnoresOldPrice(db: Db, p: BoxId, price: Cents, rank: map<BoxId, nat>)
    requires p in db.boxes && Ranked(db.edges, rank)
    ensures Reprice(db.(boxes := db.boxes[p := db.boxes[p].(price := price)]), p) == Reprice(db, p)
  {
    var other := db.(boxes := db.boxes[p := db.boxes[p].(price := price)]);
    var es := EdgesOf(db.edges, p);
    RankedNoSelfEdge(db.edges, rank, p);
    forall i | 0 <= i < |es| ensures ChildPrice(db, es[i].child) == ChildPrice(other, es[i].child) {
      assert es[i] in db.edges;
    }
    EdgesPriceFrame(db, other, es);
    assert other.boxes[p := Box(other.boxes[p].name, ComponentsPrice(other, p))]
        == db.boxes[p := Box(db.boxes[p].name, ComponentsPrice(db, p))];
  }
}

=== FILE: price_consistency.dfy ===
/** What the upward pass achieves: on a valid, acyclic database every box above the
    changed box ends up priced as the sum of its edges, and every other box keeps
    its price and its consistency. */
module PriceConsistency {
  import opened Wrappers
  import opened Store
  import opened AppState
  import opened HistoryCache
  import opened Sales
  import opened PriceBatch

  /** Some parent in the run is `b` or lies below it. */
  ghost predicate Touched(es: seq<Edge>, rank: map<BoxId, nat>, parents: seq<BoxId>, b: BoxId)
    requires Ranked(es, rank)
  {
    exists j :: 0 <= j < |parents| && Above(es, rank, b, parents[j])
  }

  lemma TouchedTail(es: seq<Edge>, rank: map<BoxId, nat>, parents: seq<BoxId>, b: BoxId)
    requires Ranked(es, rank) && parents != []
    ensures Touched(es, rank, parents, b) <==>
      (Above(es, rank, b, parents[0]) || Touched(es, rank, parents[1..], b))
  {
    if Touched(es, rank, parents[1..], b) {
      var j :| 0 <= j < |parents| - 1 && Above(es, rank, b, parents[1..][j]);
      assert Above(es, rank, b, parents[j + 1]);
    }
    if Touched(es, rank, parents, b) && !Above(es, rank, b, parents[0]) {
      var j :| 0 <= j < |parents| && Above(es, rank, b, parents[j]);
      assert parents[1..][j - 1] == parents[j];
    }
  }

  /** Whatever is above a parent of `x` is strictly above `x`. */
  lemma ParentAbove(es: seq<Edge>, rank: map<BoxId, nat>, b: BoxId, p: BoxId, x: BoxId)
    requires Ranked(es, rank) && Edge(p, BoxChild(x)) in es && Above(es, rank, b, p)
    ensures StrictlyAbove(es, rank, b, x)
  {
    var i :| 0 <= i < |es| && es[i] == Edge(p, BoxChild(x));
    assert es[i].child == BoxChild(x) && Above(es, rank, b, es[i].parent);
  }

  /** A box holding something above `x` is strictly above `x`. */
  lemma {:induction false} ChildAbove(es: seq<Edge>, rank: map<BoxId, nat>, b: BoxId, c: BoxId, x: BoxId)
    requires Ranked(es, rank) && Edge(b, BoxChild(c)) in es && Above(es, rank, c, x)
    ensures StrictlyAbove(es, rank, b, x)
    decreases RankOf(rank, x)
  {
    if c == x {
      ParentAbove(es, rank, b, b, x);
    } else {
      var i :| 0 <= i < |es| && es[i].child == BoxChild(x) && Above(es, rank, c, es[i].parent);
      var q := es[i].parent;
      assert es[i] == Edge(q, BoxChild(x));
      ParentRankLower(es, rank, q, x);
      ChildAbove(es, rank, b, c, q);
      ParentAbove(es, rank, b, q, x);
    }
  }

  /** Going up never raises the rank, and going strictly up lowers it. */
  lemma {:induction false} AboveRank(es: seq<Edge>, rank: map<BoxId, nat>, b: BoxId, x: BoxId)
    requires Ranked(es, rank)
    ensures Above(es, rank, b, x) ==> RankOf(rank, b) <= RankOf(rank, x)
    ensures StrictlyAbove(es, rank, b, x) ==> RankOf(rank, b) < RankOf(rank, x)
    decreases RankOf(rank, x)
  {
    if StrictlyAbove(es, rank, b, x) {
      var i :| 0 <= i < |es| && es[i].child == BoxChild(x) && Above(es, rank, b, es[i].parent);
      var q := es[i].parent;
      assert es[i] == Edge(q, BoxChild(x));
      ParentRankLower(es, rank, q, x);
      AboveRank(es, rank, b, q);
    }
  }

  /** No box is strictly above itself. */
  lemma NotAboveItself(es: seq<Edge>, rank: map<BoxId, nat>, x: BoxId)
    requires Ranked(es, rank)
    ensures !StrictlyAbove(es, rank, x, x)
  {
    AboveRank(es, rank, x, x);
  }

  /** The parents `processBox` walks cover exactly the boxes strictly above the child. */
  lemma TouchedParentsOf(es: seq<Edge>, rank: map<BoxId, nat>, x: BoxId, b: BoxId)
    requires Ranked(es, rank)
    ensures Touched(es, rank, ParentsOf(es, x), b) <==> StrictlyAbove(es, rank, b, x)
  {
    var ps := ParentsOf(es, x);
    if Touched(es, rank, ps, b) {
      var j :| 0 <= j < |ps| && Above(es, rank, b, ps[j]);
      ParentAbove(es, rank, b, ps[j], x);
    }
    if StrictlyAbove(es, rank, b, x) {
      var i :| 0 <= i < |es| && es[i].child == BoxChild(x) && Above(es, rank, b, es[i].parent);
      var j :| 0 <= j < |ps| && ps[j] == es[i].parent;
    }
  }

  /** A box whose price and whose box children's prices are unchanged keeps its
      consistency, whatever happened elsewhere. */
  lemma ConsistentFrame(db1: Db, db2: Db, b: BoxId)
    requires db1.edges == db2.edges && db1.pieces == db2.pieces
    requires b in db1.boxes <==> b in db2.boxes
    requires b in db1.boxes ==> db1.boxes[b].price == db2.boxes[b].price
    requires forall c :: Edge(b, BoxChild(c)) in db1.edges ==> ChildPrice(db1, BoxChild(c)) == ChildPrice(db2, BoxChild(c))
    ensures Consistent(db1, b) <==> Consistent(db2, b)
  {
    var es := EdgesOf(db1.edges, b);
    forall i | 0 <= i < |es| ensures ChildPrice(db1, es[i].child) == ChildPrice(db2, es[i].child) {
      if es[i].child.BoxChild? {
        assert es[i] == Edge(b, BoxChild(es[i].child.box));
      }
    }
    EdgesPriceFrame(db1, db2, es);
  }

  /** The pass writes only the prices of boxes strictly above the child. */
  lemma {:induction false} ProcessBoxPrices(s: State, x: BoxId, rank: map<BoxId, nat>)
    requires Ranked(s.db.edges, rank)
    ensures forall b :: b in s.db.boxes && !StrictlyAbove(s.db.edges, rank, b, x) ==>
      ProcessBox(s, x, rank).db.boxes[b] == s.db.boxes[b]
    decreases RankOf(rank, x), 1, 0
  {
    var ps := ParentsOf(s.db.edges, x);
    RepriceParentsPrices(s, x, ps, 0, rank);
    forall b | b in s.db.boxes && !StrictlyAbove(s.db.edges, rank, b, x)
      ensures !Touched(s.db.edges, rank, ps, b)
    {
      TouchedParentsOf(s.db.edges, rank, x, b);
    }
  }

  /** One level of the pass writes only the prices of boxes at or above the parents it walks. */
  lemma {:induction false} RepriceParentsPrices(s: State, child: BoxId, parents: seq<BoxId>, last: BoxId,
                                                rank: map<BoxId, nat>)
    requires Ranked(s.db.edges, rank)
    requires forall j :: 0 <= j < |parents| ==> Edge(parents[j], BoxChild(child)) in s.db.edges
    ensures forall b :: b in s.db.boxes && !Touched(s.db.edges, rank, parents, b) ==>
      RepriceParents(s, child, parents, last, rank).db.boxes[b] == s.db.boxes[b]
    decreases RankOf(rank, child), 0, |parents|
  {
    if parents != [] {
      var es := s.db.edges;
      var p := parents[0];
      forall b ensures Touched(es, rank, parents, b) <==> (Above(es, rank, b, p) || Touched(es, rank, parents[1..], b)) {
        TouchedTail(es, rank, parents, b);
      }
      if p == last {
        RepriceParentsPrices(s, child, parents[1..], last, rank);
      } else if p in s.db.boxes {
        var d1 := Reprice(s.db, p);
        if Resync(d1, p, d1.boxes[p].price).Success? {
          var d2 := Resync(d1, p, d1.boxes[p].price).value;
          ParentRankLower(es, rank, p, child);
          var sI := Invalidate(s.(db := d2), p);
          var s3 := ProcessBox(sI, p, rank);
          ProcessBoxPrices(sI, p, rank);
          RepriceParentsPrices(s3, child, parents[1..], p, rank);
        }
      }
    }
  }

  /** On a valid database the pass leaves every box strictly above the child priced
      as the sum of its edges, and every other box exactly as consistent as it was. */
  lemma {:induction false} ProcessBoxConsistent(s: State, x: BoxId, rank: map<BoxId, nat>)
    requires Valid(s.db) && Ranked(s.db.edges, rank)
    ensures var r := ProcessBox(s, x, rank);
      forall b :: b in s.db.boxes && StrictlyAbove(s.db.edges, rank, b, x) ==> Consistent(r.db, b)
    ensures var r := ProcessBox(s, x, rank);
      forall b :: b in s.db.boxes && !StrictlyAbove(s.db.edges, rank, b, x) ==>
        (Consistent(r.db, b) <==> Consistent(s.db, b))
    decreases RankOf(rank, x), 1, 0, 0
  {
    var ps := ParentsOf(s.db.edges, x);
    RepriceParentsConsistent(s, x, ps, 0, rank);
    forall b ensures Touched(s.db.edges, rank, ps, b) <==> StrictlyAbove(s.db.edges, rank, b, x) {
      TouchedParentsOf(s.db.edges, rank, x, b);
    }
  }

  /** One level of the pass: every box at or above a walked parent ends consistent,
      and the others keep their consistency. `last`, when set, is a parent whose
      whole upward cone is already consistent. */
  lemma {:induction false} RepriceParentsConsistent(s: State, child: BoxId, parents: seq<BoxId>, last: BoxId,
                                                    rank: map<BoxId, nat>)
    requires Valid(s.db) && Ranked(s.db.edges, rank)
    requires forall j :: 0 <= j < |parents| ==> Edge(parents[j], BoxChild(child)) in s.db.edges
    requires last != 0 ==>
      forall b :: b in s.db.boxes && Above(s.db.edges, rank, b, last) ==> Consistent(s.db, b)
    ensures var r := RepriceParents(s, child, parents, last, rank);
      forall b :: b in s.db.boxes && Touched(s.db.edges, rank, parents, b) ==> Consistent(r.db, b)
    ensures var r := RepriceParents(s, child, parents, last, rank);
      forall b :: b in s.db.boxes && !Touched(s.db.edges, rank, parents, b) ==>
        (Consistent(r.db, b) <==> Consistent(s.db, b))
    decreases RankOf(rank, child), 0, |parents|, 1
  {
    if parents != [] {
      var es := s.db.edges;
      var p := parents[0];
      var i :| 0 <= i < |es| && es[i] == Edge(p, BoxChild(child));
      assert EdgeResolves(s.db, es[i]);
      forall b ensures Touched(es, rank, parents, b) <==> (Above(es, rank, b, p) || Touched(es, rank, parents[1..], b)) {
        TouchedTail(es, rank, parents, b);
      }
      if p == last {
        RepriceParentsConsistent(s, child, parents[1..], last, rank);
      } else {
        RepriceStep(s, child, parents, last, rank);
      }
    }
  }

  /** The step of `RepriceParentsConsistent` that reprices the first parent. */
  lemma {:induction false} RepriceStep(s: State, child: BoxId, parents: seq<BoxId>, last: BoxId,
                                       rank: map<BoxId, nat>)
    requires Valid(s.db) && Ranked(s.db.edges, rank)
    requires forall j :: 0 <= j < |parents| ==> Edge(parents[j], BoxChild(child)) in s.db.edges
    requires parents != [] && parents[0] != last && parents[0] in s.db.boxes
    ensures var r := RepriceParents(s, child, parents, last, rank);
      forall b :: b in s.db.boxes && Touched(s.db.edges, rank, parents, b) ==> Consistent(r.db, b)
    ensures var r := RepriceParents(s, child, parents, last, rank);
      forall b :: b in s.db.boxes && !Touched(s.db.edges, rank, parents, b) ==>
        (Consistent(r.db, b) <==> Consistent(s.db, b))
    decreases RankOf(rank, child), 0, |parents|, 0
  {
    var es := s.db.edges;
    var p := parents[0];
    ParentRankLower(es, rank, p, child);
    FirstParentPass(s, p, rank);
    var d1 := Reprice(s.db, p);
    var d2 := Resync(d1, p, d1.boxes[p].price).value;
    var s3 := ProcessBox(Invalidate(s.(db := d2), p), p, rank);
    assert s3.db.edges == es && s3.db.boxes.Keys == s.db.boxes.Keys;
    assert p != 0;
    var rest := parents[1..];
    forall j | 0 <= j < |rest| ensures Edge(rest[j], BoxChild(child)) in s3.db.edges {
      assert rest[j] == parents[j + 1];
    }
    assert forall b :: b in s3.db.boxes && Above(s3.db.edges, rank, b, p) ==> Consistent(s3.db, b);
    RepriceParentsConsistent(s3, child, rest, p, rank);
    var r := RepriceParents(s3, child, rest, p, rank);
    assert RepriceParents(s, child, parents, last, rank) == r;
    CombineLevels(es, rank, parents, s.db.boxes.Keys, s.db, s3.db, r.db);
  }

  /** Gluing the first parent's cone to the rest of the level: a box touched by the
      level is above the first parent or touched by the rest. */
  lemma CombineLevels(es: seq<Edge>, rank: map<BoxId, nat>, parents: seq<BoxId>, boxes: set<BoxId>,
                      db0: Db, db3: Db, dbr: Db)
    requires Ranked(es, rank) && parents != []
    requires forall b :: b in boxes && Above(es, rank, b, parents[0]) ==> Consistent(db3, b)
    requires forall b :: b in boxes && !Above(es, rank, b, parents[0]) ==>
      (Consistent(db3, b) <==> Consistent(db0, b))
    requires forall b :: b in boxes && Touched(es, rank, parents[1..], b) ==> Consistent(dbr, b)
    requires forall b :: b in boxes && !Touched(es, rank, parents[1..], b) ==>
      (Consistent(dbr, b) <==> Consistent(db3, b))
    ensures forall b :: b in boxes && Touched(es, rank, parents, b) ==> Consistent(dbr, b)
    ensures forall b :: b in boxes && !Touched(es, rank, parents, b) ==>
      (Consistent(dbr, b) <==> Consistent(db0, b))
  {
    forall b | b in boxes
      ensures Touched(es, rank, parents, b) <==> (Above(es, rank, b, parents[0]) || Touched(es, rank, parents[1..], b))
    {
      TouchedTail(es, rank, parents, b);
    }
  }

  /** Repricing one parent and running its own pass: the parent's whole upward cone is
      then consistent, and a box outside it holds neither the parent nor anything the
      pass repriced, so it keeps its consistency. */
  lemma {:induction false} FirstParentPass(s: State, p: BoxId, rank: map<BoxId, nat>)
    requires Valid(s.db) && Ranked(s.db.edges, rank) && p in s.db.boxes
    ensures Resync(Reprice(s.db, p), p, ComponentsPrice(s.db, p)).Success?
    ensures var d2 := Resync(Reprice(s.db, p), p, ComponentsPrice(s.db, p)).value;
      var s3 := ProcessBox(Invalidate(s.(db := d2), p), p, rank);
      && Valid(s3.db) && SameShape(s.db, s3.db)
      && (forall b :: b in s.db.boxes && Above(s.db.edges, rank, b, p) ==> Consistent(s3.db, b))
      && (forall b :: b in s.db.boxes && !Above(s.db.edges, rank, b, p) ==>
            (Consistent(s3.db, b) <==> Consistent(s.db, b)))
    decreases RankOf(rank, p), 2, 0, 0
  {
    var es := s.db.edges;
    RepricedParent(s.db, p, rank);
    var d2 := Resync(Reprice(s.db, p), p, ComponentsPrice(s.db, p)).value;
    var sI := Invalidate(s.(db := d2), p);
    assert sI.db == d2;
    var s3 := ProcessBox(sI, p, rank);
    ProcessBoxConsistent(sI, p, rank);
    SameShapeKeepsValid(d2, s3.db);
    NotAboveItself(es, rank, p);
    forall b | b in s.db.boxes
      ensures Above(es, rank, b, p) ==> Consistent(s3.db, b)
      ensures !Above(es, rank, b, p) ==> (Consistent(s3.db, b) <==> Consistent(s.db, b))
    {
      AboveCases(es, rank, b, p);
    }
  }

  /** Being above `x` is being `x` or strictly above it. */
  lemma AboveCases(es: seq<Edge>, rank: map<BoxId, nat>, b: BoxId, x: BoxId)
    requires Ranked(es, rank)
    ensures Above(es, rank, b, x) <==> b == x || StrictlyAbove(es, rank, b, x)
  {
  }

  /** Repricing one parent and resyncing its sales: the parent becomes consistent,
      and a box not above it keeps its consistency, since none of its children
      changed price. */
  lemma RepricedParent(db: Db, p: BoxId, rank: map<BoxId, nat>)
    requires Valid(db) && Ranked(db.edges, rank) && p in db.boxes
    ensures Resync(Reprice(db, p), p, ComponentsPrice(db, p)).Success?
    ensures var d2 := Resync(Reprice(db, p), p, ComponentsPrice(db, p)).value;
      && Valid(d2) && SameShape(db, d2) && Consistent(d2, p)
      && (forall b :: b in db.boxes && !Above(db.edges, rank, b, p) ==>
            (Consistent(d2, b) <==> Consistent(db, b)))
  {
    var es := db.edges;
    var d1 := Reprice(db, p);
    SameShapeKeepsValid(db, d1);
    ResyncSucceeds(d1, p, d1.boxes[p].price);
    var d2 := Resync(d1, p, d1.boxes[p].price).value;
    SameShapeKeepsValid(db, d2);
    RepriceConsistent(db, p, rank);
    ConsistentFrame(d1, d2, p);
    OnlyCone(db, d2, p, rank);
  }

  /** A database that differs from `db` only in the price of `p` keeps the
      consistency of every box not above `p`. */
  lemma OnlyCone(db: Db, d: Db, p: BoxId, rank: map<BoxId, nat>)
    requires Ranked(db.edges, rank)
    requires d.pieces == db.pieces && d.edges == db.edges && d.boxes.Keys == db.boxes.Keys
    requires forall b :: b in db.boxes && b != p ==> d.boxes[b] == db.boxes[b]
    ensures forall b :: b in db.boxes && !Above(db.edges, rank, b, p) ==> (Consistent(d, b) <==> Consistent(db, b))
  {
    var es := db.edges;
    forall b | b in db.boxes && !Above(es, rank, b, p)
      ensures Consistent(d, b) <==> Consistent(db, b)
    {
      forall c | Edge(b, BoxChild(c)) in es ensures ChildPrice(db, BoxChild(c)) == ChildPrice(d, BoxChild(c)) {
        ParentAbove(es, rank, b, b, c);
      }
      ConsistentFrame(db, d, b);
    }
  }
}

=== FILE: price_consumer.dfy ===
/** `BatchLegoBoxPriceUpdateConsumer.processBatchPriceUpdate`: the price-update
    job's state machine around the price batch's `processData`. Unlike the
    component consumer, its busy check sits inside the `try`, so the `finally`
    clears the gate even on the early requeue, and errors are rethrown. */
module PriceConsumer {
  import opened Wrappers
  import opened Errors
  import opened Store
  import opened Jobs
  import opened AppState
  import PriceBatch
  import ComponentConsumer

  /** The `processing` update: only the status column changes. */
  function MarkProcessing(s: State, id: BatchId): (r: State)
    requires id in s.priceJobs.rows
    ensures r.db == s.db && r.cache == s.cache && r.priceJobs.rows.Keys == s.priceJobs.rows.Keys
    ensures r.priceJobs.rows[id] == s.priceJobs.rows[id].(status := Processing)
  {
    s.(priceJobs := SetRow(s.priceJobs, id, s.priceJobs.rows[id].(status := Processing)))
  }

  /** The handler for one delivery of `msg`; `busy` is the gate on entry and `now`
      the clock.
      - A busy handler nacks with requeue; the gate is cleared on the way out.
      - A missing job throws; the `failed` update finds no row, the delivery is
        nacked without requeue and the error rethrown.
      - A job that is not pending is acked and skipped.
      - Otherwise the job goes to `processing` and the upward pass runs: on success
        the row becomes `completed` with `completedAt` stamped and the delivery is
        acked; on failure only the status becomes `failed` (no error text, no
        timestamp), the pass's writes stay, and the error is rethrown.
      A delivery is requeued exactly when the gate was busy: no error the pass or
      the handler raises names a connection failure. */
  function ProcessBatchPriceUpdate(s: State, busy: bool, msg: Message<BoxSnapshot>, now: nat,
                                   ghost rank: map<BoxId, nat>): (r: Handled)
    requires Ranked(s.db.edges, rank)
    ensures !r.busy
    ensures r.delivery == Nack(true) <==> busy
    ensures busy ==> r == Handled(s, false, Nack(true), None)
    ensures !busy && msg.batchId !in s.priceJobs.rows ==>
      r == Handled(s, false, Nack(false), Some(JobNotFound(msg.batchId)))
    ensures !busy && msg.batchId in s.priceJobs.rows && s.priceJobs.rows[msg.batchId].status != Pending ==>
      r == Handled(s, false, Ack, None)
    ensures SameShape(s.db, r.state.db)
    ensures r.state.componentJobs == s.componentJobs
    ensures r.state.priceQueue == s.priceQueue && r.state.componentQueue == s.componentQueue
    ensures r.state.priceJobs.rows.Keys == s.priceJobs.rows.Keys && r.state.priceJobs.next == s.priceJobs.next
    ensures forall id :: id in s.priceJobs.rows && id != msg.batchId ==>
      r.state.priceJobs.rows[id] == s.priceJobs.rows[id]
    ensures !busy && msg.batchId in s.priceJobs.rows && s.priceJobs.rows[msg.batchId].status == Pending ==>
      var before := s.priceJobs.rows[msg.batchId];
      var after := r.state.priceJobs.rows[msg.batchId];
      var p := PriceBatch.ProcessData(MarkProcessing(s, msg.batchId), msg.data, rank);
      && after.payload == before.payload && after.error == before.error
      && r.state.db == p.state.db && r.state.cache == p.state.cache
      && (p.result.Success? ==>
            after.status == Completed && after.completedAt == Some(now) && r.delivery == Ack && r.rethrown.None?)
      && (p.result.Failure? ==>
            after.status == Failed && after.completedAt == before.completedAt
            && r.rethrown == Some(p.result.error))
  {
    if busy then Handled(s, false, Nack(true), None)
    else
      var id := msg.batchId;
      if id !in s.priceJobs.rows then
        var e := JobNotFound(id);
        CoreErrorsArePermanent(e);
        Handled(s, false, Nack(IsTemporaryError(e.Message())), Some(e))
      else if s.priceJobs.rows[id].status != Pending then Handled(s, false, Ack, None)
      else
        var s1 := MarkProcessing(s, id);
        var p := PriceBatch.ProcessData(s1, msg.data, rank);
        var row := p.state.priceJobs.rows[id];
        match p.result
        case Success(_) =>
          var done := row.(status := Completed, completedAt := Some(now));
          Handled(p.state.(priceJobs := SetRow(p.state.priceJobs, id, done)), false, Ack, None)
        case Failure(e) =>
          CoreErrorsArePermanent(e);
          var failed := SetRow(p.state.priceJobs, id, row.(status := Failed));
          Handled(p.state.(priceJobs := failed), false, Nack(IsTemporaryError(e.Message())), Some(e))
  }

  /** Each price job is worked at most once: a job the handler has seen is no
      longer pending, so a redelivery of its message is acked and skipped. */
  lemma PriceRedeliveryIsSkipped(s: State, msg: Message<BoxSnapshot>, now: nat, later: nat,
                                 rank: map<BoxId, nat>)
    requires Ranked(s.db.edges, rank) && msg.batchId in s.priceJobs.rows
    ensures var r := ProcessBatchPriceUpdate(s, false, msg, now, rank);
      && Ranked(r.state.db.edges, rank)
      && ProcessBatchPriceUpdate(r.state, false, msg, later, rank) == Handled(r.state, false, Ack, None)
  {
  }

  /** The two consumers disagree on a busy delivery: the component consumer returns
      before its `try` and stays busy, so the next delivery seen while the first is
      still in flight is requeued too; the price consumer's `finally` clears the
      gate although the first delivery is still being worked, so the next delivery
      is let through. */
  lemma BusyGatesDiffer(s: State, cm: Message<ComponentPayload>, pm: Message<BoxSnapshot>, now: nat,
                        fault: Option<string>, rank: map<BoxId, nat>)
    requires Valid(s.db) && FreshIds(s.priceJobs) && Ranked(s.db.edges, rank)
    ensures var c := ComponentConsumer.ProcessBatchImport(s, true, cm, now, fault);
      c.busy && ComponentConsumer.ProcessBatchImport(c.state, c.busy, cm, now, fault).delivery == Nack(true)
    ensures var p := ProcessBatchPriceUpdate(s, true, pm, now, rank);
      !p.busy && (pm.batchId in s.priceJobs.rows ==>
                    ProcessBatchPriceUpdate(p.state, p.busy, pm, now, rank).delivery != Nack(true))
  {
  }
}

=== FILE: producers.dfy ===
/** The two producers, `BatchLegoBoxPriceUpdateProducer` and
    `BatchComponentUpdateProducer`, over the whole state. */
module Producers {
  import opened Wrappers
  import opened Errors
  import opened Store
  import opened Jobs
  import opened AppState

  /** Price producer `queueBatchImport(legoBox)`: a `pending` row holding the box,
      then the `batch_lego_box_price_update` event; the batch id is returned, or the
      row is marked `failed` and the broker's error rethrown. */
  function QueuePriceUpdate(s: State, box: BoxSnapshot, fault: Option<string>): (r: Run<BatchId>)
    requires FreshIds(s.priceJobs)
    ensures r.state == s.(priceJobs := r.state.priceJobs, priceQueue := r.state.priceQueue)
    ensures FreshIds(r.state.priceJobs) && r.state.priceJobs.next == s.priceJobs.next + 1
    ensures r.state.priceJobs.rows.Keys == s.priceJobs.rows.Keys + {s.priceJobs.next}
    ensures forall id :: id in s.priceJobs.rows ==> r.state.priceJobs.rows[id] == s.priceJobs.rows[id]
    ensures fault.None? ==>
      && r.result == Success(s.priceJobs.next)
      && r.state.priceJobs.rows[s.priceJobs.next] == Job(box, Pending, None, None)
      && r.state.priceQueue == s.priceQueue + [Message(PricePattern, s.priceJobs.next, box)]
    ensures fault.Some? ==>
      && r.result == Failure(Infrastructure(fault.value))
      && r.state.priceJobs.rows[s.priceJobs.next] == Job(box, Failed, fault, None)
      && r.state.priceQueue == s.priceQueue
  {
    var p := Produce(s.priceJobs, s.priceQueue, PricePattern, box, fault);
    Run(s.(priceJobs := p.log, priceQueue := p.outbox), p.result)
  }

  /** Component producer `queueBatchImport(box)`: the same log-then-emit protocol on
      the component-update log and the `batch_lego_box_component_update` event. */
  function QueueComponentUpdate(s: State, payload: ComponentPayload, fault: Option<string>): (r: Run<BatchId>)
    requires FreshIds(s.componentJobs)
    ensures r.state == s.(componentJobs := r.state.componentJobs, componentQueue := r.state.componentQueue)
    ensures FreshIds(r.state.componentJobs) && r.state.componentJobs.next == s.componentJobs.next + 1
    ensures r.state.componentJobs.rows.Keys == s.componentJobs.rows.Keys + {s.componentJobs.next}
    ensures forall id :: id in s.componentJobs.rows ==> r.state.componentJobs.rows[id] == s.componentJobs.rows[id]
    ensures fault.None? ==>
      && r.result == Success(s.componentJobs.next)
      && r.state.componentJobs.rows[s.componentJobs.next] == Job(payload, Pending, None, None)
      && r.state.componentQueue == s.componentQueue + [Message(ComponentPattern, s.componentJobs.next, payload)]
    ensures fault.Some? ==>
      && r.result == Failure(Infrastructure(fault.value))
      && r.state.componentJobs.rows[s.componentJobs.next] == Job(payload, Failed, fault, None)
      && r.state.componentQueue == s.componentQueue
  {
    var p := Produce(s.componentJobs, s.componentQueue, ComponentPattern, payload, fault);
    Run(s.(componentJobs := p.log, componentQueue := p.outbox), p.result)
  }

  /** The price producer's `getBatchStatus`: a read of the price-job log, with no
      effect on the state. */
  function GetBatchStatus(s: State, id: BatchId): (r: Option<Job<BoxSnapshot>>)
    ensures r.Some? <==> id in s.priceJobs.rows
    ensures r.Some? ==> r.value == s.priceJobs.rows[id]
  {
    Jobs.GetBatchStatus(s.priceJobs, id)
  }
}

=== FILE: sales.dfy ===
/** The two ways the core maintains a box's sales total: the additive update of a
    sale (`createTransactionBox` and the component batch's `updateTransaction`) and
    the replacing resync after a price change (the price batch's `updateTransaction`). */
module Sales {
  import opened Wrappers
  import opened Errors
  import opened Store

  ghost predicate TxFresh(db: Db) {
    forall t :: t in db.transactions ==> t < db.nextTx
  }

  /** `findOne(TransactionBox, { where: { lego_box_id } })`: the box's first link. */
  function FirstLink(links: seq<Link>, box: BoxId): (r: Option<Link>)
    ensures r.None? <==> forall i :: 0 <= i < |links| ==> links[i].box != box
    ensures r.Some? ==> r.value in links && r.value.box == box
    decreases |links|
  {
    if links == [] then None
    else if links[0].box == box then Some(links[0])
    else
      assert forall i :: 1 <= i < |links| ==> links[i] == links[1..][i - 1];
      FirstLink(links[1..], box)
  }

  /** Appending a link keeps an existing first link, or makes the new link the first. */
  lemma {:induction false} FirstLinkAppend(links: seq<Link>, l: Link, box: BoxId)
    ensures FirstLink(links + [l], box) ==
      (if FirstLink(links, box).Some? then FirstLink(links, box)
       else if l.box == box then Some(l) else None)
    decreases |links|
  {
    if links != [] {
      assert (links + [l])[1..] == links[1..] + [l];
      FirstLinkAppend(links[1..], l, box);
    }
  }

  /** The units of `box` sold under links whose transaction row exists. */
  function SoldAmount(db: Db, links: seq<Link>, box: BoxId): nat
    decreases |links|
  {
    if links == [] then 0
    else (if links[0].box == box && links[0].tx in db.transactions then links[0].amount else 0)
         + SoldAmount(db, links[1..], box)
  }

  lemma {:induction false} SoldAmountAppend(db: Db, links: seq<Link>, l: Link, box: BoxId)
    ensures SoldAmount(db, links + [l], box) ==
      SoldAmount(db, links, box) + (if l.box == box && l.tx in db.transactions then l.amount else 0)
    decreases |links|
  {
    if links != [] {
      assert (links + [l])[1..] == links[1..] + [l];
      SoldAmountAppend(db, links[1..], l, box);
    }
  }

  lemma {:induction false} SoldAmountSameKeys(db1: Db, db2: Db, links: seq<Link>, box: BoxId)
    requires db1.transactions.Keys == db2.transactions.Keys
    ensures SoldAmount(db1, links, box) == SoldAmount(db2, links, box)
    decreases |links|
  {
    if links != [] {
      SoldAmountSameKeys(db1, db2, links[1..], box);
    }
  }

  /** The sales invariant for one box: its first link's transaction
      holds the box's price times every unit sold under it. */
  ghost predicate SalesConsistent(db: Db, box: BoxId)
    requires box in db.boxes
  {
    match FirstLink(db.links, box)
    case None => true
    case Some(l) =>
      && l.tx in db.transactions
      && db.transactions[l.tx].total == db.boxes[box].price * SoldAmount(db, db.links, box)
  }

  /** A sale of `amount` units at `price`: with no link yet, a new transaction worth
      `price * amount` and its link; otherwise the first link's transaction grows by
      `price * amount` and a new link under the same transaction is appended. A link
      whose transaction is gone fails with 'Transaction not found'. */
  function RecordSale(db: Db, box: BoxId, price: Cents, amount: nat): (r: Result<(Db, TxId), Error>)
    requires TxFresh(db)
    ensures r.Success? ==>
      && r.value.0.pieces == db.pieces && r.value.0.boxes == db.boxes && r.value.0.edges == db.edges
      && r.value.0.nextBox == db.nextBox && TxFresh(r.value.0)
      && r.value.0.links == db.links + [Link(box, r.value.1, amount)]
      && r.value.0.transactions.Keys == db.transactions.Keys + {r.value.1}
      && forall t :: t in db.transactions && t != r.value.1 ==> r.value.0.transactions[t] == db.transactions[t]
    ensures FirstLink(db.links, box).None? ==>
      && r.Success? && r.value.1 == db.nextTx && r.value.1 !in db.transactions
      && r.value.0.transactions[r.value.1] == Transaction(price * amount)
    ensures FirstLink(db.links, box).Some? ==>
      var tx := FirstLink(db.links, box).value.tx;
      if tx !in db.transactions then r == Failure(TransactionNotFound)
      else (r.Success? && r.value.1 == tx
            && r.value.0.transactions[tx].total == db.transactions[tx].total + price * amount)
  {
    match FirstLink(db.links, box)
    case None =>
      var id := db.nextTx;
      Success((db.(transactions := db.transactions[id := Transaction(price * amount)],
                   links := db.links + [Link(box, id, amount)],
                   nextTx := id + 1), id))
    case Some(link) =>
      if link.tx !in db.transactions then Failure(TransactionNotFound)
      else
        var old_total := db.transactions[link.tx].total;
        Success((db.(transactions := db.transactions[link.tx := Transaction(price * amount + old_total)],
                     links := db.links + [Link(box, link.tx, amount)]), link.tx))
  }

  /** A sale at the box's current price keeps its sales total consistent. */
  lemma {:induction false} SaleKeepsSalesConsistent(db: Db, box: BoxId, amount: nat)
    requires TxFresh(db) && box in db.boxes && SalesConsistent(db, box)
    requires RecordSale(db, box, db.boxes[box].price, amount).Success?
    ensures var d := RecordSale(db, box, db.boxes[box].price, amount).value.0;
      box in d.boxes && SalesConsistent(d, box)
  {
    var price := db.boxes[box].price;
    var r := RecordSale(db, box, price, amount);
    var d, tx := r.value.0, r.value.1;
    var l := Link(box, tx, amount);
    FirstLinkAppend(db.links, l, box);
    SoldAmountAppend(d, db.links, l, box);
    assert d.links == db.links + [l];
    if FirstLink(db.links, box).None? {
      NoLinkNoSales(d, db.links, box);
      assert SoldAmount(d, d.links, box) == amount;
    } else {
      assert d.transactions.Keys == db.transactions.Keys;
      SoldAmountSameKeys(db, d, db.links, box);
      var sold := SoldAmount(db, db.links, box);
      assert SoldAmount(d, d.links, box) == sold + amount;
      assert price * (sold + amount) == price * sold + price * amount;
    }
  }

  lemma {:induction false} NoLinkNoSales(db: Db, links: seq<Link>, box: BoxId)
    requires forall i :: 0 <= i < |links| ==> links[i].box != box
    ensures SoldAmount(db, links, box) == 0
    decreases |links|
  {
    if links != [] {
      NoLinkNoSales(db, links[1..], box);
    }
  }

  /** `transactionTotalPrice`: the sum of `amount * price` over the box's links
      that have a transaction. */
  function ResyncTotal(db: Db, links: seq<Link>, box: BoxId, price: Cents): (r: Cents)
    ensures r == price * SoldAmount(db, links, box)
    decreases |links|
  {
    if links == [] then 0
    else
      (if links[0].box == box && links[0].tx in db.transactions then links[0].amount * price else 0)
      + ResyncTotal(db, links[1..], box, price)
  }

  /** The price batch's `updateTransaction(boxId, price)`: nothing for a falsy id
      or a box without links; otherwise the first link's transaction total is
      overwritten with the recomputed sum. Reading the id of a missing first
      transaction throws a TypeError. */
  function Resync(db: Db, box: BoxId, price: Cents): (r: Result<Db, Error>)
    ensures r.Success? ==>
      && r.value.pieces == db.pieces && r.value.boxes == db.boxes && r.value.edges == db.edges
      && r.value.links == db.links && r.value.nextBox == db.nextBox && r.value.nextTx == db.nextTx
      && r.value.transactions.Keys == db.transactions.Keys
    ensures box == 0 || FirstLink(db.links, box).None? ==> r == Success(db)
    ensures box != 0 && FirstLink(db.links, box).Some? ==>
      var tx := FirstLink(db.links, box).value.tx;
      if tx !in db.transactions then r == Failure(NullAccess("id"))
      else (r.Success? && r.value.transactions == db.transactions[tx := Transaction(price * SoldAmount(db, db.links, box))])
  {
    if box == 0 then Success(db)
    else match FirstLink(db.links, box)
      case None => Success(db)
      case Some(first) =>
        var total := ResyncTotal(db, db.links, box, price);
        if first.tx !in db.transactions then Failure(NullAccess("id"))
        else Success(db.(transactions := db.transactions[first.tx := Transaction(total)]))
  }

  /** Resyncing at the box's price establishes the sales invariant, whatever the old total was. */
  lemma ResyncEstablishesSalesConsistent(db: Db, box: BoxId)
    requires box in db.boxes && box != 0
    requires Resync(db, box, db.boxes[box].price).Success?
    ensures var d := Resync(db, box, db.boxes[box].price).value;
      box in d.boxes && SalesConsistent(d, box)
  {
    var d := Resync(db, box, db.boxes[box].price).value;
    SoldAmountSameKeys(db, d, db.links, box);
  }

  /** The resync replaces the total rather than adding to it: two databases that
      differ only in transaction totals resync the first transaction to the same total. */
  lemma {:induction false} ResyncReplaces(db: Db, totals: map<TxId, Transaction>, box: BoxId, price: Cents)
    requires totals.Keys == db.transactions.Keys
    requires box != 0 && FirstLink(db.links, box).Some?
    requires Resync(db, box, price).Success?
    ensures var other := db.(transactions := totals);
      var tx := FirstLink(db.links, box).value.tx;
      && Resync(other, box, price).Success?
      && Resync(other, box, price).value.transactions[tx] == Resync(db, box, price).value.transactions[tx]
  {
    SoldAmountSameKeys(db, db.(transactions := totals), db.links, box);
  }

  /** Resyncing twice is the same as resyncing once. */
  lemma ResyncIdempotent(db: Db, box: BoxId, price: Cents)
    requires Resync(db, box, price).Success?
    ensures Resync(Resync(db, box, price).value, box, price) == Resync(db, box, price)
  {
    var d := Resync(db, box, price).value;
    SoldAmountSameKeys(db, d, db.links, box);
    if box != 0 && FirstLink(db.links, box).Some? {
      var tx := FirstLink(db.links, box).value.tx;
      var t := Transaction(price * SoldAmount(db, db.links, box));
      assert d.transactions[tx := t] == d.transactions;
    }
  }

  /** A recorded sale keeps the schema's guarantees: the new link resolves to its box and transaction. */
  lemma RecordSaleKeepsValid(db: Db, box: BoxId, price: Cents, amount: nat)
    requires Valid(db) && box in db.boxes
    requires RecordSale(db, box, price, amount).Success?
    ensures Valid(RecordSale(db, box, price, amount).value.0)
  {
    var d := RecordSale(db, box, price, amount).value.0;
    assert forall i :: 0 <= i < |db.links| ==> d.links[i] == db.links[i];
  }

  /** In a valid database every link has its transaction, so the resync cannot fail. */
  lemma ResyncSucceeds(db: Db, box: BoxId, price: Cents)
    requires Valid(db)
    ensures Resync(db, box, price).Success?
  {
    if box != 0 && FirstLink(db.links, box).Some? {
      var l := FirstLink(db.links, box).value;
      var i :| 0 <= i < |db.links| && db.links[i] == l;
      assert LinkResolves(db, db.links[i]);
    }
  }
}

=== FILE: store.dfy ===
/** The relational tables the core reads and writes inside its transactions:
    pieces, boxes, component edges, transactions and transaction-box links, with
    the structural queries over them. */
module Store {
  import opened Wrappers

  type BoxId = nat
  type PieceId = nat
  type TxId = nat
  /** Money in integer cents: `decimal(10, 2)` columns and `toFixed(2)` are exact here. */
  type Cents = nat

  datatype Piece = Piece(name: string, price: Cents)
  datatype Box = Box(name: string, price: Cents)

  /** What an edge points at: exactly one of the piece and the box foreign keys. */
  datatype Child = PieceChild(piece: PieceId) | BoxChild(box: BoxId)

  /** A `lego_box_components` row: `parent` directly holds one unit of `child`. */
  datatype Edge = Edge(parent: BoxId, child: Child)

  datatype Transaction = Transaction(total: Cents)

  /** A `transaction_boxes` row: `amount` units of `box` sold under `tx`. */
  datatype Link = Link(box: BoxId, tx: TxId, amount: nat)

  /** The database. Edges and links are kept in insertion order, which is the
      order the queries return them in; `nextBox` and `nextTx` are the serial counters. */
  datatype Db = Db(pieces: map<PieceId, Piece>, boxes: map<BoxId, Box>, edges: seq<Edge>,
                   transactions: map<TxId, Transaction>, links: seq<Link>,
                   nextBox: BoxId, nextTx: TxId)

  /** A box as loaded by `findOne`, the shape handed to producers and cached reads. */
  datatype BoxSnapshot = BoxSnapshot(id: BoxId, name: string, price: Cents)

  /** What the schema guarantees: serial ids start at 1 and stay below their
      counters, box names are unique, and every foreign key resolves. */
  ghost predicate Valid(db: Db) {
    && db.nextBox >= 1 && db.nextTx >= 1
    && (forall b :: b in db.boxes ==> 1 <= b < db.nextBox)
    && (forall t :: t in db.transactions ==> 1 <= t < db.nextTx)
    && UniqueNames(db)
    && (forall i :: 0 <= i < |db.edges| ==> EdgeResolves(db, db.edges[i]))
    && (forall i :: 0 <= i < |db.links| ==> LinkResolves(db, db.links[i]))
  }

  ghost predicate UniqueNames(db: Db) {
    forall a, b :: a in db.boxes && b in db.boxes && db.boxes[a].name == db.boxes[b].name ==> a == b
  }

  predicate EdgeResolves(db: Db, e: Edge) {
    && e.parent in db.boxes
    && match e.child
       case PieceChild(p) => p in db.pieces
       case BoxChild(b) => b in db.boxes
  }

  predicate LinkResolves(db: Db, l: Link) {
    l.box in db.boxes && l.tx in db.transactions
  }

  function Snapshot(db: Db, id: BoxId): (r: BoxSnapshot)
    requires id in db.boxes
    ensures r.id == id && r.name == db.boxes[id].name && r.price == db.boxes[id].price
  {
    BoxSnapshot(id, db.boxes[id].name, db.boxes[id].price)
  }

  predicate HasBoxNamed(db: Db, name: string) {
    exists b :: b in db.boxes && db.boxes[b].name == name
  }

  /** `findOne({ where: { name } })`: the id of the box with that name, if any. */
  function FindBoxByName(db: Db, name: string): (r: Option<BoxId>)
    requires UniqueNames(db)
    ensures r.Some? <==> HasBoxNamed(db, name)
    ensures r.Some? ==> r.value in db.boxes && db.boxes[r.value].name == name
  {
    if HasBoxNamed(db, name) then
      var b :| b in db.boxes && db.boxes[b].name == name; Some(b)
    else None
  }

  /** Saving a new box: the next serial id, the given name and price 0. */
  function InsertBox(db: Db, name: string): (r: Db)
    ensures r.pieces == db.pieces && r.edges == db.edges && r.transactions == db.transactions
    ensures r.links == db.links && r.nextTx == db.nextTx && r.nextBox == db.nextBox + 1
    ensures r.boxes == db.boxes[db.nextBox := Box(name, 0)]
  {
    db.(boxes := db.boxes[db.nextBox := Box(name, 0)], nextBox := db.nextBox + 1)
  }

  /** Inserting a box under a fresh name keeps the schema valid, and the new box is
      the one found under that name. */
  lemma InsertBoxKeepsValid(db: Db, name: string)
    requires Valid(db) && !HasBoxNamed(db, name)
    ensures Valid(InsertBox(db, name))
    ensures FindBoxByName(InsertBox(db, name), name) == Some(db.nextBox)
  {
    var d := InsertBox(db, name);
    assert forall i :: 0 <= i < |d.edges| ==> EdgeResolves(d, d.edges[i]) by {
      forall i | 0 <= i < |d.edges| ensures EdgeResolves(d, d.edges[i]) {
        assert EdgeResolves(db, db.edges[i]);
      }
    }
    assert forall i :: 0 <= i < |d.links| ==> LinkResolves(d, d.links[i]) by {
      forall i | 0 <= i < |d.links| ensures LinkResolves(d, d.links[i]) {
        assert LinkResolves(db, db.links[i]);
      }
    }
    assert d.boxes[db.nextBox].name == name;
    assert HasBoxNamed(d, name);
  }

  /** `box.components[0]` exists: the box has at least one edge of its own. */
  predicate HasComponents(db: Db, b: BoxId) {
    exists i :: 0 <= i < |db.edges| && db.edges[i].parent == b
  }

  /** The one-level back-reference test: `container` has an edge whose box child is `b`. */
  predicate DirectlyContains(db: Db, container: BoxId, b: BoxId) {
    exists i :: 0 <= i < |db.edges| && db.edges[i] == Edge(container, BoxChild(b))
  }

  /** The price one edge contributes: its piece's or its box's price, 0 when the
      joined row is missing. */
  function ChildPrice(db: Db, c: Child): Cents {
    match c
    case PieceChild(p) => if p in db.pieces then db.pieces[p].price else 0
    case BoxChild(b) => if b in db.boxes then db.boxes[b].price else 0
  }

  /** The sum of the prices of a run of edges. */
  function EdgesPrice(db: Db, es: seq<Edge>): Cents
    decreases |es|
  {
    if es == [] then 0 else ChildPrice(db, es[0].child) + EdgesPrice(db, es[1..])
  }

  /** The edges of `parent`, in order. */
  function EdgesOf(es: seq<Edge>, parent: BoxId): (r: seq<Edge>)
    ensures |r| <= |es|
    ensures forall i :: 0 <= i < |r| ==> r[i].parent == parent && r[i] in es
    decreases |es|
  {
    if es == [] then []
    else if es[0].parent == parent then [es[0]] + EdgesOf(es[1..], parent)
    else EdgesOf(es[1..], parent)
  }

  /** What the box's price should be: the sum over its direct components. */
  function ComponentsPrice(db: Db, b: BoxId): Cents {
    EdgesPrice(db, EdgesOf(db.edges, b))
  }

  /** The invariant the price engine maintains for a box. */
  ghost predicate Consistent(db: Db, b: BoxId) {
    b in db.boxes ==> db.boxes[b].price == ComponentsPrice(db, b)
  }

  ghost predicate AllConsistent(db: Db) {
    forall b :: b in db.boxes ==> Consistent(db, b)
  }

  /** The parents of `child` in edge order, one entry per box edge pointing at it
      (`find({ where: { lego_box_component_id, component_type: 'box' } })`). */
  function ParentsOf(es: seq<Edge>, child: BoxId): (r: seq<BoxId>)
    ensures |r| <= |es|
    ensures forall j :: 0 <= j < |r| ==> Edge(r[j], BoxChild(child)) in es
    ensures forall i :: 0 <= i < |es| && es[i].child == BoxChild(child) ==> es[i].parent in r
    decreases |es|
  {
    if es == [] then []
    else
      var rest := ParentsOf(es[1..], child);
      assert forall i :: 1 <= i < |es| ==> es[i] == es[1..][i - 1];
      if es[0].child == BoxChild(child) then [es[0].parent] + rest else rest
  }

  /** A witness that the box-in-box graph is acyclic: every box edge goes from a
      box of lower rank to a box of strictly higher rank. */
  ghost predicate Ranked(es: seq<Edge>, rank: map<BoxId, nat>) {
    forall i :: 0 <= i < |es| && es[i].child.BoxChild? ==>
      es[i].parent in rank && es[i].child.box in rank && rank[es[i].parent] < rank[es[i].child.box]
  }

  function RankOf(rank: map<BoxId, nat>, b: BoxId): nat {
    if b in rank then rank[b] else 0
  }

  /** `b` is `x` or (transitively) contains it. */
  ghost predicate Above(es: seq<Edge>, rank: map<BoxId, nat>, b: BoxId, x: BoxId)
    requires Ranked(es, rank)
    decreases RankOf(rank, x)
  {
    b == x || exists i :: 0 <= i < |es| && es[i].child == BoxChild(x) && Above(es, rank, b, es[i].parent)
  }

  /** `b` transitively contains `x`, through at least one edge. */
  ghost predicate StrictlyAbove(es: seq<Edge>, rank: map<BoxId, nat>, b: BoxId, x: BoxId)
    requires Ranked(es, rank)
  {
    exists i :: 0 <= i < |es| && es[i].child == BoxChild(x) && Above(es, rank, b, es[i].parent)
  }

  /** Pricing distributes over concatenated runs of edges. */
  lemma {:induction false} EdgesPriceAppend(db: Db, a: seq<Edge>, b: seq<Edge>)
    ensures EdgesPrice(db, a + b) == EdgesPrice(db, a) + EdgesPrice(db, b)
    decreases |a|
  {
    if a != [] {
      assert (a + b)[1..] == a[1..] + b;
      EdgesPriceAppend(db, a[1..], b);
    } else {
      assert a + b == b;
    }
  }

  /** A run priced the same edge by edge is priced the same in total. */
  lemma {:induction false} EdgesPriceFrame(db1: Db, db2: Db, es: seq<Edge>)
    requires forall i :: 0 <= i < |es| ==> ChildPrice(db1, es[i].child) == ChildPrice(db2, es[i].child)
    ensures EdgesPrice(db1, es) == EdgesPrice(db2, es)
    decreases |es|
  {
    if es != [] {
      assert forall i :: 1 <= i < |es| ==> es[1..][i - 1] == es[i];
      EdgesPriceFrame(db1, db2, es[1..]);
    }
  }

  lemma AppendAssoc<T>(a: seq<T>, b: seq<T>, c: seq<T>)
    ensures (a + b) + c == a + (b + c)
  {
  }

  /** Prices read only pieces, boxes and edges: databases that agree on those are
      consistent together. */
  lemma ConsistencyReadsPrices(db1: Db, db2: Db)
    requires db1.pieces == db2.pieces && db1.boxes == db2.boxes && db1.edges == db2.edges
    ensures AllConsistent(db1) ==> AllConsistent(db2)
  {
    forall b | b in db2.boxes ensures ComponentsPrice(db1, b) == ComponentsPrice(db2, b) {
      EdgesPriceFrame(db1, db2, EdgesOf(db1.edges, b));
    }
  }

  lemma {:induction false} EdgesOfAppend(a: seq<Edge>, b: seq<Edge>, parent: BoxId)
    ensures EdgesOf(a + b, parent) == EdgesOf(a, parent) + EdgesOf(b, parent)
    decreases |a|
  {
    if a != [] {
      assert (a + b)[1..] == a[1..] + b;
      EdgesOfAppend(a[1..], b, parent);
      if a[0].parent == parent {
        assert EdgesOf(a + b, parent) == [a[0]] + EdgesOf(a[1..] + b, parent);
      }
    } else {
      assert a + b == b;
    }
  }

  /** A run whose edges all belong to other boxes contributes nothing to `parent`. */
  lemma {:induction false} EdgesOfForeign(es: seq<Edge>, parent: BoxId)
    requires forall i :: 0 <= i < |es| ==> es[i].parent != parent
    ensures EdgesOf(es, parent) == []
    decreases |es|
  {
    if es != [] {
      EdgesOfForeign(es[1..], parent);
    }
  }

  /** The ranking rules out a box holding itself. */
  lemma RankedNoSelfEdge(es: seq<Edge>, rank: map<BoxId, nat>, b: BoxId)
    requires Ranked(es, rank)
    ensures forall i :: 0 <= i < |es| ==> es[i] != Edge(b, BoxChild(b))
  {
  }

  /** Two databases with the same rows and keys, differing at most in box prices and
      transaction totals: what a pricing pass may change. */
  ghost predicate SameShape(db1: Db, db2: Db) {
    && db1.pieces == db2.pieces && db1.edges == db2.edges && db1.links == db2.links
    && db1.nextBox == db2.nextBox && db1.nextTx == db2.nextTx
    && db1.boxes.Keys == db2.boxes.Keys && db1.transactions.Keys == db2.transactions.Keys
    && (forall b :: b in db1.boxes ==> db2.boxes[b].name == db1.boxes[b].name)
  }

  /** Rewriting prices and totals keeps the schema's guarantees. */
  lemma SameShapeKeepsValid(db1: Db, db2: Db)
    requires Valid(db1) && SameShape(db1, db2)
    ensures Valid(db2)
  {
    assert forall i :: 0 <= i < |db2.edges| ==> EdgeResolves(db2, db2.edges[i]) by {
      forall i | 0 <= i < |db2.edges| ensures EdgeResolves(db2, db2.edges[i]) {
        assert EdgeResolves(db1, db1.edges[i]);
      }
    }
    assert forall i :: 0 <= i < |db2.links| ==> LinkResolves(db2, db2.links[i]) by {
      forall i | 0 <= i < |db2.links| ensures LinkResolves(db2, db2.links[i]) {
        assert LinkResolves(db1, db1.links[i]);
      }
    }
  }

  /** Along a box edge the rank goes down from child to parent. */
  lemma ParentRankLower(es: seq<Edge>, rank: map<BoxId, nat>, p: BoxId, c: BoxId)
    requires Ranked(es, rank) && Edge(p, BoxChild(c)) in es
    ensures RankOf(rank, p) < RankOf(rank, c)
  {
    var i :| 0 <= i < |es| && es[i] == Edge(p, BoxChild(c));
  }

  lemma {:induction false} ParentsOfAppend(a: seq<Edge>, b: seq<Edge>, child: BoxId)
    ensures ParentsOf(a + b, child) == ParentsOf(a, child) + ParentsOf(b, child)
    decreases |a|
  {
    if a != [] {
      assert (a + b)[1..] == a[1..] + b;
      ParentsOfAppend(a[1..], b, child);
    } else {
      assert a + b == b;
    }
  }

  /** The five pieces the seed migration inserts, priced in cents. */
  function SeedPieces(): map<PieceId, Piece> {
    map[1 := Piece("Square", 10), 2 := Piece("Rectangle", 8), 3 := Piece("Circle", 7),
        4 := Piece("Triangle", 6), 5 := Piece("Hexagon", 9)]
  }
}

=== FILE: text.dfy ===
/** The bits of JavaScript string behaviour the source relies on: rendering an
    integer inside a template literal and `String.prototype.includes`. */
module Text {

  /** The decimal digit character for `d`. */
  function Digit(d: nat): (c: char)
    requires d < 10
    ensures '0' <= c <= '9'
  {
    ('0' as int + d) as char
  }

  /** `${n}` for a non-negative integer: its decimal digits, most significant first. */
  function NatToString(n: nat): (s: string)
    ensures |s| >= 1
    ensures n >= 10 ==> |s| >= 2
    ensures forall i :: 0 <= i < |s| ==> '0' <= s[i] <= '9'
    decreases n
  {
    if n < 10 then [Digit(n)] else NatToString(n / 10) + [Digit(n % 10)]
  }

  /** Distinct numbers render as distinct strings. */
  lemma {:induction false} NatToStringInjective(a: nat, b: nat)
    requires NatToString(a) == NatToString(b)
    ensures a == b
    decreases a
  {
    if a < 10 && b < 10 {
    } else if a < 10 || b < 10 {
    } else {
      var sa, sb := NatToString(a), NatToString(b);
      assert sa[|sa| - 1] == Digit(a % 10) && sb[|sb| - 1] == Digit(b % 10);
      assert sa[..|sa| - 1] == NatToString(a / 10);
      assert sb[..|sb| - 1] == NatToString(b / 10);
      NatToStringInjective(a / 10, b / 10);
    }
  }

  predicate StartsWith(s: string, prefix: string) {
    |prefix| <= |s| && s[..|prefix|] == prefix
  }

  /** `s.includes(t)`: `t` occurs in `s` at some position. */
  predicate Contains(s: string, t: string)
    decreases |s|
  {
    StartsWith(s, t) || (|s| > 0 && Contains(s[1..], t))
  }

  /** `t` occurs in `s` exactly when some suffix of `s` starts with `t`. */
  lemma {:induction false} ContainsAt(s: string, t: string)
    ensures Contains(s, t) <==> exists k :: 0 <= k <= |s| && StartsWith(s[k..], t)
    decreases |s|
  {
    if |s| > 0 {
      ContainsAt(s[1..], t);
      forall k | 1 <= k <= |s|
        ensures s[k..] == s[1..][k - 1..]
      {
      }
      if Contains(s[1..], t) {
        var k :| 0 <= k <= |s[1..]| && StartsWith(s[1..][k..], t);
        assert s[1..][k..] == s[k + 1..];
      }
      if exists k :: 0 <= k <= |s| && StartsWith(s[k..], t) {
        var k :| 0 <= k <= |s| && StartsWith(s[k..], t);
        if k > 0 {
          assert StartsWith(s[1..][k - 1..], t);
        } else {
          assert s[0..] == s;
        }
      }
    } else {
      assert s[0..] == s;
    }
  }

  /** A string that lacks the first letter of `t` cannot contain `t`. */
  lemma {:induction false} MissingLetterExcludes(s: string, t: string)
    requires |t| > 0 && t[0] !in s
    ensures !Contains(s, t)
    decreases |s|
  {
    if |s| > 0 {
      assert forall c :: c in s[1..] ==> c in s;
      MissingLetterExcludes(s[1..], t);
    }
  }
}

=== FILE: wrappers.dfy ===
/** Option and Result, the two failure-carrying wrappers the model uses for
    nullable columns, missing rows and thrown exceptions. */
module Wrappers {

  datatype Option<+T> = None | Some(value: T) {
    function GetOr(default: T): T {
      match this
      case Some(v) => v
      case None => default
    }
  }

  datatype Result<+R, +E> = Success(value: R) | Failure(error: E)
}
